=== FILE: README.md ===
# AI Requirements Factory — a Dafny model of the wizard core

The AI Requirements Factory walks a user through a software-development lifecycle. A chain of AI
agents does the work:

1. business analyst
2. requirements reviewer
3. technical architect
4. technical designer
5. testing strategist
6. task planner
7. SDLC task allocator

Each agent receives a prompt built from the system description and the outputs of the earlier
steps. The user accepts each output, asks for a revision with feedback, or quits. Accepted
outputs are assembled into one Markdown document.

The repository ships the wizard three ways, and this project models the core of each:

- **Backend** (Express and Socket.IO):
  - `SessionManager`: the in-memory session store.
  - `WizardService`: the seven-step registry, input assembly and step execution.
  - `SocketController`: the `wizard:start`, `step:execute`, `step:accept` and `step:revise` handlers and the events they emit.
  - `ApiRoutes`: the REST routes, including the assembled download.
- **Frontend** (React):
  - `WizardContext`: the reducer, the socket listeners and the client actions.
  - `DescriptionForm`: the description form's validation.
- **CLI**:
  - `WizardState`: the wizard state.
  - `WizardSteps`: the five-step registry.
  - `InputHandler`: the line reader and review menu.
  - `CliWizard`: the step loop and the full run.
  - `FileManager`: the complete document.
  - `Environment`: API-key and model configuration.
- **Prompts**: the seven agents' user-prompt builders, shared by the CLI and the backend.

`JsText` gives the JavaScript string behaviour the source relies on:

- truthiness of `undefined`, `null` and `""`;
- `String.prototype.trim`;
- UTF-16 length;
- `repeat`.

`Wrappers` gives `Option` and `Result`.

## How the model is built

- **Values, not effects.** Every handler is a pure function from the state before to the state after.
- **Sessions.** A session store is an insertion-ordered list of ids plus a map, mirroring a JavaScript `Map`.
- **Socket events.** A socket's emitted events are an append-only sequence.
- **Exceptions.** A JavaScript exception that escapes a handler becomes a `Thrown` outcome. `SocketController.Settle` says what Node does with it: the process ends. The other lemmas that chain handlers continue from the state at the throw (see "## Left out").
- **The agent.** The Claude agent is an oracle: a function from (system prompt, user prompt) to a reply or an error message.
- **The injected service.** The socket controller receives the wizard service in its constructor. Its handlers are modelled over any step runner (`SocketController.Runner`); `SocketController.Service(oracle)` is the wizard service itself, and `SocketController.ServedStepStoresReply` connects the two.
- **The CLI user.** The user's typed lines are a finite sequence. Running out of lines stops the run in a `Waiting` state.
- **Stored values.** `undefined` and `null` stored values are `None`. An output read with `|| ''` becomes `""`.
- **Template literals.** A template literal that interpolates `undefined` produces the text `"undefined"`.

## Model

| member | source | states |
|---|---|---|
| SessionManager.CreateSession | backend/src/services/session-manager.js:15-28 | the new session has the given description, no outputs and step 0; it is retrievable by its id; every other id reads as before; a fresh id is appended to the listing order |
| SessionManager.GetSession | backend/src/services/session-manager.js:33-35 | a session is returned exactly when the id is stored, and it is the stored one |
| SessionManager.UpdateSession | backend/src/services/session-manager.js:40-49 | a missing id fails with "Session not found"; otherwise only that session changes, each field taken from the update when given and kept otherwise, and the order is unchanged |
| SessionManager.SaveStepOutput | backend/src/services/session-manager.js:54-64 | a missing id fails with "Session not found"; otherwise only the one output key of that session changes and every other session reads as before |
| SessionManager.GetAllSessions | backend/src/services/session-manager.js:69-71 | the listing has one entry per stored session, in insertion order, and every stored session appears in it |
| SessionManager.DeleteSession | backend/src/services/session-manager.js:76-78 | the result flag is true exactly when the id was stored; afterwards the id is not found and every other session is untouched; the insertion order is kept when the id was unknown and otherwise loses exactly the deleted id's position, the others keeping their relative order as `Map.delete` does |
| SessionManager.WithoutSplices | backend/src/services/session-manager.js:76-78 | removing an id from a distinct insertion order changes nothing when the id is absent and otherwise cuts out its one position |
| SessionManager.WithoutAbsent | backend/src/services/session-manager.js:76-78 | deleting an id that was never stored leaves the insertion order unchanged |
| SessionManager.WithoutAt | backend/src/services/session-manager.js:76-78 | the ids before and after the removed one stay in place and in order |
| SessionManager.DeleteKeepsListingOrder | backend/src/services/session-manager.js:69-78 | after a delete, `getAllSessions()` is the earlier listing with just the deleted session's entry cut out |
| SessionManager.WithoutKeepsDistinct | backend/src/services/session-manager.js:76-78 | removing an id from the insertion order keeps the ids distinct, so the store invariant survives a delete |
| SessionManager.ClearAll | backend/src/services/session-manager.js:83-85 | after clearing, no id is found and the listing is empty |
| WizardService.RegistryShape | backend/src/services/wizard-service.js:11-54 | the backend registry has seven steps with pairwise distinct ids and pairwise distinct save keys |
| WizardService.Stored | backend/src/services/wizard-service.js:68 | an output read with a fallback gives the stored text when there is one, and the empty string when it is missing or null |
| WizardService.GetStepInput | backend/src/services/wizard-service.js:60-131 | only the allocator receives a record; step 0 reads the description and step 1 the first step's output; the other inputs are stated by FirstInputs, ContextInputsChain, AllocatorInputIsRecord and InputReadsOnlyEarlierOutputs |
| WizardService.UserPrompt | backend/src/services/wizard-service.js:140-148 | a text input closes its step's prompt, except in the analyst's revision prompt; the allocator's prompt is its unrevised prompt whatever the feedback |
| WizardService.FirstInputs | backend/src/services/wizard-service.js:60-75 | the analyst reads the description, the reviewer reads the requirements, and the architect reads requirements and review joined by a blank line |
| WizardService.FalsyOutputsReadAlike | backend/src/services/wizard-service.js:60-131 | every step's input is the same whether an output is missing, null or the empty string, because each output is read with `|| ''` |
| WizardService.InputReadsStoredBefore | backend/src/services/wizard-service.js:60-131 | step k's input is determined by the description and the `|| ''` reads of the outputs of the steps before k |
| WizardService.AllocatorInputIsRecord | backend/src/services/wizard-service.js:116-126 | the allocator receives a record that holds the description and the six earlier outputs, each read with an empty fallback |
| WizardService.ContextPrefix | backend/src/services/wizard-service.js:77-114 | each longer context block extends the shorter one |
| WizardService.ContextInputsChain | backend/src/services/wizard-service.js:77-114 | the tester's input extends the designer's input, and the planner's input extends the tester's |
| WizardService.InputReadsOnlyEarlierOutputs | backend/src/services/wizard-service.js:60-131 | the input of step k depends only on the description and the outputs of steps before k |
| WizardService.ExecuteStep | backend/src/services/wizard-service.js:140-164 | the step succeeds exactly when the agent does and then returns its reply; an agent error becomes "Failed to execute <step name>: <message>" |
| WizardService.ExecutionReadsOnlyEarlierOutputs | backend/src/services/wizard-service.js:140-164 | re-running step k after later steps changed sends the agent the same user prompt (the system prompt is the step's own); with the agent modelled as a function of its prompts, the result is the same too |
| WizardService.AllocatorExecutionIgnoresFeedback | backend/src/services/wizard-service.js:140-164 | the allocator step sends the agent the same user prompt whatever feedback is passed, and so gets the same result from the modelled agent |
| SocketController.ExecuteStep | backend/src/controllers/socket-controller.js:106-154 | with no bound session, only a "Session not found" error is emitted; a step index outside the registry throws before anything is emitted; otherwise step:started is emitted, then either the output is saved under the step's key and step:completed is emitted, or step:error carries the failure; no session's progress changes |
| SocketController.Created | backend/src/controllers/socket-controller.js:18-24 | starting binds the socket to a new session with the description and no outputs, and emits session:created |
| SocketController.Start | backend/src/controllers/socket-controller.js:18-33 | the created session is stored at step 0 with the description; other sessions are untouched; step 0 then runs without feedback |
| SocketController.Advanced | backend/src/controllers/socket-controller.js:52-54 | accepting moves the bound session's current step to index+1, emits nothing and touches no other session |
| SocketController.Accept | backend/src/controllers/socket-controller.js:41-69 | with no session, only an error is emitted; otherwise progress becomes index+1 and then the next step runs when it exists, wizard:completed is emitted past the last step, and an index below -1 yields step:error (index -1 runs step 0) |
| SocketController.AcceptRunsNextIffInRange | backend/src/controllers/socket-controller.js:56-61 | an accept starts exactly the next step when it is in range, and emits exactly wizard:completed when it is not |
| SocketController.Cleared | backend/src/controllers/socket-controller.js:80-88 | revising the reviewer nulls the stored review, keeps progress, and emits step:navigate to 0 followed by step:cleared |
| SocketController.ReviseWith | backend/src/controllers/socket-controller.js:72-95 | null feedback throws before any effect; a reviewer revision clears the review, navigates to step 0 and re-runs the analyst with the feedback; any other step re-runs itself with the feedback |
| SocketController.Revise | backend/src/controllers/socket-controller.js:72-95 | the handler as written keeps every session's progress; null feedback throws; non-reviewer steps re-run themselves |
| SocketController.ReviseStepOneEvents | backend/src/controllers/socket-controller.js:82-90 | a reviewer revision appends exactly four events: navigate to 0, cleared, the analyst started, and the analyst finished |
| SocketController.ReviseStepOneClearsReview | backend/src/controllers/socket-controller.js:80-90 | after a reviewer revision the stored review is null, and the new events begin with navigate to 0, step:cleared naming the save key 'requirementsReview', and the analyst's step:started |
| SocketController.ReviseCorrected | backend/src/controllers/socket-controller.js:72-95 | a reviewer revision with a bound session appends four events, the second of which clears step 1's id, the key the client stores outputs under |
| SocketController.Settle | backend/src/controllers/socket-controller.js:72-95 | a listener that finishes leaves its server state; one that throws leaves no server, because the rejection is unhandled and ends the process |
| SocketController.RevisionWithoutFeedbackEndsServer | backend/src/controllers/socket-controller.js:72-74 | a step:revise without feedback ends the process for any step and any socket, and so does a step-1 revision on a socket with no session |
| SocketController.ReviseCaught | backend/src/controllers/socket-controller.js:41-69 | the revision listener with step:accept's catch never throws; it behaves as the listener when that finishes, and turns a missing feedback into one step:error naming the index |
| SocketController.CaughtRevisionKeepsServer | backend/src/controllers/socket-controller.js:72-95 | with the catch, every step:revise payload leaves the process running with every session and its progress kept |
| SocketController.ReviseKeepsProgress | backend/src/controllers/socket-controller.js:72-95 | no revision changes any session's current step |
| SocketController.ExecuteHandler | backend/src/controllers/socket-controller.js:36-38 | step:execute without a session emits only the error; with one, it runs the requested step |
| SocketController.NoSessionChangesNothing | backend/src/controllers/socket-controller.js:46-49 | with no bound session, accept and execute leave the store alone and emit a single error, and a reviewer revision throws "Session not found" |
| SocketController.ServedStepStoresReply | backend/src/controllers/socket-controller.js:106-154 | with the injected wizard service, a step run emits started and then either completes with the agent's reply to the step's prompt, stored under the step's save key, or reports the service's failure as step:error |
| SocketController.RunFeedsNextStep | backend/src/controllers/socket-controller.js:140 | a successful step leaves its reply as the stored output that later inputs read |
| ApiRoutes.ListSessions | backend/src/routes/api-routes.js:7-14 | 200 with one entry per stored session, and every stored session appears |
| ApiRoutes.GetSessionRoute | backend/src/routes/api-routes.js:17-27 | 404 "Session not found" exactly when the id is unknown, otherwise 200 with that session |
| ApiRoutes.CreateRoute | backend/src/routes/api-routes.js:30-42 | 400 exactly when the description is missing or empty, and then the store is unchanged; otherwise 201 with a fresh session that is stored and leaves the others untouched |
| ApiRoutes.GetStepOutput | backend/src/routes/api-routes.js:45-60 | 404 exactly for an unknown session; a non-numeric or out-of-range index gives 500 with the TypeError text; 200 exactly for a stored session and a registry index, with the stored value, null or absent |
| ApiRoutes.SavedOutputReadsBack | backend/src/routes/api-routes.js:45-60 | an output saved under step k's key is what the step route returns for k |
| ApiRoutes.CreatedSessionIsFound | backend/src/routes/api-routes.js:17-42 | a session created through the POST route is returned by the GET route with the posted description |
| ApiRoutes.DownloadDocument | backend/src/routes/api-routes.js:70-85 | the document is the title, timestamp and system description header followed directly by the step sections: it starts with the one, ends with the other, and is exactly as long as both |
| ApiRoutes.Download | backend/src/routes/api-routes.js:63-96 | 404 exactly for an unknown session, otherwise 200 with the assembled document |
| ApiRoutes.DownloadIgnoresReview | backend/src/routes/api-routes.js:72-73 | changing or clearing the requirements review never changes the downloaded document |
| ApiRoutes.SectionsAreParts | backend/src/routes/api-routes.js:72-79 | the sections are the concatenation of one part per registry step |
| ApiRoutes.RegistryParts | backend/src/routes/api-routes.js:72-77 | only step 1 has the review key, and its part is empty; every other step contributes its own section |
| ApiRoutes.StepSectionPresence | backend/src/routes/api-routes.js:74-77 | a step's section is empty exactly when its output is missing or empty; otherwise the output follows the step's heading |
| ApiRoutes.DownloadContainsOutput | backend/src/routes/api-routes.js:63-96 | the non-empty output of every step other than the review occurs in the downloaded document |
| ApiRoutes.DeleteRoute | backend/src/routes/api-routes.js:99-109 | 404 exactly when the id is unknown, otherwise 200 "Session deleted"; afterwards the id is not found and other sessions are untouched; a 404 leaves the listing order as it was, and a 200 cuts the deleted id out of it, the others keeping their order |
| ApiRoutes.DeleteTwiceNotFound | backend/src/routes/api-routes.js:99-109 | a second delete of the same id answers 404 |
| WizardContext.Reduce | frontend/src/context/WizardContext.jsx:56-109 | NEXT_STEP advances by one while below the last step, and from the last step or beyond sets the step to the last index (at exactly the last step the state is unchanged); PREVIOUS_STEP steps back by one from step 1 or above and otherwise sets step 0; SET_SESSION_ID, SET_SYSTEM_DESCRIPTION, SET_CURRENT_STEP, SET_PROCESSING and SET_CONNECTED each change only their own field; SET_OUTPUT writes one key and keeps the others; SET_ERROR stops processing; ADD_TO_HISTORY appends; RESET returns to the initial state keeping the connection flag; unknown actions change nothing |
| WizardContext.OnEvent | frontend/src/context/WizardContext.jsx:123-177 | step:started first sets processing, step:completed clears it, a server error dispatches nothing, and no listener navigates with NEXT, PREVIOUS or RESET |
| WizardContext.ProcessingFollowsServer | frontend/src/context/WizardContext.jsx:137-170 | after step:started the client is processing; after step:completed or step:error it is not |
| WizardContext.Receive | frontend/src/context/WizardContext.jsx:123-177 | a listener's actions never change the step list, and only step:navigate moves the step, to its target |
| WizardContext.ReceiveEffect | frontend/src/context/WizardContext.jsx:145-162 | navigate only moves the step; cleared nulls one output; completed stores the output under the event's step id; started and error leave outputs and step alone |
| WizardContext.StartWizard | frontend/src/context/WizardContext.jsx:203-208 | while processing or without a socket nothing happens; otherwise exactly wizard:start is emitted and the client is processing |
| WizardContext.StartWizardOnce | frontend/src/context/WizardContext.jsx:203-208 | a second start right after a first one does nothing |
| WizardContext.ExecuteStep | frontend/src/context/WizardContext.jsx:210-215 | while processing or without a socket nothing happens; otherwise exactly step:execute is emitted and the client is processing |
| WizardContext.AcceptStep | frontend/src/context/WizardContext.jsx:217-222 | with a socket, step:accept is emitted and NEXT_STEP is dispatched; without one nothing happens |
| WizardContext.RequestRevision | frontend/src/context/WizardContext.jsx:224-228 | step:revise is emitted exactly when there is a socket; nothing is dispatched |
| WizardContext.SetOutputsCommute | frontend/src/context/WizardContext.jsx:67-74 | outputs for two different steps can be set in either order |
| WizardContext.PreviousUndoesNext | frontend/src/context/WizardContext.jsx:91-101 | below the last step, PREVIOUS_STEP undoes NEXT_STEP |
| WizardContext.ResetIdempotent | frontend/src/context/WizardContext.jsx:103-104 | resetting twice equals resetting once; reset clears outputs and history and keeps the connection flag |
| WizardContext.StepIdsAgree | frontend/src/context/WizardContext.jsx:6-42 | the client's step list has the backend registry's ids in the same order |
| WizardContext.DriveKeepsRange | frontend/src/context/WizardContext.jsx:91-95 | under any sequence of server events and accepts whose navigations stay in range, the current step stays within the step list |
| WizardContext.IsComplete | frontend/src/pages/WizardPage.jsx:68 | the banner shows only when no step is current; NeverComplete shows it never shows |
| WizardContext.NeverComplete | frontend/src/pages/WizardPage.jsx:68 | as written, the completion check "current step equals the number of steps" never holds on the client |
| WizardContext.AcceptAllStopsAtLast | frontend/src/context/WizardContext.jsx:91-95 | accepting all seven steps leaves the client on the last step, not complete |
| WizardContext.ReduceCorrected | frontend/src/context/WizardContext.jsx:91-95 | the corrected NEXT_STEP may advance to one past the last step and otherwise behaves as the reducer |
| WizardContext.CorrectedAcceptsComplete | frontend/src/components/Wizard/StepIndicator.jsx:38 | with the corrected reducer, accepting the remaining steps reaches the completed state |
| WizardContext.ReceiveRevision | frontend/src/context/WizardContext.jsx:145-162 | the four revision events return the client to step 0 and null exactly the cleared key, keeping the other outputs |
| WizardContext.StaleReviewAfterRevision | frontend/src/context/WizardContext.jsx:150-153 | after a reviewer revision as written, the client's review output under the step id 'requirementsReviewer' is left as it was |
| WizardContext.ClearedReviewAfterCorrectedRevision | frontend/src/context/WizardContext.jsx:150-153 | after the corrected revision, the client's review output is null and the client is on step 0 |
| DescriptionForm.HandleSubmit | frontend/src/components/Wizard/SystemDescriptionForm.jsx:19-35 | a blank description shows the blank error; a trimmed description shorter than 50 UTF-16 units shows the length error; the wizard starts exactly when the trimmed length is at least 50, and then with the untrimmed text stored first |
| DescriptionForm.RefusedDoesNothing | frontend/src/components/Wizard/SystemDescriptionForm.jsx:23-31 | a refused description dispatches nothing, starts nothing and shows one of the two errors |
| DescriptionForm.BlankBeforeShort | frontend/src/components/Wizard/SystemDescriptionForm.jsx:23-26 | an all-space description reports the blank error rather than the length error |
| Prompts.UserPrompt | src/prompts/requirements-reviewer.js:60-65 | without truthy feedback the prompt is the lead followed by the input; with feedback it opens with the quoted feedback and ends with the labelled input, or with the request when there is no label |
| Prompts.BusinessAnalystPrompt | src/prompts/business-analyst.js:47-52 | without feedback it is the lead followed by the description; with feedback its length is fixed by the feedback alone |
| Prompts.RequirementsReviewerPrompt | src/prompts/requirements-reviewer.js:60-65 | the feedback is quoted after the opening and the requirements always end the prompt |
| Prompts.TechnicalArchitectPrompt | src/prompts/technical-architect.js:98-103 | the feedback is quoted after the opening and the requirements always end the prompt |
| Prompts.TechnicalDesignerPrompt | src/prompts/technical-designer.js:273-282 | the feedback is quoted after the opening and the previous context always ends the prompt |
| Prompts.TestingStrategistPrompt | src/prompts/testing-strategist.js:496-505 | the feedback is quoted after the opening and the previous context always ends the prompt |
| Prompts.TaskPlannerPrompt | src/prompts/task-planner.js:510-519 | the feedback is quoted after the opening and the previous outputs always end the prompt |
| Prompts.LeadsEndWithContextLabel | src/prompts/technical-designer.js:277-281 | the designer's, tester's and planner's first-run leads end with the same context label their revision prompts use |
| Prompts.SameHeadThenInput | src/prompts/testing-strategist.js:496-505 | for a labelled template, the prompt is a head fixed by the feedback followed by the input |
| Prompts.AllocatorPrompt | src/prompts/sdlc-task-allocator.js:18-208 | the allocator prompt opens with the introduction and the description section, and ends with the task-plan section and the instructions |
| Prompts.AllocatorLayout | src/prompts/sdlc-task-allocator.js:31-57 | each of the seven input sections sits at its own increasing offset in the prompt |
| Prompts.AllocatorIgnoresFeedback | src/prompts/sdlc-task-allocator.js:18 | the allocator's prompt is the same whatever feedback is passed |
| Prompts.AllocatorFeedbackLost | src/prompts/sdlc-task-allocator.js:18 | a concrete revision request for the allocator produces the unrevised prompt |
| Prompts.RefineRequest | src/prompts/technical-architect.js:98-103 | the corrected revision request is the base prompt itself without truthy feedback; with it, the quoted feedback sits right after "Based on this feedback: " and the base prompt ends the text |
| Prompts.RefineDistinguishes | src/prompts/technical-architect.js:98-103 | two different non-empty feedbacks give two different revision requests over the same base prompt |
| Prompts.AllocatorPromptWithFeedback | src/prompts/sdlc-task-allocator.js:18-208 | the corrected allocator prompt quotes truthy feedback and then carries the full allocator prompt |
| Prompts.AllocatorFeedbackDistinguishes | src/prompts/sdlc-task-allocator.js:18-208 | different non-empty feedbacks give different corrected allocator prompts |
| Prompts.BusinessAnalystFeedbackDropsDescription | src/prompts/business-analyst.js:48-50 | as written, any two descriptions give the same revision prompt for the same feedback |
| Prompts.BusinessAnalystFeedbackCollision | src/prompts/business-analyst.js:48-50 | a payroll system and a chess engine get identical revision prompts |
| Prompts.BusinessAnalystPromptCorrected | src/prompts/business-analyst.js:47-52 | the corrected analyst prompt matches the original without feedback and always ends with the description |
| Prompts.BusinessAnalystCorrectedKeepsDescription | src/prompts/business-analyst.js:47-52 | with the correction, different descriptions always give different prompts |
| WizardState.GetOutput | src/orchestration/wizard-state.js:28-30 | an output is present exactly when saved, with the saved text |
| WizardState.SetSystemDescription | src/orchestration/wizard-state.js:14-16 | only the description changes |
| WizardState.SaveOutput | src/orchestration/wizard-state.js:21-23 | the key reads back the content; every other key, the description and the step are unchanged |
| WizardState.SetCurrentStep | src/orchestration/wizard-state.js:42-44 | only the current step changes |
| WizardState.FreshIsEmpty | src/orchestration/wizard-state.js:5-9 | a new state has an empty description, step 0 and no outputs |
| WizardState.LastWriteWins | src/orchestration/wizard-state.js:14-44 | for each setter, the second of two writes is what is read |
| WizardSteps.Interpolate | src/orchestration/wizard-steps.js:26 | a missing output is interpolated as the text "undefined" |
| WizardSteps.RegistryShape | src/orchestration/wizard-steps.js:6-44 | the CLI runs five steps, the same first five as the backend by id, with distinct save keys |
| WizardSteps.GetInput | src/orchestration/wizard-steps.js:12-40 | an input is missing only for steps 1, 3 and 4, and only when the step before never saved its output; InputsOfEachStep gives each input |
| WizardSteps.UserPrompt | src/orchestration/wizard.js:29-30 | the interpolated input closes the prompt, except in the analyst's revision prompt |
| WizardSteps.InputsOfEachStep | src/orchestration/wizard-steps.js:12-40 | each step's input is the description or the listed earlier outputs |
| WizardSteps.InputReadsOnlyEarlierOutputs | src/orchestration/wizard-steps.js:6-44 | a step's input and prompt depend only on the description and earlier steps' outputs |
| WizardSteps.SavingLaterOutputKeepsPrompt | src/orchestration/wizard-steps.js:6-44 | saving the output of the same or a later step does not change a step's prompt |
| WizardSteps.CounterDoesNotAffectPrompt | src/orchestration/wizard-steps.js:6-44 | the current-step counter does not affect any prompt |
| InputHandler.Ask | src/utils/input-handler.js:19-25 | an answer is a slice of the line with only white space before and after it, is empty exactly when the line is all white space, and has no white space at either end |
| InputHandler.AskIsStrippedLine | src/utils/input-handler.js:19-25 | the answer is the only slice of the line with only white space around it and none at its ends, so it is the line with leading and trailing white space removed |
| InputHandler.AskIdempotent | src/utils/input-handler.js:19-25 | trimming an answer again changes nothing |
| InputHandler.GetSystemDescription | src/utils/input-handler.js:30-33 | with input left, the description is the next answer and the rest follows it; with none left, nothing is read |
| InputHandler.GetReviewDecision | src/utils/input-handler.js:38-56 | a decision always consumes at least one answer and leaves a suffix of the input |
| InputHandler.FirstOptionDecides | src/utils/input-handler.js:38-56 | invalid answers are skipped; the first "1" accepts, the first "3" quits, and the first "2" takes the next answer as feedback, with no decision when no answer follows |
| InputHandler.NoOptionNoDecision | src/utils/input-handler.js:52-54 | input without a menu option yields no decision |
| InputHandler.PaddedOptionCounts | src/utils/input-handler.js:22 | a menu choice typed with surrounding spaces still counts |
| CliWizard.ProcessLoop | src/orchestration/wizard.js:57-81 | the first attempt uses the given feedback; the loop consumes a suffix of the input; an accept or quit ends with one decision per attempt, a failure or exhausted input with one fewer |
| CliWizard.LoopRevisions | src/orchestration/wizard.js:75-77 | each re-run's feedback is exactly the feedback of the revision decision before it |
| CliWizard.LoopAccepts | src/orchestration/wizard.js:73-74 | a step is accepted exactly when its last decision is accept |
| CliWizard.LoopQuits | src/orchestration/wizard.js:78-79 | a step is quit exactly when its last decision is quit |
| CliWizard.LoopWritesOwnKey | src/orchestration/wizard.js:60 | the loop writes only its own step's output key and keeps the description and counter |
| CliWizard.LoopKeepsLastReply | src/orchestration/wizard.js:59-60 | unless the agent failed, the stored output is the reply to the last attempt's feedback; a failure carries that attempt's error, and a first-attempt failure changes nothing |
| CliWizard.Execute | src/orchestration/wizard.js:24-45 | one agent call with the step's system prompt and user prompt, which does not read the step counter; an error propagates unchanged |
| CliWizard.ProcessStep | src/orchestration/wizard.js:50-84 | the first attempt has no feedback and the step consumes a suffix of the typed lines; StepKeepsLastReply and ProcessLoop's rows give the rest |
| CliWizard.CallIgnoresOwnKey | src/orchestration/wizard.js:24-45 | a step's agent call does not depend on the step's own stored output |
| CliWizard.StepKeepsLastReply | src/orchestration/wizard.js:50-84 | after a step that did not fail, its stored output is the agent's reply to its final prompt |
| CliWizard.ReviseRerunsWithFeedback | src/orchestration/wizard.js:75-77 | after a revise decision the step re-runs with exactly that feedback |
| CliWizard.RunFrom | src/orchestration/wizard.js:104-115 | a run from a step in range makes at least one attempt, the first without feedback |
| CliWizard.RunInOrder | src/orchestration/wizard.js:104-115 | attempts are in step order: a step repeats only with revision feedback and the next one starts fresh |
| CliWizard.RunStopsAt | src/orchestration/wizard.js:107-113 | a quit or a failure happens at the step of the last attempt |
| CliWizard.RunCompletesAtLast | src/orchestration/wizard.js:104-118 | a completed run ends at the last step |
| CliWizard.RunWrites | src/orchestration/wizard.js:104-115 | the run keeps the description, leaves the counter at the last attempted step, writes only the keys of the steps it ran, and on completion has an output for every step |
| CliWizard.RunWizard | src/orchestration/wizard.js:89-123 | an empty description stops before any step; a document is written exactly when the run completes or quits, from the final state |
| CliWizard.RunWizardInOrder | src/orchestration/wizard.js:104-115 | a whole run's attempts are ordered, and after a quit no attempt lies beyond the quit step |
| CliWizard.RunWizardCompletes | src/orchestration/wizard.js:89-123 | a completed run stores the trimmed description and an output for each of the five steps |
| FileManager.Content | src/utils/file-manager.js:62 | the description section shows the description, or the output stored under "undefined" when it is empty; other sections show their key's output |
| FileManager.GenerateCompleteDocument | src/utils/file-manager.js:44-70 | the document is the title, timestamp and rule header followed directly by the sections: it starts with the one, ends with the other, and ends exactly where the last section does (`SectionOffset` at the section count), so nothing follows the last section |
| FileManager.SectionLayout | src/utils/file-manager.js:60-67 | each section's heading sits at its offset, followed by its content and a rule when the content is truthy, and the next section starts right after |
| FileManager.ReviewNeverIncluded | src/utils/file-manager.js:45-54 | storing, changing or removing the requirements review never changes the document |
| Environment.GetApiKey | src/config/environment.js:16-18 | the environment's key wins when non-empty, then the third command-line argument; there is no key exactly when both are missing or empty |
| Environment.GetModel | src/config/environment.js:24-26 | the model is the environment's when non-empty, otherwise the default model |
| Environment.Validate | src/config/environment.js:32-48 | the configuration is valid exactly when there are no errors, exactly when an API key is found; otherwise the one error is the missing-key message |
| Environment.EnvironmentKeyWins | src/config/environment.js:16-18 | a non-empty environment key is used and validates |
| Environment.ArgumentKeySuffices | src/config/environment.js:16-18 | without an environment key, a key passed as the first script argument validates |
| Environment.EmptyKeyIsMissing | src/config/environment.js:16-37 | an empty environment key counts as missing |

## Left out

- The Claude agent: its network call, token limits and retry callback are outside the model. Each step's call is an oracle parameter. No retry code exists in the modelled files, and the retry callback is ignored.
- The agent's sampling: the agent is modelled as a function of its two prompts, so the same prompts always get the same reply. The real call (src/agents/base-agent.js:23-33) sets no temperature, so its replies are sampled and may differ. This affects the backend service and the CLI, whose step calls are built from the same kind of oracle.
- WizardService.ExecutionReadsOnlyEarlierOutputs, WizardService.AllocatorExecutionIgnoresFeedback: the "same user prompt" clause holds of the source. The "same result" clause holds only because the modelled agent answers equal prompts equally.
- SessionUpdate: `updateSession` merges any fields with `Object.assign` (backend/src/services/session-manager.js:46). The model's update carries only the description, the outputs and the current step; the one caller, socket-controller.js:52-54, passes `currentStep` alone.
- Transport: Express, Socket.IO rooms and joins, and axios are left out. A socket is the bound session id plus its emitted event sequence.
- React rendering, routing and component state: only the reducer, the listeners, the actions and the description form's submit logic are modelled.
- The client's other dispatch actions (`setSystemDescription`, `nextStep`, `previousStep`, `setCurrentStep`, `reset`) each dispatch one reducer action. Their behaviour is the reducer's.
- The client's download-all (`handleDownloadAll`, frontend/src/pages/WizardPage.jsx:35-59) is not part of this model. It rebuilds the document on the client; StepOutput.jsx has only the per-step download.
- Console output, spinners, banners and the per-step files written by the CLI (`saveFile`, `saveCompleteDocument`) are left out. The complete document is returned as a value.
- Session ids (uuid), `new Date()` timestamps and ISO formatting are parameters. The model does not generate them.
- The agents' system prompts are distinct opaque strings. The allocator's long role-by-role instruction text is a single constant, because no property depends on its wording.
- Concurrency: two handlers interleaving on one session is not modelled. Each handler runs to completion.
- JSON serialisation is not modelled. Absent and `null` outputs are kept apart as `None` and `Some(None)`. Request bodies are assumed to carry a string or nothing. `parseInt` is an optional integer.
- The CLI agent error propagates out of `run` uncaught. It is modelled as a `FailedAt` outcome. Running out of typed lines is modelled as a `Waiting` outcome, where the source would wait for more input.
- Environment: `DEFAULT_MODEL` is read once at import time. It is modelled through `GetModel`, which reads the same variable first. `getApiKey` reads one environment map.
- Constants come from constants.js and are fixed: the menu options, the default model and the 50-character minimum.
- Continuing after a throw: `Handled.Final` hands the state at a `Thrown` to whatever runs next, and `SocketController.ReviseKeepsProgress` reads it. That assumes a runtime that survives unhandled rejections. The real server (backend/src/server.js) registers no `unhandledRejection` handler, so on Node 15 or later the process exits; `SocketController.Settle` and the findings row below model that.
- SocketController.Revise: a payload whose `feedback` field is missing throws the TypeError with "undefined" in place of "null". Both are modelled as `None`, with the null message.
- SocketController.ReviseCorrected: states only the event count and the cleared id of a reviewer revision. The rest of its behaviour is shared with `ReviseWith`, whose contract covers it.
- Prompts.BusinessAnalystPrompt: with feedback, states the quoted feedback, the request and the total length rather than the full text. The text is fixed by the template constants.

## Findings

| source | as written | input that shows it | evidently intended | confidence | as-written member | corrected member |
|---|---|---|---|---|---|---|
| frontend/src/context/WizardContext.jsx:91-95 | NEXT_STEP clamps the step to steps.length-1, but WizardPage.jsx:68 and StepIndicator.jsx:38 declare completion when the step equals steps.length | accept all seven steps in order: the client stays on step 6 and never shows completion | NEXT_STEP may move one past the last step, so the completion check can hold | not executed | WizardContext.NeverComplete | WizardContext.CorrectedAcceptsComplete |
| backend/src/controllers/socket-controller.js:88 | step:cleared names the save key 'requirementsReview', while the client stores outputs under the step id 'requirementsReviewer' | revise step 1 with any feedback: the client's review output stays stale | the cleared event names the step id, so the client drops the old review | not executed | WizardContext.StaleReviewAfterRevision | WizardContext.ClearedReviewAfterCorrectedRevision |
| src/prompts/business-analyst.js:48-50 | the revision prompt carries only the feedback, not the system description or the previous requirements | the same feedback "add audit logging" for "a payroll system" and "a chess engine" gives identical prompts | the revision prompt carries the description it revises | not executed | Prompts.BusinessAnalystFeedbackCollision | Prompts.BusinessAnalystCorrectedKeepsDescription |
| backend/src/controllers/socket-controller.js:72-74 | the step:revise listener is async and has no try/catch; `feedback.substring` throws when the payload has no feedback, the rejected promise is never handled, and server.js registers no unhandledRejection handler | any client emits step:revise with stepIndex 2 and no feedback: on Node 15 or later the backend exits and every session is lost | the listener catches, like step:accept, and reports step:error to that client | medium, not executed | SocketController.RevisionWithoutFeedbackEndsServer | SocketController.CaughtRevisionKeepsServer |
| src/prompts/sdlc-task-allocator.js:18 | getUserPrompt takes only the inputs, so the feedback passed by wizard-service.js:143 is dropped | revise the allocator step with "add a DevOps role": the agent gets the unrevised prompt | the allocator prompt quotes the feedback as the other agents' prompts do | not executed | Prompts.AllocatorFeedbackLost | Prompts.AllocatorFeedbackDistinguishes |


=== FILE: api_routes.dfy ===
/**
 * The REST routes of the backend, each as a pure function of the session
 * store and the request's parameters, returning the status code and the
 * JSON body (or, for the download, the markdown text). The generated
 * timestamp and the fresh session id are parameters; `parseInt` of the
 * step index is given as `None` for NaN.
 */
module ApiRoutes {
  import opened Wrappers
  import opened JsText
  import opened SessionManager
  import WS = WizardService

  datatype Body =
    | Sessions(sessions: seq<Session>)
    | OneSession(session: Session)
    /** `{ output }`: `None` is `undefined` (no output key), `Some(None)` is a stored `null`. */
    | StepOutput(output: Option<Option<string>>)
    | Document(text: string)
    | Message(message: string)
    | Error(error: string)

  datatype Response = Response(status: int, body: Body)

  const DescriptionRequired := "System description is required"
  const SessionDeleted := "Session deleted"
  /** The `TypeError` of `step.saveKey` when the index names no step. */
  const UndefinedSaveKey := "Cannot read properties of undefined (reading 'saveKey')"
  const ReviewKey := "requirementsReview"
  const Title := "# Software Development Lifecycle Documentation\n\n"

  /** `GET /sessions`: every session in creation order. */
  function ListSessions(store: Store): (r: Response)
    requires Valid(store)
    ensures r.status == 200 && r.body.Sessions?
    ensures |r.body.sessions| == |store.order|
    ensures forall id :: GetSession(store, id).Some? ==> GetSession(store, id).value in r.body.sessions
  {
    var all := GetAllSessions(store);
    assert forall id :: GetSession(store, id).Some? ==> GetSession(store, id).value in all by {
      forall id | GetSession(store, id).Some?
        ensures GetSession(store, id).value in all
      {
        var i :| 0 <= i < |all| && all[i] == store.sessions[id];
      }
    }
    Response(200, Sessions(all))
  }

  /** `GET /sessions/:id`. */
  function GetSessionRoute(store: Store, id: SessionId): (r: Response)
    ensures r.status == 404 <==> id !in store.sessions
    ensures r.status == 404 ==> r.body == Error(NotFound)
    ensures r.status != 404 ==> r == Response(200, OneSession(store.sessions[id]))
  {
    match GetSession(store, id)
    case None => Response(404, Error(NotFound))
    case Some(session) => Response(200, OneSession(session))
  }

  /**
   * `POST /sessions`: a falsy description answers 400 and leaves the store
   * as it was; otherwise the session is created under `freshId`.
   */
  function CreateRoute(store: Store, freshId: SessionId, systemDescription: Option<string>): (r: (Store, Response))
    requires Valid(store)
    ensures Valid(r.0)
    ensures r.1.status == 400 <==> !Truthy(systemDescription)
    ensures !Truthy(systemDescription) ==> r.0 == store && r.1.body == Error(DescriptionRequired)
    ensures Truthy(systemDescription) ==>
              && r.1 == Response(201, OneSession(Session(freshId, systemDescription.value, map[], 0)))
              && GetSession(r.0, freshId) == Some(r.1.body.session)
              && (forall id :: id != freshId ==> GetSession(r.0, id) == GetSession(store, id))
  {
    if !Truthy(systemDescription) then (store, Response(400, Error(DescriptionRequired)))
    else
      var (next, session) := CreateSession(store, freshId, systemDescription.value);
      (next, Response(201, OneSession(session)))
  }

  /**
   * `GET /sessions/:id/steps/:stepIndex`: the stored output under the
   * indexed step's save key. An index that names no step makes `step`
   * undefined, and the thrown `TypeError` answers 500.
   */
  function GetStepOutput(store: Store, id: SessionId, stepIndex: Option<int>): (r: Response)
    ensures r.status == 404 <==> id !in store.sessions
    ensures r.status == 404 ==> r.body == Error(NotFound)
    ensures id in store.sessions && !(stepIndex.Some? && WS.IsStepIndex(stepIndex.value)) ==>
              r == Response(500, Error(UndefinedSaveKey))
    ensures r.status == 200 <==> id in store.sessions && stepIndex.Some? && WS.IsStepIndex(stepIndex.value)
    ensures r.status == 200 ==>
              r.body == StepOutput(Lookup(store.sessions[id].outputs, WS.Steps[stepIndex.value].saveKey))
  {
    match GetSession(store, id)
    case None => Response(404, Error(NotFound))
    case Some(session) =>
      if stepIndex.Some? && WS.IsStepIndex(stepIndex.value) then
        Response(200, StepOutput(Lookup(session.outputs, WS.Steps[stepIndex.value].saveKey)))
      else
        Response(500, Error(UndefinedSaveKey))
  }

  /** What a saved step output reads back as through the step-output route. */
  lemma SavedOutputReadsBack(store: Store, id: SessionId, k: int, output: Option<string>)
    requires Valid(store) && WS.IsStepIndex(k)
    requires id in store.sessions
    ensures var saved := SaveStepOutput(store, id, WS.Steps[k].saveKey, output);
            saved.Ok? && GetStepOutput(saved.value.0, id, Some(k)) == Response(200, StepOutput(Some(output)))
  {
  }

  /** A created session is found by the get route under its fresh id. */
  lemma CreatedSessionIsFound(store: Store, freshId: SessionId, systemDescription: string)
    requires Valid(store) && systemDescription != ""
    ensures var (next, created) := CreateRoute(store, freshId, Some(systemDescription));
            GetSessionRoute(next, freshId) == Response(200, created.body)
            && created.body.session.systemDescription == systemDescription
  {
  }

  // ---------------------------------------------------------------------
  // The download.

  /** `'='.repeat(80)`. */
  const Separator: string := Repeat('=', 80)

  /** One step's section: its name as a heading, then its output and a separator; nothing when the output is falsy. */
  function StepSection(step: WS.Step, session: Session): string {
    var output := WS.Stored(session, step.saveKey);
    if output == "" then "" else "# " + step.name + "\n\n" + output + "\n\n" + Separator + "\n\n"
  }

  /** What a step adds to the download once the review is filtered out. */
  function Part(step: WS.Step, session: Session): string {
    if step.saveKey == ReviewKey then "" else StepSection(step, session)
  }

  /** The `filter`, `map` and `join('')` over the steps: every step but the review. */
  function DownloadSections(steps: seq<WS.Step>, session: Session): string
  {
    if |steps| == 0 then "" else Part(steps[0], session) + DownloadSections(steps[1..], session)
  }

  /** The fixed head of the download: title, timestamp, the description and a separator. */
  function DownloadHeader(systemDescription: string, timestamp: string): string {
    Title + "Generated: " + timestamp + "\n\n" + "## System Description\n\n" + systemDescription + "\n\n"
    + Separator + "\n\n"
  }

  function DownloadDocument(session: Session, timestamp: string): (r: string)
    ensures StartsWith(r, DownloadHeader(session.systemDescription, timestamp))
    ensures EndsWith(r, DownloadSections(WS.Steps, session))
    ensures |r| == |DownloadHeader(session.systemDescription, timestamp)| + |DownloadSections(WS.Steps, session)|
  {
    var head := DownloadHeader(session.systemDescription, timestamp);
    var sections := DownloadSections(WS.Steps, session);
    ConcatStartsWith(head, sections);
    ConcatEndsWith(head, sections);
    head + sections
  }

  /** `GET /sessions/:id/download`. */
  function Download(store: Store, id: SessionId, timestamp: string): (r: Response)
    ensures r.status == 404 <==> id !in store.sessions
    ensures r.status == 404 ==> r.body == Error(NotFound)
    ensures r.status != 404 ==> r == Response(200, Document(DownloadDocument(store.sessions[id], timestamp)))
  {
    match GetSession(store, id)
    case None => Response(404, Error(NotFound))
    case Some(session) => Response(200, Document(DownloadDocument(session, timestamp)))
  }

  /** `DELETE /sessions/:id`: 404 exactly when there was nothing to delete. */
  function DeleteRoute(store: Store, id: SessionId): (r: (Store, Response))
    requires Valid(store)
    ensures Valid(r.0)
    ensures r.1.status == 404 <==> id !in store.sessions
    ensures r.1 == (if id in store.sessions then Response(200, Message(SessionDeleted)) else Response(404, Error(NotFound)))
    ensures GetSessionRoute(r.0, id).status == 404
    ensures forall other :: other != id ==> GetSession(r.0, other) == GetSession(store, other)
    ensures r.0.order == Without(store.order, id)
    ensures CutOut(store.order, id, r.0.order)
  {
    var (next, deleted) := DeleteSession(store, id);
    if !deleted then (next, Response(404, Error(NotFound)))
    else (next, Response(200, Message(SessionDeleted)))
  }

  /** Deleting twice: the second delete answers 404. */
  lemma DeleteTwiceNotFound(store: Store, id: SessionId)
    requires Valid(store)
    ensures DeleteRoute(DeleteRoute(store, id).0, id).1.status == 404
  {
  }

  /** Two sessions read the same under every key but the review. */
  ghost predicate SameOutsideReview(a: Session, b: Session) {
    forall key :: key != ReviewKey ==> WS.Stored(a, key) == WS.Stored(b, key)
  }

  /** The review output never reaches the download, whatever it holds. */
  lemma {:induction false} SectionsIgnoreReview(steps: seq<WS.Step>, a: Session, b: Session)
    requires SameOutsideReview(a, b)
    ensures DownloadSections(steps, a) == DownloadSections(steps, b)
    decreases |steps|
  {
    if |steps| > 0 {
      if steps[0].saveKey != ReviewKey {
        assert WS.Stored(a, steps[0].saveKey) == WS.Stored(b, steps[0].saveKey);
      }
      SectionsIgnoreReview(steps[1..], a, b);
    }
  }

  /** The download does not change when only the review output changes. */
  lemma DownloadIgnoresReview(session: Session, review: Option<string>, timestamp: string)
    ensures DownloadDocument(session.(outputs := session.outputs[ReviewKey := review]), timestamp)
         == DownloadDocument(session, timestamp)
  {
    var changed := session.(outputs := session.outputs[ReviewKey := review]);
    forall key | key != ReviewKey
      ensures WS.Stored(changed, key) == WS.Stored(session, key)
    {
      assert (key in changed.outputs) == (key in session.outputs);
    }
    SectionsIgnoreReview(WS.Steps, changed, session);
  }

  /** The parts of the steps, one per step, in order. */
  function Parts(steps: seq<WS.Step>, session: Session): (ps: seq<string>)
    ensures |ps| == |steps|
    ensures forall i :: 0 <= i < |steps| ==> ps[i] == Part(steps[i], session)
  {
    seq(|steps|, i requires 0 <= i < |steps| => Part(steps[i], session))
  }

  /** The download's sections are the steps' parts joined in the steps' order. */
  lemma {:induction false} SectionsAreParts(steps: seq<WS.Step>, session: Session)
    ensures DownloadSections(steps, session) == Concat(Parts(steps, session))
    decreases |steps|
  {
    if |steps| > 0 {
      SectionsAreParts(steps[1..], session);
      assert Parts(steps, session)[1..] == Parts(steps[1..], session);
    }
  }

  /**
   * In the registry, only the review step (index 1) is filtered out; every
   * other step contributes its section.
   */
  lemma RegistryParts(session: Session, k: int)
    requires WS.IsStepIndex(k)
    ensures k == 1 <==> WS.Steps[k].saveKey == ReviewKey
    ensures k == 1 ==> Part(WS.Steps[k], session) == ""
    ensures k != 1 ==> Part(WS.Steps[k], session) == StepSection(WS.Steps[k], session)
  {
    WS.RegistryShape();
  }

  /** A step with no (or an empty) output contributes nothing; one with an output contributes it after its heading. */
  lemma StepSectionPresence(step: WS.Step, session: Session)
    ensures WS.Stored(session, step.saveKey) == "" <==> StepSection(step, session) == ""
    ensures WS.Stored(session, step.saveKey) != "" ==>
              OccursAt(StepSection(step, session), WS.Stored(session, step.saveKey), |step.name| + 4)
  {
    var output := WS.Stored(session, step.saveKey);
    if output != "" {
      var text := StepSection(step, session);
      var head := "# " + step.name + "\n\n";
      assert |head| == |step.name| + 4;
      assert text == head + (output + ("\n\n" + Separator + "\n\n"));
      assert text[|head|..|head| + |output|] == output;
    }
  }

  /** A step whose part is its section, with an output present, has that output in the joined sections. */
  lemma SectionsContainOutput(steps: seq<WS.Step>, session: Session, k: int)
    requires 0 <= k < |steps|
    requires Part(steps[k], session) == StepSection(steps[k], session)
    requires WS.Stored(session, steps[k].saveKey) != ""
    ensures exists i :: OccursAt(DownloadSections(steps, session), WS.Stored(session, steps[k].saveKey), i)
  {
    var parts := Parts(steps, session);
    SectionsAreParts(steps, session);
    StepSectionPresence(steps[k], session);
    PartOccursAt(parts, k);
    OccursWithin(Concat(parts), parts[k], |Concat(parts[..k])|, WS.Stored(session, steps[k].saveKey), |steps[k].name| + 4);
  }

  /** Every step but the review whose output is present has that output in the download. */
  lemma DownloadContainsOutput(session: Session, k: int, timestamp: string)
    requires WS.IsStepIndex(k) && k != 1
    requires WS.Stored(session, WS.Steps[k].saveKey) != ""
    ensures exists i :: OccursAt(DownloadDocument(session, timestamp), WS.Stored(session, WS.Steps[k].saveKey), i)
  {
    var output := WS.Stored(session, WS.Steps[k].saveKey);
    var sections := DownloadSections(WS.Steps, session);
    var head := DownloadHeader(session.systemDescription, timestamp);
    RegistryParts(session, k);
    SectionsContainOutput(WS.Steps, session, k);
    var at :| OccursAt(sections, output, at);
    OccursShift(head, sections, "", output, at);
    assert head + sections + "" == DownloadDocument(session, timestamp);
  }
}

=== FILE: cli_wizard.dfy ===
/**
 * The command-line orchestrator. The agent is an oracle from (system prompt,
 * user prompt) to a reply or an error; the user is the finite sequence of
 * lines typed, which `ask` turns into trimmed answers. `processStep` runs one step until the user accepts or quits;
 * `run` asks for the description and walks the steps in order. File writes
 * and console output are left out; the combined document is returned.
 */
module CliWizard {
  import opened Wrappers
  import opened JsText
  import Prompts
  import WState = WizardState
  import WSteps = WizardSteps
  import opened InputHandler
  import FileManager

  type Oracle = (string, string) -> Result<string>

  /** `executeStep(stepIndex, feedback)`: one agent call; an error propagates unchanged. */
  function Execute(k: int, s: WState.State, feedback: Option<string>, oracle: Oracle): (r: Result<string>)
    requires WSteps.IsStepIndex(k)
    ensures r == oracle(Prompts.SystemPrompt(WSteps.Steps[k].agent), WSteps.UserPrompt(k, WState.SetCurrentStep(s, 0), feedback))
  {
    WSteps.CounterDoesNotAffectPrompt(k, s, 0, feedback);
    oracle(Prompts.SystemPrompt(WSteps.Steps[k].agent), WSteps.UserPrompt(k, s, feedback))
  }

  /** The agent call of one step, as a function of the state it reads and the feedback. */
  type StepCall = (WState.State, Option<string>) -> Result<string>

  /** The agent call of step `k`: `executeStep(k, feedback)` on the current state. */
  function CallOf(k: int, oracle: Oracle): StepCall
    requires WSteps.IsStepIndex(k)
  {
    (st: WState.State, feedback: Option<string>) => Execute(k, st, feedback, oracle)
  }

  /** The calls of every step, in registry order. */
  function CallsOf(oracle: Oracle): (r: seq<StepCall>)
    ensures |r| == |WSteps.Steps|
    ensures forall k :: 0 <= k < |r| ==> r[k] == CallOf(k, oracle)
  {
    seq(|WSteps.Steps|, k requires 0 <= k < |WSteps.Steps| => CallOf(k, oracle))
  }

  /** Saving under `key` does not change what the call sends to the agent. */
  ghost predicate IgnoresKey(call: StepCall, key: string) {
    forall st: WState.State, content: string, feedback: Option<string> ::
      call(WState.SaveOutput(st, key, content), feedback) == call(st, feedback)
  }

  /** A step's prompt does not read the step's own output, so its retries see the same input. */
  lemma CallIgnoresOwnKey(k: int, oracle: Oracle)
    requires WSteps.IsStepIndex(k)
    ensures IgnoresKey(CallOf(k, oracle), WSteps.Steps[k].saveKey)
  {
    forall st: WState.State, content: string, feedback: Option<string>
      ensures CallOf(k, oracle)(WState.SaveOutput(st, WSteps.Steps[k].saveKey, content), feedback) == CallOf(k, oracle)(st, feedback)
    {
      WSteps.SavingLaterOutputKeepsPrompt(k, k, st, content, feedback);
    }
  }

  /** How `processStep` ends: ACCEPT, QUIT, an agent error, or input running out mid-review. */
  datatype StepOutcome = Accepted | Quitted | Failed(message: string) | InputEnded

  /**
   * The result of `processStep`: the state, the unread answers, the feedback of
   * each attempt in order, the review decision after each successful attempt,
   * and the outcome.
   */
  datatype StepRun = StepRun(
    state: WState.State,
    answers: seq<string>,
    feedbacks: seq<Option<string>>,
    decisions: seq<Decision>,
    outcome: StepOutcome)

  function Last<T>(xs: seq<T>): T
    requires |xs| > 0
  {
    xs[|xs| - 1]
  }

  /** The answers `rest` are what is left of `answers` after reading some of them. */
  predicate Suffix(rest: seq<string>, answers: seq<string>) {
    |rest| <= |answers| && rest == answers[|answers| - |rest|..]
  }

  /** The loop of `processStep(k)`, entered with the given feedback. */
  function ProcessLoop(k: int, s: WState.State, answers: seq<string>, feedback: Option<string>, call: StepCall): (r: StepRun)
    requires WSteps.IsStepIndex(k)
    ensures |r.feedbacks| >= 1 && r.feedbacks[0] == feedback
    ensures Suffix(r.answers, answers)
    ensures r.outcome.Accepted? || r.outcome.Quitted? ==> |r.decisions| == |r.feedbacks|
    ensures r.outcome.Failed? || r.outcome.InputEnded? ==> |r.decisions| == |r.feedbacks| - 1
    decreases |answers|
  {
    var step := WSteps.Steps[k];
    match call(s, feedback)
    case Err(m) => StepRun(s, answers, [feedback], [], Failed(m))
    case Ok(output) =>
      var saved := WState.SaveOutput(s, step.saveKey, output);
      match GetReviewDecision(answers)
      case None => StepRun(saved, [], [feedback], [], InputEnded)
      case Some((decision, rest)) =>
        match decision
        case Accept => StepRun(saved, rest, [feedback], [Accept], Accepted)
        case Quit => StepRun(saved, rest, [feedback], [Quit], Quitted)
        case Revise(f) =>
          var next := ProcessLoop(k, saved, rest, Some(f), call);
          StepRun(next.state, next.answers, [feedback] + next.feedbacks, [Revise(f)] + next.decisions, next.outcome)
  }

  /** Each attempt but the last is followed by a revise whose feedback the next attempt uses. */
  predicate Chained(feedbacks: seq<Option<string>>, decisions: seq<Decision>) {
    && |feedbacks| <= |decisions| + 1
    && forall i :: 0 <= i < |feedbacks| - 1 ==>
         decisions[i].Revise? && feedbacks[i + 1] == Some(decisions[i].feedback)
  }

  lemma ChainedCons(f0: Option<string>, d: Decision, fs: seq<Option<string>>, ds: seq<Decision>)
    requires d.Revise? && |fs| >= 1 && fs[0] == Some(d.feedback)
    requires Chained(fs, ds)
    ensures Chained([f0] + fs, [d] + ds)
  {
    var f := [f0] + fs;
    var e := [d] + ds;
    forall i | 0 <= i < |f| - 1
      ensures e[i].Revise? && f[i + 1] == Some(e[i].feedback)
    {
      if i == 0 {
        assert e[0] == d && f[1] == fs[0];
      } else {
        assert e[i] == ds[i - 1];
        assert f[i + 1] == fs[i];
      }
    }
  }

  /** Every attempt but the last was followed by a revise decision whose feedback the next attempt used. */
  lemma {:induction false} LoopRevisions(k: int, s: WState.State, answers: seq<string>, feedback: Option<string>, call: StepCall)
    requires WSteps.IsStepIndex(k)
    ensures var r := ProcessLoop(k, s, answers, feedback, call);
            Chained(r.feedbacks, r.decisions)
    decreases |answers|
  {
    match call(s, feedback)
    case Err(_) =>
    case Ok(output) =>
      var saved := WState.SaveOutput(s, WSteps.Steps[k].saveKey, output);
      match GetReviewDecision(answers)
      case None =>
      case Some((decision, rest)) =>
        if decision.Revise? {
          var next := ProcessLoop(k, saved, rest, Some(decision.feedback), call);
          LoopRevisions(k, saved, rest, Some(decision.feedback), call);
          ChainedCons(feedback, decision, next.feedbacks, next.decisions);
        }
  }

  /** The last review decision, when the last attempt was reviewed. */
  function LastDecision(r: StepRun): Option<Decision> {
    if |r.decisions| == |r.feedbacks| && |r.decisions| > 0 then Some(Last(r.decisions)) else None
  }

  /** The loop returns ACCEPT exactly when the last decision was accept. */
  lemma {:induction false} LoopAccepts(k: int, s: WState.State, answers: seq<string>, feedback: Option<string>, call: StepCall)
    requires WSteps.IsStepIndex(k)
    ensures var r := ProcessLoop(k, s, answers, feedback, call);
            r.outcome.Accepted? <==> LastDecision(r) == Some(Accept)
    decreases |answers|
  {
    var r := ProcessLoop(k, s, answers, feedback, call);
    match call(s, feedback)
    case Err(m) =>
      assert r.decisions == [];
    case Ok(output) =>
      var saved := WState.SaveOutput(s, WSteps.Steps[k].saveKey, output);
      match GetReviewDecision(answers)
      case None =>
        assert r.decisions == [];
      case Some((decision, rest)) =>
        if decision.Revise? {
          var next := ProcessLoop(k, saved, rest, Some(decision.feedback), call);
          LoopAccepts(k, saved, rest, Some(decision.feedback), call);
          assert r.decisions == [decision] + next.decisions && r.feedbacks == [feedback] + next.feedbacks;
          assert r.outcome == next.outcome;
          LastOfAppend([decision], next.decisions);
        } else {
          assert r.decisions == [decision] && r.feedbacks == [feedback];
        }
  }

  /** The loop returns QUIT exactly when the last decision was quit. */
  lemma {:induction false} LoopQuits(k: int, s: WState.State, answers: seq<string>, feedback: Option<string>, call: StepCall)
    requires WSteps.IsStepIndex(k)
    ensures var r := ProcessLoop(k, s, answers, feedback, call);
            r.outcome.Quitted? <==> LastDecision(r) == Some(Quit)
    decreases |answers|
  {
    var r := ProcessLoop(k, s, answers, feedback, call);
    match call(s, feedback)
    case Err(m) =>
      assert r.decisions == [];
    case Ok(output) =>
      var saved := WState.SaveOutput(s, WSteps.Steps[k].saveKey, output);
      match GetReviewDecision(answers)
      case None =>
        assert r.decisions == [];
      case Some((decision, rest)) =>
        if decision.Revise? {
          var next := ProcessLoop(k, saved, rest, Some(decision.feedback), call);
          LoopQuits(k, saved, rest, Some(decision.feedback), call);
          assert r.decisions == [decision] + next.decisions && r.feedbacks == [feedback] + next.feedbacks;
          assert r.outcome == next.outcome;
          LastOfAppend([decision], next.decisions);
        } else {
          assert r.decisions == [decision] && r.feedbacks == [feedback];
        }
  }

  /** The loop writes only the step's own save key; description and step counter stay. */
  lemma {:induction false} LoopWritesOwnKey(k: int, s: WState.State, answers: seq<string>, feedback: Option<string>, call: StepCall)
    requires WSteps.IsStepIndex(k)
    ensures var r := ProcessLoop(k, s, answers, feedback, call);
            && r.state.systemDescription == s.systemDescription && r.state.currentStep == s.currentStep
            && (forall key :: key != WSteps.Steps[k].saveKey ==> WState.GetOutput(r.state, key) == WState.GetOutput(s, key))
    decreases |answers|
  {
    match call(s, feedback)
    case Err(_) =>
    case Ok(output) =>
      var saved := WState.SaveOutput(s, WSteps.Steps[k].saveKey, output);
      match GetReviewDecision(answers)
      case None =>
      case Some((decision, rest)) =>
        if decision.Revise? {
          LoopWritesOwnKey(k, saved, rest, Some(decision.feedback), call);
        }
  }

  /**
   * Each attempt saves its output under the step's save key, replacing the
   * previous attempt's: unless the agent failed, the stored output is the
   * reply to the last attempt. A failure leaves the last good output, or
   * nothing changed when the first attempt fails.
   */
  lemma {:induction false} LoopKeepsLastReply(k: int, s: WState.State, answers: seq<string>, feedback: Option<string>, call: StepCall)
    requires WSteps.IsStepIndex(k)
    requires IgnoresKey(call, WSteps.Steps[k].saveKey)
    ensures var r := ProcessLoop(k, s, answers, feedback, call);
            var last := call(s, Last(r.feedbacks));
            && (!r.outcome.Failed? ==>
                  last.Ok? && WState.GetOutput(r.state, WSteps.Steps[k].saveKey) == Some(last.value))
            && (r.outcome.Failed? ==> last == Err(r.outcome.message))
            && (r.outcome.Failed? && |r.feedbacks| == 1 ==> r.state == s)
    decreases |answers|
  {
    var r := ProcessLoop(k, s, answers, feedback, call);
    match call(s, feedback)
    case Err(_) =>
    case Ok(output) =>
      var saved := WState.SaveOutput(s, WSteps.Steps[k].saveKey, output);
      match GetReviewDecision(answers)
      case None =>
      case Some((decision, rest)) =>
        if decision.Revise? {
          var next := ProcessLoop(k, saved, rest, Some(decision.feedback), call);
          LoopKeepsLastReply(k, saved, rest, Some(decision.feedback), call);
          assert r.feedbacks == [feedback] + next.feedbacks && r.state == next.state && r.outcome == next.outcome;
          LastOfAppend([feedback], next.feedbacks);
          assert call(saved, Last(next.feedbacks)) == call(s, Last(next.feedbacks));
        }
  }

  /** Unless the agent failed, the step's save key holds an output when the loop ends. */
  lemma {:induction false} LoopSavesOutput(k: int, s: WState.State, answers: seq<string>, feedback: Option<string>, call: StepCall)
    requires WSteps.IsStepIndex(k)
    ensures var r := ProcessLoop(k, s, answers, feedback, call);
            !r.outcome.Failed? ==> WState.GetOutput(r.state, WSteps.Steps[k].saveKey).Some?
    decreases |answers|
  {
    match call(s, feedback)
    case Err(_) =>
    case Ok(output) =>
      var saved := WState.SaveOutput(s, WSteps.Steps[k].saveKey, output);
      match GetReviewDecision(answers)
      case None =>
      case Some((decision, rest)) =>
        if decision.Revise? {
          LoopSavesOutput(k, saved, rest, Some(decision.feedback), call);
        }
  }

  /** `processStep(k)`: the first attempt runs without feedback. */
  function ProcessStep(k: int, s: WState.State, answers: seq<string>, call: StepCall): (r: StepRun)
    requires WSteps.IsStepIndex(k)
    ensures |r.feedbacks| >= 1 && r.feedbacks[0] == None
    ensures Suffix(r.answers, answers)
  {
    ProcessLoop(k, s, answers, None, call)
  }

  /**
   * For `processStep(k)` on the real agent: unless the agent failed, the
   * stored output is the reply to the prompt built from the state the step
   * started with and the last feedback given.
   */
  lemma StepKeepsLastReply(k: int, s: WState.State, answers: seq<string>, oracle: Oracle)
    requires WSteps.IsStepIndex(k)
    ensures var r := ProcessStep(k, s, answers, CallOf(k, oracle));
            var last := Execute(k, s, Last(r.feedbacks), oracle);
            && (!r.outcome.Failed? ==>
                  last.Ok? && WState.GetOutput(r.state, WSteps.Steps[k].saveKey) == Some(last.value))
            && (r.outcome.Failed? ==> last == Err(r.outcome.message))
  {
    CallIgnoresOwnKey(k, oracle);
    LoopKeepsLastReply(k, s, answers, None, CallOf(k, oracle));
  }

  /** A revise decision makes the next attempt run with that decision's feedback. */
  lemma ReviseRerunsWithFeedback(k: int, s: WState.State, answers: seq<string>, feedback: Option<string>, call: StepCall, f: string, rest: seq<string>)
    requires WSteps.IsStepIndex(k)
    requires call(s, feedback).Ok?
    requires GetReviewDecision(answers) == Some((Revise(f), rest))
    ensures var r := ProcessLoop(k, s, answers, feedback, call);
            |r.feedbacks| >= 2 && r.feedbacks[1] == Some(f) && r.decisions[0] == Revise(f)
  {
  }

  // ---------------------------------------------------------------------
  // The whole run.

  datatype Attempt = Attempt(step: int, feedback: Option<string>)

  /** How `run` ends; `Waiting` means input ran out and the wizard waits on a question forever. */
  datatype Outcome = NoDescription | Completed | QuitAt(step: int) | FailedAt(failedStep: int, message: string) | Waiting

  datatype Run = Run(state: WState.State, attempts: seq<Attempt>, outcome: Outcome)

  function AttemptsOf(k: int, feedbacks: seq<Option<string>>): (r: seq<Attempt>)
    ensures |r| == |feedbacks|
    ensures forall j :: 0 <= j < |r| ==> r[j] == Attempt(k, feedbacks[j])
  {
    seq(|feedbacks|, j requires 0 <= j < |feedbacks| => Attempt(k, feedbacks[j]))
  }

  /** Attempts run step by step: never back, never skipping, the first one at each step without feedback. */
  predicate Ordered(attempts: seq<Attempt>) {
    && (forall j :: 0 <= j < |attempts| - 1 ==>
          attempts[j].step <= attempts[j + 1].step <= attempts[j].step + 1)
    && (forall j :: 0 <= j < |attempts| - 1 && attempts[j].step != attempts[j + 1].step ==>
          attempts[j + 1].feedback.None?)
  }

  /** The keys written by steps `i` and later. */
  predicate WrittenFrom(i: int, key: string) {
    exists k :: 0 <= k < |WSteps.Steps| && i <= k && WSteps.Steps[k].saveKey == key
  }

  /** The `for` loop of `run`, from step `i`: `setCurrentStep(i)`, then `processStep(i)`. */
  function RunFrom(i: int, s: WState.State, answers: seq<string>, calls: seq<StepCall>): (r: Run)
    requires 0 <= i <= |WSteps.Steps| && |calls| == |WSteps.Steps|
    ensures |r.attempts| > 0 ==> r.attempts[0] == Attempt(i, None)
    ensures i < |WSteps.Steps| <==> |r.attempts| > 0
    ensures !r.outcome.NoDescription?
    decreases |WSteps.Steps| - i
  {
    if i == |WSteps.Steps| then Run(s, [], Completed)
    else
      var run := ProcessStep(i, WState.SetCurrentStep(s, i), answers, calls[i]);
      var attempts := AttemptsOf(i, run.feedbacks);
      match run.outcome
      case Accepted =>
        var rest := RunFrom(i + 1, run.state, run.answers, calls);
        Run(rest.state, attempts + rest.attempts, rest.outcome)
      case Quitted => Run(run.state, attempts, QuitAt(i))
      case Failed(m) => Run(run.state, attempts, FailedAt(i, m))
      case InputEnded => Run(run.state, attempts, Waiting)
  }

  lemma OrderedAppend(a: seq<Attempt>, b: seq<Attempt>)
    requires Ordered(a) && Ordered(b)
    requires |a| > 0 && |b| > 0 ==> b[0].step == Last(a).step + 1 && b[0].feedback.None?
    ensures Ordered(a + b)
  {
    var c := a + b;
    forall j | 0 <= j < |c| - 1
      ensures c[j].step <= c[j + 1].step <= c[j].step + 1
      ensures c[j].step != c[j + 1].step ==> c[j + 1].feedback.None?
    {
      if j + 1 < |a| {
        assert c[j] == a[j] && c[j + 1] == a[j + 1];
      } else if j + 1 == |a| {
        assert c[j] == Last(a) && c[j + 1] == b[0];
      } else {
        assert c[j] == b[j - |a|] && c[j + 1] == b[j - |a| + 1];
      }
    }
  }

  /** Steps run in order, never going back or skipping one, each starting without feedback. */
  lemma {:induction false} RunInOrder(i: int, s: WState.State, answers: seq<string>, calls: seq<StepCall>)
    requires 0 <= i <= |WSteps.Steps| && |calls| == |WSteps.Steps|
    ensures Ordered(RunFrom(i, s, answers, calls).attempts)
    decreases |WSteps.Steps| - i
  {
    if i < |WSteps.Steps| {
      var r := RunFrom(i, s, answers, calls);
      var run := ProcessStep(i, WState.SetCurrentStep(s, i), answers, calls[i]);
      var attempts := AttemptsOf(i, run.feedbacks);
      assert Ordered(attempts);
      if run.outcome.Accepted? {
        var rest := RunFrom(i + 1, run.state, run.answers, calls);
        RunInOrder(i + 1, run.state, run.answers, calls);
        OrderedAppend(attempts, rest.attempts);
        assert r.attempts == attempts + rest.attempts;
      } else {
        assert r.attempts == attempts;
      }
    }
  }

  /** A run that ends on a quit or a failure ends at the step where it happened. */
  lemma {:induction false} RunStopsAt(i: int, s: WState.State, answers: seq<string>, calls: seq<StepCall>)
    requires 0 <= i <= |WSteps.Steps| && |calls| == |WSteps.Steps|
    ensures var r := RunFrom(i, s, answers, calls);
            && (r.outcome.QuitAt? ==> |r.attempts| > 0 && Last(r.attempts).step == r.outcome.step)
            && (r.outcome.FailedAt? ==> |r.attempts| > 0 && Last(r.attempts).step == r.outcome.failedStep)
    decreases |WSteps.Steps| - i
  {
    if i < |WSteps.Steps| {
      var r := RunFrom(i, s, answers, calls);
      var run := ProcessStep(i, WState.SetCurrentStep(s, i), answers, calls[i]);
      var attempts := AttemptsOf(i, run.feedbacks);
      if run.outcome.Accepted? {
        var rest := RunFrom(i + 1, run.state, run.answers, calls);
        RunStopsAt(i + 1, run.state, run.answers, calls);
        LastOfAppend(attempts, rest.attempts);
      } else {
        assert Last(attempts) == attempts[|attempts| - 1];
      }
    }
  }

  lemma LastOfAppend<T>(a: seq<T>, b: seq<T>)
    requires |a| > 0
    ensures |b| > 0 ==> Last(a + b) == Last(b)
    ensures |b| == 0 ==> Last(a + b) == Last(a)
  {
  }

  /** A completed run ends with an attempt at the last step. */
  lemma {:induction false} RunCompletesAtLast(i: int, s: WState.State, answers: seq<string>, calls: seq<StepCall>)
    requires 0 <= i < |WSteps.Steps| && |calls| == |WSteps.Steps|
    ensures var r := RunFrom(i, s, answers, calls);
            r.outcome.Completed? ==> |r.attempts| > 0 && Last(r.attempts).step == |WSteps.Steps| - 1
    decreases |WSteps.Steps| - i
  {
    var r := RunFrom(i, s, answers, calls);
    var run := ProcessStep(i, WState.SetCurrentStep(s, i), answers, calls[i]);
    var attempts := AttemptsOf(i, run.feedbacks);
    if run.outcome.Accepted? {
      var rest := RunFrom(i + 1, run.state, run.answers, calls);
      if i + 1 < |WSteps.Steps| {
        RunCompletesAtLast(i + 1, run.state, run.answers, calls);
        LastOfAppend(attempts, rest.attempts);
      } else {
        LastOfAppend(attempts, rest.attempts);
      }
    }
  }

  /**
   * The step counter ends at the step of the last attempt; the description
   * is kept; only keys of steps from `i` on are written, and after a
   * completed run each of those steps has an output.
   */
  lemma {:induction false} RunWrites(i: int, s: WState.State, answers: seq<string>, calls: seq<StepCall>)
    requires 0 <= i <= |WSteps.Steps| && |calls| == |WSteps.Steps|
    ensures var r := RunFrom(i, s, answers, calls);
            && r.state.systemDescription == s.systemDescription
            && r.state.currentStep == (if |r.attempts| > 0 then Last(r.attempts).step else s.currentStep)
            && (forall key :: !WrittenFrom(i, key) ==> WState.GetOutput(r.state, key) == WState.GetOutput(s, key))
            && (r.outcome.Completed? ==>
                  forall k :: i <= k < |WSteps.Steps| ==> WState.GetOutput(r.state, WSteps.Steps[k].saveKey).Some?)
    decreases |WSteps.Steps| - i
  {
    if i < |WSteps.Steps| {
      var started := WState.SetCurrentStep(s, i);
      var run := ProcessStep(i, started, answers, calls[i]);
      var attempts := AttemptsOf(i, run.feedbacks);
      LoopWritesOwnKey(i, started, answers, None, calls[i]);
      LoopSavesOutput(i, started, answers, None, calls[i]);
      if run.outcome.Accepted? {
        var rest := RunFrom(i + 1, run.state, run.answers, calls);
        RunWrites(i + 1, run.state, run.answers, calls);
        WSteps.RegistryShape();
        forall key | !WrittenFrom(i, key)
          ensures WState.GetOutput(rest.state, key) == WState.GetOutput(s, key)
        {
          assert !WrittenFrom(i + 1, key);
          assert key != WSteps.Steps[i].saveKey;
        }
        if rest.outcome.Completed? {
          forall k | i <= k < |WSteps.Steps|
            ensures WState.GetOutput(rest.state, WSteps.Steps[k].saveKey).Some?
          {
            if k == i {
              assert !WrittenFrom(i + 1, WSteps.Steps[i].saveKey);
            }
          }
        }
        if |rest.attempts| > 0 {
          assert Last(attempts + rest.attempts) == Last(rest.attempts);
        } else {
          assert attempts + rest.attempts == attempts;
        }
      }
    }
  }

  /** The outcome of `run` and the combined document it saves, if it saves one. */
  datatype Session = Session(run: Run, document: Option<string>)

  /**
   * `run()`: read the description; an empty answer ends the run at
   * once. Otherwise run every step in order; on completion or on a quit the
   * combined document is generated, stamped with `timestamp`.
   */
  function RunWizard(lines: seq<string>, oracle: Oracle, timestamp: string): (r: Session)
    ensures r.document.Some? <==> r.run.outcome.Completed? || r.run.outcome.QuitAt?
    ensures r.document.Some? ==>
              r.document.value == FileManager.GenerateCompleteDocument(
                WState.GetSystemDescription(r.run.state), WState.GetAllOutputs(r.run.state), timestamp)
    ensures r.run.outcome.NoDescription? <==> |lines| > 0 && Ask(lines[0]) == ""
    ensures r.run.outcome.NoDescription? ==> r.run.attempts == []
    ensures |r.run.attempts| > 0 ==> r.run.attempts[0] == Attempt(0, None)
  {
    match GetSystemDescription(Answers(lines))
    case None => Session(Run(WState.Fresh, [], Waiting), None)
    case Some((description, rest)) =>
      if description == "" then Session(Run(WState.Fresh, [], NoDescription), None)
      else
        var run := RunFrom(0, WState.SetSystemDescription(WState.Fresh, description), rest, CallsOf(oracle));
        var document :=
          if run.outcome.Completed? || run.outcome.QuitAt? then
            Some(FileManager.GenerateCompleteDocument(
              WState.GetSystemDescription(run.state), WState.GetAllOutputs(run.state), timestamp))
          else None;
        Session(run, document)
  }

  /**
   * The steps of a whole run go in order from step 0, and after a quit at
   * step `i` no later step has run.
   */
  lemma RunWizardInOrder(lines: seq<string>, oracle: Oracle, timestamp: string)
    ensures var r := RunWizard(lines, oracle, timestamp);
            && Ordered(r.run.attempts)
            && (r.run.outcome.QuitAt? ==>
                  forall j :: 0 <= j < |r.run.attempts| ==> r.run.attempts[j].step <= r.run.outcome.step)
  {
    var answers := Answers(lines);
    if |answers| > 0 && answers[0] != "" {
      var start := WState.SetSystemDescription(WState.Fresh, answers[0]);
      var run := RunFrom(0, start, answers[1..], CallsOf(oracle));
      assert RunWizard(lines, oracle, timestamp).run == run;
      RunInOrder(0, start, answers[1..], CallsOf(oracle));
      RunStopsAt(0, start, answers[1..], CallsOf(oracle));
      OrderedBound(run.attempts);
    }
  }

  /**
   * A completed run keeps the description typed and holds an output for
   * every step.
   */
  lemma RunWizardCompletes(lines: seq<string>, oracle: Oracle, timestamp: string)
    ensures var r := RunWizard(lines, oracle, timestamp);
            r.run.outcome.Completed? ==>
              && |lines| > 0 && WState.GetSystemDescription(r.run.state) == Ask(lines[0])
              && forall k :: WSteps.IsStepIndex(k) ==> WState.GetOutput(r.run.state, WSteps.Steps[k].saveKey).Some?
  {
    var answers := Answers(lines);
    if |answers| > 0 && answers[0] != "" {
      var start := WState.SetSystemDescription(WState.Fresh, answers[0]);
      var run := RunFrom(0, start, answers[1..], CallsOf(oracle));
      assert RunWizard(lines, oracle, timestamp).run == run;
      RunWrites(0, start, answers[1..], CallsOf(oracle));
    }
  }

  /** In an ordered run, no attempt comes after the last one's step. */
  lemma {:induction false} OrderedBound(attempts: seq<Attempt>)
    requires Ordered(attempts)
    ensures forall j :: 0 <= j < |attempts| ==> attempts[j].step <= Last(attempts).step
    decreases |attempts|
  {
    if |attempts| > 1 {
      var init := attempts[..|attempts| - 1];
      assert Ordered(init);
      OrderedBound(init);
      assert Last(init) == attempts[|attempts| - 2];
    }
  }
}

=== FILE: description_form.dfy ===
/**
 * The web form that takes the system description. Submitting checks the
 * trimmed text: blank, or shorter than 50 UTF-16 code units, is refused with
 * a message; otherwise the untrimmed text is stored in the wizard state and
 * handed to `onStart`.
 */
module DescriptionForm {
  import opened Wrappers
  import opened JsText
  import WC = WizardContext

  const BlankError := "Please provide a system description"
  const ShortError := "Please provide a more detailed description (at least 50 characters)"
  const MinLength := 50

  /**
   * The effect of one submit: the form's error message, the actions
   * dispatched to the wizard state, and the argument `onStart` was called
   * with, if it was called.
   */
  datatype Submitted = Submitted(error: string, dispatched: seq<WC.Action>, started: Option<string>)

  /** `handleSubmit`. */
  function HandleSubmit(description: string): (r: Submitted)
    ensures Trim(description) == "" ==> r == Submitted(BlankError, [], None)
    ensures Trim(description) != "" && Utf16Length(Trim(description)) < MinLength ==>
              r == Submitted(ShortError, [], None)
    ensures r.started.Some? <==> Utf16Length(Trim(description)) >= MinLength
    ensures r.started.Some? ==>
              r == Submitted("", [WC.SetSystemDescription(description)], Some(description))
  {
    var trimmed := Trim(description);
    if trimmed == "" then Submitted(BlankError, [], None)
    else if Utf16Length(trimmed) < MinLength then Submitted(ShortError, [], None)
    else Submitted("", [WC.SetSystemDescription(description)], Some(description))
  }

  /** A refused submit calls nothing and dispatches nothing, and says why. */
  lemma RefusedDoesNothing(description: string)
    requires Utf16Length(Trim(description)) < MinLength
    ensures var r := HandleSubmit(description);
            r.started.None? && r.dispatched == [] && r.error in {BlankError, ShortError}
  {
  }

  /** Blankness is checked first: a long run of blanks is called blank, not short. */
  lemma BlankBeforeShort(n: nat)
    ensures HandleSubmit(Repeat(' ', n)).error == BlankError
  {
    var s := Repeat(' ', n);
    assert forall i :: 0 <= i < |s| ==> IsWhiteSpace(s[i]);
  }
}

=== FILE: environment.dfy ===
/**
 * The command-line configuration: the API key from the environment or the
 * first command-line argument, the model from the environment or a default,
 * and the validation that reports a missing key. The process environment is
 * a map parameter and `argv` a sequence parameter.
 */
module Environment {
  import opened Wrappers
  import opened JsText

  const ApiKeyVariable := "ANTHROPIC_API_KEY"
  const ModelVariable := "CLAUDE_MODEL"
  const DefaultModel := "claude-sonnet-4-5-20250929"
  const MissingKey := "ANTHROPIC_API_KEY is required"

  type Env = map<string, string>

  /** `argv[2]`: `undefined` when fewer than three arguments were given. */
  function Argument(argv: seq<string>): (r: Option<string>)
    ensures r.Some? <==> |argv| > 2
    ensures r.Some? ==> r.value == argv[2]
  {
    if |argv| > 2 then Some(argv[2]) else None
  }

  /** `getApiKey(argv)`: a non-empty environment key, else a non-empty `argv[2]`, else `null`. */
  function GetApiKey(env: Env, argv: seq<string>): (r: Option<string>)
    ensures r.Some? ==> r.value != ""
    ensures Truthy(Lookup(env, ApiKeyVariable)) ==> r == Some(env[ApiKeyVariable])
    ensures !Truthy(Lookup(env, ApiKeyVariable)) && Truthy(Argument(argv)) ==> r == Some(argv[2])
    ensures r.None? <==> !Truthy(Lookup(env, ApiKeyVariable)) && !Truthy(Argument(argv))
  {
    var fromEnv := Lookup(env, ApiKeyVariable);
    if Truthy(fromEnv) then fromEnv
    else if Truthy(Argument(argv)) then Argument(argv)
    else None
  }

  /** `getModel()`: a non-empty `CLAUDE_MODEL`, else the default model. */
  function GetModel(env: Env): (r: string)
    ensures r != ""
    ensures Truthy(Lookup(env, ModelVariable)) ==> r == env[ModelVariable]
    ensures !Truthy(Lookup(env, ModelVariable)) ==> r == DefaultModel
  {
    if Truthy(Lookup(env, ModelVariable)) then env[ModelVariable] else DefaultModel
  }

  datatype Config = Config(apiKey: Option<string>, model: string)

  datatype Validation = Validation(isValid: bool, errors: seq<string>, config: Config)

  /** `validate()`: valid exactly when a key was found; a missing key is the one error. */
  function Validate(env: Env, argv: seq<string>): (r: Validation)
    ensures r.isValid <==> r.errors == []
    ensures r.isValid <==> GetApiKey(env, argv).Some?
    ensures !r.isValid ==> r.errors == [MissingKey]
    ensures r.config.apiKey == GetApiKey(env, argv)
    ensures r.config.model == GetModel(env)
  {
    var apiKey := GetApiKey(env, argv);
    var errors := if apiKey.None? then [MissingKey] else [];
    Validation(|errors| == 0, errors, Config(apiKey, GetModel(env)))
  }

  /** A key set in the environment wins over any command-line argument. */
  lemma EnvironmentKeyWins(env: Env, key: string, argv: seq<string>)
    requires key != ""
    ensures GetApiKey(env[ApiKeyVariable := key], argv) == Some(key)
    ensures Validate(env[ApiKeyVariable := key], argv).isValid
  {
  }

  /** With no key in the environment, passing one as the first argument makes the configuration valid. */
  lemma ArgumentKeySuffices(env: Env, program: string, script: string, key: string, rest: seq<string>)
    requires ApiKeyVariable !in env && key != ""
    ensures Validate(env, [program, script, key] + rest).config.apiKey == Some(key)
    ensures Validate(env, [program, script, key] + rest).isValid
  {
    assert ([program, script, key] + rest)[2] == key;
  }

  /** An empty variable counts as unset: validation fails the same way as with no variable at all. */
  lemma EmptyKeyIsMissing(env: Env, argv: seq<string>)
    requires |argv| <= 2
    ensures Validate(env[ApiKeyVariable := ""], argv) == Validate(env - {ApiKeyVariable}, argv)
    ensures !Validate(env[ApiKeyVariable := ""], argv).isValid
  {
    assert Lookup(env[ApiKeyVariable := ""], ModelVariable) == Lookup(env - {ApiKeyVariable}, ModelVariable);
  }
}

=== FILE: file_manager.dfy ===
/**
 * `generateCompleteDocument`: the command-line wizard's combined document.
 * A fixed header, then one section per entry of a fixed list; each section
 * is a heading, followed by its content and a rule only when the content is
 * truthy. The clock reading is a parameter.
 */
module FileManager {
  import opened Wrappers
  import opened JsText

  /** Where a section's content comes from: the description argument or an output key. */
  datatype Source = Description | Output(key: string)

  datatype Section = Section(title: string, source: Source)

  /** The requirements review is not among the sections. */
  const Sections: seq<Section> := [
    Section("System Description", Description),
    Section("Requirements & User Stories", Output("requirements")),
    Section("Technical Architecture", Output("architecture")),
    Section("Technical Design", Output("technicalDesign")),
    Section("Testing Strategy", Output("testingStrategy")),
    Section("Task Planner & Implementation Plan", Output("taskPlanner")),
    Section("SDLC Task Allocation", Output("sdlcTaskAllocation"))
  ]

  const ReviewKey := "requirementsReview"
  const Title := "# Software Development Lifecycle Documentation\n\n"
  const Rule := "---\n\n"

  function Header(timestamp: string): string {
    Title + "Generated: " + timestamp + "\n\n" + Rule
  }

  function Heading(title: string): string {
    "## " + title + "\n\n"
  }

  /**
   * `section.content || outputs[section.key]`. The description section has
   * no key, so an empty description reads `outputs[undefined]`, the output
   * stored under the text "undefined".
   */
  function Content(section: Section, systemDescription: string, outputs: map<string, string>): (r: Option<string>)
    ensures section.source.Description? && systemDescription != "" ==> r == Some(systemDescription)
    ensures section.source.Description? && systemDescription == "" ==> r == Lookup(outputs, "undefined")
    ensures section.source.Output? ==> r == Lookup(outputs, section.source.key)
  {
    match section.source
    case Description => if systemDescription != "" then Some(systemDescription) else Lookup(outputs, "undefined")
    case Output(key) => Lookup(outputs, key)
  }

  function SectionText(section: Section, systemDescription: string, outputs: map<string, string>): string {
    var content := Content(section, systemDescription, outputs);
    Heading(section.title) + (if Truthy(content) then content.value + "\n\n" + Rule else "")
  }

  function SectionTexts(systemDescription: string, outputs: map<string, string>): (ts: seq<string>)
    ensures |ts| == |Sections|
    ensures forall i :: 0 <= i < |ts| ==> ts[i] == SectionText(Sections[i], systemDescription, outputs)
  {
    seq(|Sections|, i requires 0 <= i < |Sections| => SectionText(Sections[i], systemDescription, outputs))
  }

  /** `generateCompleteDocument(systemDescription, outputs)` at the given time. */
  function GenerateCompleteDocument(systemDescription: string, outputs: map<string, string>, timestamp: string): (r: string)
    ensures StartsWith(r, Header(timestamp))
    ensures EndsWith(r, Concat(SectionTexts(systemDescription, outputs)))
    ensures |r| == SectionOffset(systemDescription, outputs, timestamp, |Sections|)
  {
    var texts := SectionTexts(systemDescription, outputs);
    var body := Concat(texts);
    ConcatStartsWith(Header(timestamp), body);
    ConcatEndsWith(Header(timestamp), body);
    assert texts[..|Sections|] == texts;
    Header(timestamp) + body
  }

  /** Where section `k` starts in the document; section `|Sections|` starts where the document ends. */
  function SectionOffset(systemDescription: string, outputs: map<string, string>, timestamp: string, k: nat): nat
    requires k <= |Sections|
  {
    |Header(timestamp)| + |Concat(SectionTexts(systemDescription, outputs)[..k])|
  }

  /** The next section starts where this one ends. */
  lemma SectionOffsetStep(systemDescription: string, outputs: map<string, string>, timestamp: string, k: nat)
    requires k < |Sections|
    ensures SectionOffset(systemDescription, outputs, timestamp, k + 1)
         == SectionOffset(systemDescription, outputs, timestamp, k) + |SectionText(Sections[k], systemDescription, outputs)|
  {
    var texts := SectionTexts(systemDescription, outputs);
    ConcatLast(texts[..k + 1]);
    assert texts[..k + 1][..k] == texts[..k];
  }

  /** Section `k`'s text sits at its offset in the document. */
  lemma SectionAt(systemDescription: string, outputs: map<string, string>, timestamp: string, k: nat)
    requires k < |Sections|
    ensures OccursAt(GenerateCompleteDocument(systemDescription, outputs, timestamp),
                     SectionText(Sections[k], systemDescription, outputs),
                     SectionOffset(systemDescription, outputs, timestamp, k))
  {
    var texts := SectionTexts(systemDescription, outputs);
    var head := Header(timestamp);
    PartOccursAt(texts, k);
    OccursShift(head, Concat(texts), "", texts[k], |Concat(texts[..k])|);
    assert head + Concat(texts) + "" == GenerateCompleteDocument(systemDescription, outputs, timestamp);
  }

  /**
   * Every section, present content or not, contributes its heading, at
   * increasing offsets in the fixed order; the content and a rule follow the
   * heading exactly when the content is truthy.
   */
  lemma SectionLayout(systemDescription: string, outputs: map<string, string>, timestamp: string, k: nat)
    requires k < |Sections|
    ensures var doc := GenerateCompleteDocument(systemDescription, outputs, timestamp);
            var at := SectionOffset(systemDescription, outputs, timestamp, k);
            var content := Content(Sections[k], systemDescription, outputs);
            && OccursAt(doc, Heading(Sections[k].title), at)
            && (Truthy(content) ==> OccursAt(doc, content.value + "\n\n" + Rule, at + |Heading(Sections[k].title)|))
            && SectionOffset(systemDescription, outputs, timestamp, k + 1)
               == at + |Heading(Sections[k].title)| + (if Truthy(content) then |content.value| + 2 + |Rule| else 0)
  {
    var doc := GenerateCompleteDocument(systemDescription, outputs, timestamp);
    var at := SectionOffset(systemDescription, outputs, timestamp, k);
    var section := Sections[k];
    var h := Heading(section.title);
    var content := Content(section, systemDescription, outputs);
    var tail := if Truthy(content) then content.value + "\n\n" + Rule else "";
    assert SectionText(section, systemDescription, outputs) == h + tail;
    SectionAt(systemDescription, outputs, timestamp, k);
    OccursSplit(doc, h, tail, at);
    SectionOffsetStep(systemDescription, outputs, timestamp, k);
  }

  /** The requirements review output never affects the document. */
  lemma ReviewNeverIncluded(systemDescription: string, outputs: map<string, string>, timestamp: string, review: string)
    ensures GenerateCompleteDocument(systemDescription, outputs[ReviewKey := review], timestamp)
         == GenerateCompleteDocument(systemDescription, outputs, timestamp)
    ensures GenerateCompleteDocument(systemDescription, outputs - {ReviewKey}, timestamp)
         == GenerateCompleteDocument(systemDescription, outputs, timestamp)
  {
    var a := SectionTexts(systemDescription, outputs[ReviewKey := review]);
    var b := SectionTexts(systemDescription, outputs);
    var c := SectionTexts(systemDescription, outputs - {ReviewKey});
    NoReviewSection();
    forall i | 0 <= i < |Sections|
      ensures a[i] == b[i] && c[i] == b[i]
    {
      SectionIgnoresReview(Sections[i], systemDescription, outputs, review);
    }
    ConcatOfEqualParts(a, b);
    ConcatOfEqualParts(c, b);
  }

  /** No section of the document reads the review's key. */
  lemma NoReviewSection()
    ensures forall i :: 0 <= i < |Sections| ==> Sections[i].source != Output(ReviewKey)
  {
  }

  /** A section that does not read the review's key renders the same whatever the review holds. */
  lemma SectionIgnoresReview(section: Section, systemDescription: string, outputs: map<string, string>, review: string)
    requires section.source != Output(ReviewKey)
    ensures SectionText(section, systemDescription, outputs[ReviewKey := review]) == SectionText(section, systemDescription, outputs)
    ensures SectionText(section, systemDescription, outputs - {ReviewKey}) == SectionText(section, systemDescription, outputs)
  {
    assert ReviewKey != "undefined";
  }
}

=== FILE: input_handler.dfy ===
/**
 * The command-line questions. `ask` trims every line the user types, so the
 * menu logic works on the sequence of answers, each one a trimmed line. An
 * answer that is not a menu option is rejected and the question asked again.
 */
module InputHandler {
  import opened Wrappers
  import opened JsText

  const MenuAccept := "1"
  const MenuRevise := "2"
  const MenuQuit := "3"

  datatype Decision = Accept | Revise(feedback: string) | Quit

  /** `ask`: the line the user typed, trimmed. */
  function Ask(line: string): (r: string)
    ensures |r| <= |line|
    ensures exists i :: StripsAt(line, r, i)
    ensures r == [] <==> forall i :: 0 <= i < |line| ==> IsWhiteSpace(line[i])
    ensures r != [] ==> !IsWhiteSpace(r[0]) && !IsWhiteSpace(r[|r| - 1])
  {
    Trim(line)
  }

  /** The answers `ask` returns for the lines typed, in order. */
  function Answers(lines: seq<string>): (r: seq<string>)
    ensures |r| == |lines|
    ensures forall i :: 0 <= i < |lines| ==> r[i] == Ask(lines[i])
  {
    seq(|lines|, i requires 0 <= i < |lines| => Ask(lines[i]))
  }

  /**
   * The answer is the only slice of the line that has white space alone
   * around it and none at its ends.
   */
  lemma AskIsStrippedLine(line: string, r: string, i: int)
    requires StripsAt(line, r, i)
    requires r == [] || (!IsWhiteSpace(r[0]) && !IsWhiteSpace(r[|r| - 1]))
    ensures Ask(line) == r
  {
    var a := Ask(line);
    var k :| StripsAt(line, a, k);
    if r == [] {
      forall j | 0 <= j < |line| ensures IsWhiteSpace(line[j]) {
        if j >= i { assert i + |r| <= j; }
      }
    } else {
      assert a != [] by { assert line[i] == r[0]; }
      StripsAtUnique(line, r, i, a, k);
    }
  }

  /** Asking again gives the same answer: trimming is idempotent. */
  lemma AskIdempotent(line: string)
    ensures Ask(Ask(line)) == Ask(line)
  {
    TrimIdempotent(line);
  }

  /** `getSystemDescription`: the next answer, or `None` when input has ended. */
  function GetSystemDescription(answers: seq<string>): (r: Option<(string, seq<string>)>)
    ensures r.None? <==> answers == []
    ensures r.Some? ==> [r.value.0] + r.value.1 == answers
  {
    if answers == [] then None else Some((answers[0], answers[1..]))
  }

  predicate IsMenuOption(answer: string) {
    answer == MenuAccept || answer == MenuRevise || answer == MenuQuit
  }

  /** `getReviewDecision`: the decision and the answers left unread, or `None` when answers run out. */
  function GetReviewDecision(answers: seq<string>): (r: Option<(Decision, seq<string>)>)
    ensures r.Some? ==> |r.value.1| < |answers| && r.value.1 == answers[|answers| - |r.value.1|..]
    decreases |answers|
  {
    if |answers| == 0 then None
    else
      var choice := answers[0];
      if choice == MenuAccept then Some((Accept, answers[1..]))
      else if choice == MenuRevise then
        if |answers| == 1 then None else Some((Revise(answers[1]), answers[2..]))
      else if choice == MenuQuit then Some((Quit, answers[1..]))
      else GetReviewDecision(answers[1..])
  }

  /**
   * The decision is fixed by the first answer that is a menu option: '1'
   * accepts, '3' quits, '2' revises with the next answer as feedback; the
   * answers after it are left unread.
   */
  lemma {:induction false} FirstOptionDecides(answers: seq<string>, i: nat)
    requires i < |answers| && IsMenuOption(answers[i])
    requires forall j :: 0 <= j < i ==> !IsMenuOption(answers[j])
    ensures answers[i] == MenuAccept ==> GetReviewDecision(answers) == Some((Accept, answers[i + 1..]))
    ensures answers[i] == MenuQuit ==> GetReviewDecision(answers) == Some((Quit, answers[i + 1..]))
    ensures answers[i] == MenuRevise && i + 1 < |answers| ==>
              GetReviewDecision(answers) == Some((Revise(answers[i + 1]), answers[i + 2..]))
    ensures answers[i] == MenuRevise && i + 1 == |answers| ==> GetReviewDecision(answers) == None
  {
    if i > 0 {
      assert !IsMenuOption(answers[0]);
      var tail := answers[1..];
      assert forall j :: 0 <= j < i - 1 ==> tail[j] == answers[j + 1];
      FirstOptionDecides(tail, i - 1);
      assert tail[i - 1] == answers[i];
      assert tail[i - 1 + 1..] == answers[i + 1..];
      if i + 1 < |answers| {
        assert tail[i - 1 + 1] == answers[i + 1];
        assert tail[i - 1 + 2..] == answers[i + 2..];
      }
    }
  }

  /** Without any menu option among the answers, no decision is ever made. */
  lemma {:induction false} NoOptionNoDecision(answers: seq<string>)
    requires forall j :: 0 <= j < |answers| ==> !IsMenuOption(answers[j])
    ensures GetReviewDecision(answers) == None
    decreases |answers|
  {
    if |answers| > 0 {
      NoOptionNoDecision(answers[1..]);
    }
  }

  /** A line typed with surrounding blanks counts as the option it contains. */
  lemma PaddedOptionCounts(line: string, rest: seq<string>)
    requires Ask(line) == MenuQuit
    ensures GetReviewDecision(Answers([line] + rest)) == Some((Quit, Answers(rest)))
  {
    AnswersCons(line, rest);
    assert ([Ask(line)] + Answers(rest))[1..] == Answers(rest);
  }

  /** The answers to a first line and the rest are that line's answer, then the rest's. */
  lemma AnswersCons(line: string, rest: seq<string>)
    ensures Answers([line] + rest) == [Ask(line)] + Answers(rest)
  {
    var lines := [line] + rest;
    forall i | 1 <= i < |lines| ensures lines[i] == rest[i - 1] {
    }
  }
}

=== FILE: js_text.dfy ===
/**
 * The few JavaScript string semantics the wizard relies on: truthiness of an
 * optional string, `String.prototype.trim`, UTF-16 `length`, `repeat`, and
 * `Array.prototype.join('')`.
 */
module JsText {
  import opened Wrappers

  /** A string-or-null is truthy when it is present and non-empty. */
  predicate Truthy(o: Option<string>) {
    o.Some? && o.value != ""
  }

  /** `x || ''` for a string-or-null `x`. */
  function OrEmpty(o: Option<string>): (r: string)
    ensures Truthy(o) ==> r == o.value
    ensures !Truthy(o) ==> r == ""
  {
    if Truthy(o) then o.value else ""
  }

  predicate StartsWith(s: string, prefix: string) {
    |prefix| <= |s| && s[..|prefix|] == prefix
  }

  predicate EndsWith(s: string, suffix: string) {
    |suffix| <= |s| && s[|s| - |suffix|..] == suffix
  }

  /** `w` occurs in `s` starting at position `i`. */
  predicate OccursAt(s: string, w: string, i: int) {
    0 <= i && i + |w| <= |s| && s[i..i + |w|] == w
  }

  lemma ConcatStartsWith(a: string, b: string)
    ensures StartsWith(a + b, a)
  {
    assert (a + b)[..|a|] == a;
  }

  lemma ConcatEndsWith(a: string, b: string)
    ensures EndsWith(a + b, b)
  {
    assert (a + b)[|a + b| - |b|..] == b;
  }

  /** A suffix of a suffix is a suffix. */
  lemma EndsWithTransitive(s: string, a: string, b: string)
    requires EndsWith(s, a) && EndsWith(a, b)
    ensures EndsWith(s, b)
  {
    assert s[|s| - |b|..] == s[|s| - |a|..][|a| - |b|..];
  }

  /** `w` sits at position `|a|` of `a + w + b`. */
  lemma OccursAfter(a: string, w: string, b: string)
    ensures OccursAt(a + w + b, w, |a|)
  {
    assert (a + w + b)[|a|..|a| + |w|] == w;
  }

  /**
   * ECMAScript WhiteSpace and LineTerminator code points: what `trim` removes.
   * These are TAB, VT, FF, ZWNBSP, every Space_Separator, LF, CR, LS and PS.
   */
  predicate IsWhiteSpace(c: char) {
    || c == '\t' || c == '\U{000B}' || c == '\U{000C}' || c == ' ' || c == '\U{00A0}' || c == '\U{FEFF}'
    || c == '\U{1680}' || ('\U{2000}' <= c <= '\U{200A}')
    || c == '\U{202F}' || c == '\U{205F}' || c == '\U{3000}'
    || c == '\n' || c == '\r' || c == '\U{2028}' || c == '\U{2029}'
  }

  /** The first position at or after `i` that is not white space, or the end. */
  function SkipWhite(s: string, i: nat): (k: nat)
    requires i <= |s|
    ensures i <= k <= |s|
    ensures k == |s| || !IsWhiteSpace(s[k])
    ensures forall j :: i <= j < k ==> IsWhiteSpace(s[j])
    decreases |s| - i
  {
    if i < |s| && IsWhiteSpace(s[i]) then SkipWhite(s, i + 1) else i
  }

  /** The position just past the last non-white character in `s[lo..e]`, or `lo`. */
  function SkipWhiteBack(s: string, lo: nat, e: nat): (k: nat)
    requires lo <= e <= |s|
    ensures lo <= k <= e
    ensures k == lo || !IsWhiteSpace(s[k - 1])
    ensures forall j :: k <= j < e ==> IsWhiteSpace(s[j])
    decreases e - lo
  {
    if lo < e && IsWhiteSpace(s[e - 1]) then SkipWhiteBack(s, lo, e - 1) else e
  }

  /** `r` is the slice of `s` at `i`, with only white space before it and after it. */
  predicate StripsAt(s: string, r: string, i: int) {
    && 0 <= i && i + |r| <= |s| && r == s[i..i + |r|]
    && (forall j :: 0 <= j < i ==> IsWhiteSpace(s[j]))
    && (forall j :: i + |r| <= j < |s| ==> IsWhiteSpace(s[j]))
  }

  /** Two non-empty slices with white space alone around them and none at their ends are equal. */
  lemma StripsAtUnique(s: string, r1: string, i1: int, r2: string, i2: int)
    requires StripsAt(s, r1, i1) && StripsAt(s, r2, i2)
    requires r1 != [] && !IsWhiteSpace(r1[0]) && !IsWhiteSpace(r1[|r1| - 1])
    requires r2 != [] && !IsWhiteSpace(r2[0]) && !IsWhiteSpace(r2[|r2| - 1])
    ensures r1 == r2
  {
    FirstNonWhite(s, i1, i2);
    FirstNonWhite(s, i2, i1);
    LastNonWhite(s, i1 + |r1|, i2 + |r2|);
    LastNonWhite(s, i2 + |r2|, i1 + |r1|);
  }

  /** A position before which all is white space is at or before any non-white character. */
  lemma FirstNonWhite(s: string, i: int, k: int)
    requires 0 <= k < |s| && !IsWhiteSpace(s[k]) && i <= |s|
    requires forall j :: 0 <= j < i ==> IsWhiteSpace(s[j])
    ensures i <= k
  {
  }

  /** A position after which all is white space is past any non-white character. */
  lemma LastNonWhite(s: string, e: int, k: int)
    requires 0 < k <= |s| && !IsWhiteSpace(s[k - 1]) && 0 <= e
    requires forall j :: e <= j < |s| ==> IsWhiteSpace(s[j])
    ensures k <= e
  {
  }

  /** `String.prototype.trim`. */
  function Trim(s: string): (r: string)
    ensures |r| <= |s|
    ensures exists i :: StripsAt(s, r, i)
    ensures r == [] || (!IsWhiteSpace(r[0]) && !IsWhiteSpace(r[|r| - 1]))
    ensures r == [] <==> forall i :: 0 <= i < |s| ==> IsWhiteSpace(s[i])
  {
    var a := SkipWhite(s, 0);
    var b := SkipWhiteBack(s, a, |s|);
    // An empty slice leaves nothing between the two scans: all of `s` is white space.
    assert a == b ==> a == |s|;
    assert StripsAt(s, s[a..b], a);
    s[a..b]
  }

  /** Trimming is idempotent: an answer that is already trimmed is kept as is. */
  lemma {:induction false} TrimIdempotent(s: string)
    ensures Trim(Trim(s)) == Trim(s)
  {
    var r := Trim(s);
    if r != [] {
      assert SkipWhite(r, 0) == 0;
      assert SkipWhiteBack(r, 0, |r|) == |r|;
      assert r[0..|r|] == r;
    }
  }

  function Utf16Length(s: string): (n: nat)
    ensures |s| <= n <= 2 * |s|
  {
    if |s| == 0 then 0
    else (if s[0] as int > 0xFFFF then 2 else 1) + Utf16Length(s[1..])
  }

  /** `c.repeat(n)` for a one-character string `c`. */
  function Repeat(c: char, n: nat): (r: string)
    ensures |r| == n
    ensures forall i :: 0 <= i < n ==> r[i] == c
  {
    if n == 0 then "" else [c] + Repeat(c, n - 1)
  }

  /** `parts.join('')`. */
  function Concat(parts: seq<string>): string
  {
    if |parts| == 0 then "" else parts[0] + Concat(parts[1..])
  }

  /** Joining splits at any index: the k-th part sits right after the first k. */
  lemma {:induction false} ConcatSplit(parts: seq<string>, k: nat)
    requires k < |parts|
    ensures Concat(parts) == Concat(parts[..k]) + parts[k] + Concat(parts[k + 1..])
  {
    if k == 0 {
      assert parts[..0] == [];
    } else {
      ConcatSplit(parts[1..], k - 1);
      assert parts[1..][..k - 1] == parts[1..k];
      assert parts[1..][k..] == parts[k + 1..];
      assert parts[..k] == [parts[0]] + parts[1..k];
      assert Concat(parts[..k]) == parts[0] + Concat(parts[1..k]);
    }
  }

  /** Joining peels off the last part. */
  lemma {:induction false} ConcatLast(parts: seq<string>)
    requires |parts| > 0
    ensures Concat(parts) == Concat(parts[..|parts| - 1]) + parts[|parts| - 1]
  {
    if |parts| > 1 {
      ConcatLast(parts[1..]);
      assert parts[1..][..|parts| - 2] == parts[1..|parts| - 1];
      assert parts[..|parts| - 1][1..] == parts[1..|parts| - 1];
    }
  }

  lemma Regroup(a: string, b: string, c: string, d: string)
    ensures a + (b + c) + d == (a + b) + (c + d)
  {
  }

  /** An occurrence inside `s` is an occurrence, shifted by `|a|`, inside `a + s + b`. */
  lemma OccursShift(a: string, s: string, b: string, w: string, i: int)
    requires OccursAt(s, w, i)
    ensures OccursAt(a + s + b, w, |a| + i)
  {
    var r := a + s + b;
    assert r[|a| + i..|a| + i + |w|] == s[i..i + |w|];
  }

  /** An occurrence inside an occurrence is an occurrence in the whole. */
  lemma OccursWithin(s: string, w: string, i: int, v: string, j: int)
    requires OccursAt(s, w, i) && OccursAt(w, v, j)
    ensures OccursAt(s, v, i + j)
  {
    forall t | 0 <= t < |v|
      ensures s[i + j + t] == v[t]
    {
      assert w[j + t] == v[t];
      assert s[i + (j + t)] == w[j + t];
    }
    assert s[i + j..i + j + |v|] == v;
  }

  /** An occurrence of `a + b` is an occurrence of `a` followed by one of `b`. */
  lemma OccursSplit(s: string, a: string, b: string, i: int)
    requires OccursAt(s, a + b, i)
    ensures OccursAt(s, a, i) && OccursAt(s, b, i + |a|)
  {
    assert s[i..i + |a|] == (a + b)[..|a|];
    assert s[i + |a|..i + |a| + |b|] == (a + b)[|a|..];
  }

  /** Every part occurs in the joined string at the end of the parts before it. */
  lemma PartOccursAt(parts: seq<string>, k: nat)
    requires k < |parts|
    ensures OccursAt(Concat(parts), parts[k], |Concat(parts[..k])|)
  {
    ConcatSplit(parts, k);
    OccursAfter(Concat(parts[..k]), parts[k], Concat(parts[k + 1..]));
  }

  /** Joining is pointwise: equal parts give equal strings. */
  lemma {:induction false} ConcatOfEqualParts(a: seq<string>, b: seq<string>)
    requires |a| == |b|
    requires forall i :: 0 <= i < |a| ==> a[i] == b[i]
    ensures Concat(a) == Concat(b)
  {
    if |a| > 0 {
      ConcatOfEqualParts(a[1..], b[1..]);
    }
  }
}

=== FILE: prompts.dfy ===
/**
 * The `getUserPrompt` builders of the seven agent prompt modules. Each of the
 * six text agents follows one shape: with truthy feedback a revision request
 * that quotes the feedback (and, for five of them, repeats the input after a
 * context label); otherwise a fixed lead-in followed by the input. The SDLC
 * task allocator instead lays out a record of seven fields under fixed
 * headings and takes no feedback at all.
 */
module Prompts {
  import opened Wrappers
  import opened JsText

  /** The agents whose prompts are defined; each has an opaque system prompt. */
  datatype Agent =
    | BusinessAnalyst
    | RequirementsReviewer
    | TechnicalArchitect
    | TechnicalDesigner
    | TestingStrategist
    | TaskPlanner
    | SdlcTaskAllocator

  /**
   * The large `systemPrompt` literal of each agent. The text is static
   * content the model never inspects, so each is a distinct stand-in.
   */
  function SystemPrompt(a: Agent): string {
    match a
    case BusinessAnalyst => "<business analyst system prompt>"
    case RequirementsReviewer => "<requirements reviewer system prompt>"
    case TechnicalArchitect => "<technical architect system prompt>"
    case TechnicalDesigner => "<technical designer system prompt>"
    case TestingStrategist => "<testing strategist system prompt>"
    case TaskPlanner => "<task planner system prompt>"
    case SdlcTaskAllocator => "<sdlc task allocator system prompt>"
  }

  /**
   * The shape shared by the six text prompts. A revision prompt is
   * `opening "feedback", request` followed, when `contextLabel` is present, by
   * `\n\n<label>:\n<input>`; an initial prompt is `lead` followed by the input.
   */
  datatype Template = Template(opening: string, request: string, contextLabel: Option<string>, lead: string)

  function Quote(feedback: string): string {
    "\"" + feedback + "\""
  }

  function ContextBlock(t: Template, input: string): string {
    match t.contextLabel
    case Some(heading) => "\n\n" + heading + ":\n" + input
    case None => ""
  }

  /** A template's `getUserPrompt(input, feedback)`. */
  function UserPrompt(t: Template, input: string, feedback: Option<string>): (r: string)
    ensures !Truthy(feedback) ==> r == t.lead + input
    ensures Truthy(feedback) ==> StartsWith(r, t.opening)
    ensures Truthy(feedback) ==> OccursAt(r, Quote(feedback.value), |t.opening|)
    ensures Truthy(feedback) && t.contextLabel.Some? ==>
              EndsWith(r, "\n\n" + t.contextLabel.value + ":\n" + input)
    ensures Truthy(feedback) && t.contextLabel.None? ==> EndsWith(r, ", " + t.request)
  {
    if Truthy(feedback) then
      var head := t.opening + Quote(feedback.value);
      var r := head + ", " + t.request + ContextBlock(t, input);
      ConcatStartsWith(t.opening, Quote(feedback.value) + ", " + t.request + ContextBlock(t, input));
      assert r == t.opening + Quote(feedback.value) + (", " + t.request + ContextBlock(t, input));
      OccursAfter(t.opening, Quote(feedback.value), ", " + t.request + ContextBlock(t, input));
      ConcatEndsWith(head + ", " + t.request, ContextBlock(t, input));
      ConcatEndsWith(head, ", " + t.request);
      r
    else
      t.lead + input
  }

  // ---------------------------------------------------------------------
  // The six text templates.

  const BusinessAnalystTemplate := Template(
    "Based on the previous requirements and this feedback: ",
    "please refine and update the user stories accordingly.",
    None,
    "Please analyze this system description and create comprehensive user stories with all required details:\n\n")

  const RequirementsReviewerTemplate := Template(
    "Based on this feedback: ",
    "please review the requirements again and provide updated recommendations.",
    Some("Requirements"),
    "Please review these requirements and identify any missing elements or gaps:\n\n")

  const TechnicalArchitectTemplate := Template(
    "Based on this feedback: ",
    "please refine the technical architecture.",
    Some("Requirements"),
    "Based on these requirements, please design the system architecture and recommend the technical stack:\n\n")

  const TechnicalDesignerTemplate := Template(
    "Based on this feedback: ",
    "please refine the technical design.",
    Some("All Previous Context"),
    "Based on the requirements, requirements review, and technical architecture provided below, "
    + "please provide detailed component design, API specifications, data models, and error handling strategy.\n\n"
    + "IMPORTANT: Use the exact technology stack and frameworks specified in the Technical Architecture & Stack section.\n\n"
    + "All Previous Context:\n")

  const TestingStrategistTemplate := Template(
    "Based on this feedback: ",
    "please refine the testing strategy.",
    Some("All Previous Context"),
    "Based on the requirements, architecture, and technical design provided below, "
    + "please create a comprehensive testing strategy.\n\n"
    + "IMPORTANT: Use the testing frameworks and tools that are compatible with the technology stack "
    + "specified in the Technical Architecture & Stack section.\n\n"
    + "All Previous Context:\n")

  const TaskPlannerTemplate := Template(
    "Based on this feedback: ",
    "please refine the task breakdown and implementation roadmap.",
    Some("All Previous Outputs"),
    "Based on all the previous work (requirements, requirements review, architecture, technical design, "
    + "and testing strategy), please create a comprehensive task breakdown for implementing this project "
    + "with GenAI code generation tools.\n\n"
    + "IMPORTANT: Pay special attention to the Technical Architecture & Stack section - use the exact "
    + "technologies, frameworks, and tools specified there. Do not assume or substitute different technologies.\n\n"
    + "All Previous Outputs:\n")

  /**
   * The business analyst's prompt. Null and '' feedback both select the
   * initial prompt; the revision prompt quotes the feedback and is otherwise
   * fixed text, so it carries nothing of the description.
   */
  function BusinessAnalystPrompt(systemDescription: string, feedback: Option<string>): (r: string)
    ensures !Truthy(feedback) ==> r == BusinessAnalystTemplate.lead + systemDescription
    ensures !Truthy(feedback) ==> EndsWith(r, systemDescription)
    ensures Truthy(feedback) ==> OccursAt(r, Quote(feedback.value), |BusinessAnalystTemplate.opening|)
    ensures Truthy(feedback) ==> EndsWith(r, ", " + BusinessAnalystTemplate.request)
    ensures Truthy(feedback) ==>
              |r| == |BusinessAnalystTemplate.opening| + |Quote(feedback.value)| + 2 + |BusinessAnalystTemplate.request|
  {
    ConcatEndsWith(BusinessAnalystTemplate.lead, systemDescription);
    UserPrompt(BusinessAnalystTemplate, systemDescription, feedback)
  }

  function RequirementsReviewerPrompt(requirements: string, feedback: Option<string>): (r: string)
    ensures !Truthy(feedback) ==> r == RequirementsReviewerTemplate.lead + requirements
    ensures Truthy(feedback) ==> OccursAt(r, Quote(feedback.value), |RequirementsReviewerTemplate.opening|)
    ensures Truthy(feedback) ==> EndsWith(r, "\n\n" + RequirementsReviewerTemplate.contextLabel.value + ":\n" + requirements)
    ensures EndsWith(r, requirements)
  {
    var r := UserPrompt(RequirementsReviewerTemplate, requirements, feedback);
    EndsWithInput(RequirementsReviewerTemplate, requirements, feedback);
    r
  }

  function TechnicalArchitectPrompt(requirements: string, feedback: Option<string>): (r: string)
    ensures !Truthy(feedback) ==> r == TechnicalArchitectTemplate.lead + requirements
    ensures Truthy(feedback) ==> OccursAt(r, Quote(feedback.value), |TechnicalArchitectTemplate.opening|)
    ensures Truthy(feedback) ==> EndsWith(r, "\n\n" + TechnicalArchitectTemplate.contextLabel.value + ":\n" + requirements)
    ensures EndsWith(r, requirements)
  {
    var r := UserPrompt(TechnicalArchitectTemplate, requirements, feedback);
    EndsWithInput(TechnicalArchitectTemplate, requirements, feedback);
    r
  }

  function TechnicalDesignerPrompt(allPreviousOutputs: string, feedback: Option<string>): (r: string)
    ensures !Truthy(feedback) ==> r == TechnicalDesignerTemplate.lead + allPreviousOutputs
    ensures Truthy(feedback) ==> OccursAt(r, Quote(feedback.value), |TechnicalDesignerTemplate.opening|)
    ensures Truthy(feedback) ==> EndsWith(r, TechnicalDesignerTemplate.contextLabel.value + ":\n" + allPreviousOutputs)
    ensures EndsWith(r, allPreviousOutputs)
  {
    var r := UserPrompt(TechnicalDesignerTemplate, allPreviousOutputs, feedback);
    EndsWithInput(TechnicalDesignerTemplate, allPreviousOutputs, feedback);
    if Truthy(feedback) then
      EndsWithLabelledInput(TechnicalDesignerTemplate, allPreviousOutputs, feedback);
      r
    else r
  }

  function TestingStrategistPrompt(allPreviousOutputs: string, feedback: Option<string>): (r: string)
    ensures !Truthy(feedback) ==> r == TestingStrategistTemplate.lead + allPreviousOutputs
    ensures Truthy(feedback) ==> OccursAt(r, Quote(feedback.value), |TestingStrategistTemplate.opening|)
    ensures Truthy(feedback) ==> EndsWith(r, TestingStrategistTemplate.contextLabel.value + ":\n" + allPreviousOutputs)
    ensures EndsWith(r, allPreviousOutputs)
  {
    var r := UserPrompt(TestingStrategistTemplate, allPreviousOutputs, feedback);
    EndsWithInput(TestingStrategistTemplate, allPreviousOutputs, feedback);
    if Truthy(feedback) then
      EndsWithLabelledInput(TestingStrategistTemplate, allPreviousOutputs, feedback);
      r
    else r
  }

  function TaskPlannerPrompt(allPreviousOutputs: string, feedback: Option<string>): (r: string)
    ensures !Truthy(feedback) ==> r == TaskPlannerTemplate.lead + allPreviousOutputs
    ensures Truthy(feedback) ==> OccursAt(r, Quote(feedback.value), |TaskPlannerTemplate.opening|)
    ensures Truthy(feedback) ==> EndsWith(r, TaskPlannerTemplate.contextLabel.value + ":\n" + allPreviousOutputs)
    ensures EndsWith(r, allPreviousOutputs)
  {
    var r := UserPrompt(TaskPlannerTemplate, allPreviousOutputs, feedback);
    EndsWithInput(TaskPlannerTemplate, allPreviousOutputs, feedback);
    if Truthy(feedback) then
      EndsWithLabelledInput(TaskPlannerTemplate, allPreviousOutputs, feedback);
      r
    else r
  }

  /** The two context-less leads end with the label the revision branch uses. */
  lemma LeadsEndWithContextLabel()
    ensures EndsWith(TechnicalDesignerTemplate.lead, TechnicalDesignerTemplate.contextLabel.value + ":\n")
    ensures EndsWith(TestingStrategistTemplate.lead, TestingStrategistTemplate.contextLabel.value + ":\n")
    ensures EndsWith(TaskPlannerTemplate.lead, TaskPlannerTemplate.contextLabel.value + ":\n")
  {
  }

  /** A template with a context label ends with its input on both branches. */
  lemma EndsWithInput(t: Template, input: string, feedback: Option<string>)
    requires t.contextLabel.Some?
    ensures EndsWith(UserPrompt(t, input, feedback), input)
  {
    var r := UserPrompt(t, input, feedback);
    if Truthy(feedback) {
      ConcatEndsWith("\n\n" + t.contextLabel.value + ":\n", input);
      EndsWithTransitive(r, "\n\n" + t.contextLabel.value + ":\n" + input, input);
    } else {
      ConcatEndsWith(t.lead, input);
    }
  }

  /** On the revision branch the input follows `<label>:\n` directly. */
  lemma EndsWithLabelledInput(t: Template, input: string, feedback: Option<string>)
    requires t.contextLabel.Some? && Truthy(feedback)
    ensures EndsWith(UserPrompt(t, input, feedback), t.contextLabel.value + ":\n" + input)
  {
    var r := UserPrompt(t, input, feedback);
    var shorter := t.contextLabel.value + ":\n" + input;
    assert "\n\n" + t.contextLabel.value + ":\n" + input == "\n\n" + shorter;
    ConcatEndsWith("\n\n", shorter);
    EndsWithTransitive(r, "\n\n" + shorter, shorter);
  }

  // ---------------------------------------------------------------------
  // The SDLC task allocator.

  /** The record the allocator receives: the description and six prior outputs. */
  datatype AllocatorInputs = AllocatorInputs(
    systemDescription: string,
    requirements: string,
    requirementsReview: string,
    architecture: string,
    technicalDesign: string,
    testingStrategy: string,
    taskPlanner: string)

  const AllocatorIntro :=
    "Based on the comprehensive project documentation provided below, create a detailed task allocation "
    + "plan organized by SDLC role. Each task should contain enough information for a domain expert to "
    + "pick it up and execute it successfully."

  /** The seven headings, in the order the prompt lays them out. */
  const AllocatorHeadings: seq<string> := [
    "PROJECT OVERVIEW",
    "REQUIREMENTS & USER STORIES",
    "REQUIREMENTS REVIEW & GAP ANALYSIS",
    "SYSTEM ARCHITECTURE",
    "TECHNICAL DESIGN SPECIFICATIONS",
    "TESTING STRATEGY",
    "TASK BREAKDOWN & IMPLEMENTATION ROADMAP"
  ]

  /**
   * Everything after the last field: a separator, the `# YOUR TASK` heading and
   * the long instruction text, which stands here as an opaque constant.
   */
  const AllocatorInstructions := "<role-by-role task allocation instructions>"
  const AllocatorSuffix := "\n\n---\n\n# YOUR TASK\n\n" + AllocatorInstructions

  function AllocatorFields(inputs: AllocatorInputs): (fs: seq<string>)
    ensures |fs| == |AllocatorHeadings|
  {
    [inputs.systemDescription, inputs.requirements, inputs.requirementsReview, inputs.architecture,
     inputs.technicalDesign, inputs.testingStrategy, inputs.taskPlanner]
  }

  /** One heading followed by its field. */
  function AllocatorSection(heading: string, field: string): string {
    "\n\n# " + heading + "\n\n" + field
  }

  function AllocatorSections(inputs: AllocatorInputs): (ss: seq<string>)
    ensures |ss| == |AllocatorHeadings|
    ensures forall k :: 0 <= k < |ss| ==> ss[k] == AllocatorSection(AllocatorHeadings[k], AllocatorFields(inputs)[k])
  {
    var fs := AllocatorFields(inputs);
    seq(|AllocatorHeadings|, k requires 0 <= k < |AllocatorHeadings| => AllocatorSection(AllocatorHeadings[k], fs[k]))
  }

  /** The allocator's `getUserPrompt(inputs)`: it has no feedback parameter. */
  function AllocatorPrompt(inputs: AllocatorInputs): (r: string)
    ensures StartsWith(r, AllocatorIntro + AllocatorSection(AllocatorHeadings[0], inputs.systemDescription))
    ensures EndsWith(r, AllocatorSection(AllocatorHeadings[6], inputs.taskPlanner) + AllocatorSuffix)
  {
    var ss := AllocatorSections(inputs);
    FramedConcat(AllocatorIntro, ss, AllocatorSuffix);
    AllocatorIntro + Concat(ss) + AllocatorSuffix
  }

  /** A joined list between a fixed head and tail starts with its first part and ends with its last. */
  lemma FramedConcat(head: string, parts: seq<string>, tail: string)
    requires |parts| > 0
    ensures StartsWith(head + Concat(parts) + tail, head + parts[0])
    ensures EndsWith(head + Concat(parts) + tail, parts[|parts| - 1] + tail)
  {
    var first := parts[0];
    var rest := Concat(parts[1..]);
    assert Concat(parts) == first + rest;
    Regroup(head, first, rest, tail);
    ConcatStartsWith(head + first, rest + tail);
    var n := |parts| - 1;
    ConcatLast(parts);
    var init := Concat(parts[..n]);
    var last := parts[n];
    assert Concat(parts) == init + last;
    Regroup(head, init, last, tail);
    ConcatEndsWith(head + init, last + tail);
  }

  /** Where section `k` starts in the allocator prompt. */
  function AllocatorSectionOffset(inputs: AllocatorInputs, k: nat): nat
    requires k <= |AllocatorHeadings|
  {
    |AllocatorIntro| + |Concat(AllocatorSections(inputs)[..k])|
  }

  /**
   * Heading `k` appears at its section's offset, directly followed by field
   * `k`; offsets strictly increase, so the headings come in the fixed order
   * and each field is laid out once, under its own heading.
   */
  lemma AllocatorLayout(inputs: AllocatorInputs, k: nat)
    requires k < |AllocatorHeadings|
    ensures OccursAt(AllocatorPrompt(inputs),
                     AllocatorSection(AllocatorHeadings[k], AllocatorFields(inputs)[k]),
                     AllocatorSectionOffset(inputs, k))
    ensures AllocatorSectionOffset(inputs, k) < AllocatorSectionOffset(inputs, k + 1)
    ensures AllocatorSectionOffset(inputs, |AllocatorHeadings|) + |AllocatorSuffix| == |AllocatorPrompt(inputs)|
  {
    var ss := AllocatorSections(inputs);
    PartOccursAt(ss, k);
    OccursShift(AllocatorIntro, Concat(ss), AllocatorSuffix, ss[k], |Concat(ss[..k])|);
    ConcatLast(ss[..k + 1]);
    assert ss[..k + 1][..k] == ss[..k];
    assert ss[..|ss|] == ss;
  }

  /**
   * The allocator's prompt as a function of (inputs, feedback), the way the
   * backend calls it: the feedback argument never changes the prompt.
   */
  lemma AllocatorIgnoresFeedback(inputs: AllocatorInputs, f1: Option<string>, f2: Option<string>)
    ensures AllocatorPromptCalledWith(inputs, f1) == AllocatorPromptCalledWith(inputs, f2)
  {
  }

  /** `getUserPrompt(inputs, feedback)` as invoked: JavaScript drops the extra argument. */
  function AllocatorPromptCalledWith(inputs: AllocatorInputs, feedback: Option<string>): string {
    AllocatorPrompt(inputs)
  }

  /** Concrete witness: a revision request with feedback yields the very same prompt. */
  lemma AllocatorFeedbackLost()
    ensures var inputs := AllocatorInputs("d", "", "", "", "", "", "");
            AllocatorPromptCalledWith(inputs, Some("add a DevOps role")) == AllocatorPromptCalledWith(inputs, None)
  {
  }

  const RefineOpening := "Based on this feedback: "
  const RefineClosing := ", please refine the task allocation plan.\n\n"

  /** A revision request that quotes truthy feedback, put in front of `base`. */
  function RefineRequest(base: string, feedback: Option<string>): (r: string)
    ensures !Truthy(feedback) ==> r == base
    ensures Truthy(feedback) ==> OccursAt(r, Quote(feedback.value), |RefineOpening|)
    ensures Truthy(feedback) ==> |r| == |RefineOpening| + |Quote(feedback.value)| + |RefineClosing| + |base|
    ensures EndsWith(r, base)
  {
    if Truthy(feedback) then
      OccursAfter(RefineOpening, Quote(feedback.value), RefineClosing + base);
      assert RefineOpening + Quote(feedback.value) + (RefineClosing + base)
          == RefineOpening + Quote(feedback.value) + RefineClosing + base;
      ConcatEndsWith(RefineOpening + Quote(feedback.value) + RefineClosing, base);
      RefineOpening + Quote(feedback.value) + RefineClosing + base
    else
      base
  }

  /** Two different truthy feedbacks give two different revision requests. */
  lemma RefineDistinguishes(base: string, f1: string, f2: string)
    requires f1 != "" && f2 != "" && f1 != f2
    ensures RefineRequest(base, Some(f1)) != RefineRequest(base, Some(f2))
  {
    var p1 := RefineRequest(base, Some(f1));
    var p2 := RefineRequest(base, Some(f2));
    QuotedAt(p1, f1, |RefineOpening|);
    QuotedAt(p2, f2, |RefineOpening|);
  }

  /** Where a quotation occurs, the quoted text sits one character further on. */
  lemma QuotedAt(p: string, f: string, o: int)
    requires OccursAt(p, Quote(f), o)
    ensures p[o + 1..o + 1 + |f|] == f
  {
    var q := Quote(f);
    assert |q| == |f| + 2 && forall i :: 0 <= i < |f| ==> q[1 + i] == f[i];
    assert p[o..o + |q|] == q;
    assert forall j :: o + 1 <= j < o + 1 + |f| ==> p[j] == q[j - o];
  }

  /**
   * Corrected allocator prompt: with truthy feedback, a revision request that
   * quotes the feedback precedes the documentation, as for every other agent.
   */
  function AllocatorPromptWithFeedback(inputs: AllocatorInputs, feedback: Option<string>): (r: string)
    ensures !Truthy(feedback) ==> r == AllocatorPrompt(inputs)
    ensures Truthy(feedback) ==> OccursAt(r, Quote(feedback.value), |RefineOpening|)
    ensures EndsWith(r, AllocatorPrompt(inputs))
  {
    RefineRequest(AllocatorPrompt(inputs), feedback)
  }

  /** With the correction, two different truthy feedbacks give two different prompts. */
  lemma AllocatorFeedbackDistinguishes(inputs: AllocatorInputs, f1: string, f2: string)
    requires f1 != "" && f2 != "" && f1 != f2
    ensures AllocatorPromptWithFeedback(inputs, Some(f1)) != AllocatorPromptWithFeedback(inputs, Some(f2))
  {
    RefineDistinguishes(AllocatorPrompt(inputs), f1, f2);
  }

  // ---------------------------------------------------------------------
  // Business analyst revision context.

  /** As written, the revision prompt is the same for every description. */
  lemma BusinessAnalystFeedbackDropsDescription(d1: string, d2: string, feedback: Option<string>)
    requires Truthy(feedback)
    ensures BusinessAnalystPrompt(d1, feedback) == BusinessAnalystPrompt(d2, feedback)
  {
  }

  /** Concrete witness: two unrelated systems get one identical revision prompt. */
  lemma BusinessAnalystFeedbackCollision()
    ensures BusinessAnalystPrompt("a payroll system", Some("add audit logging"))
         == BusinessAnalystPrompt("a chess engine", Some("add audit logging"))
  {
  }

  /** Corrected template: the revision prompt carries the description, like the reviewer's. */
  const BusinessAnalystRevisionTemplate := BusinessAnalystTemplate.(contextLabel := Some("System Description"))

  function BusinessAnalystPromptCorrected(systemDescription: string, feedback: Option<string>): (r: string)
    ensures !Truthy(feedback) ==> r == BusinessAnalystPrompt(systemDescription, feedback)
    ensures Truthy(feedback) ==> OccursAt(r, Quote(feedback.value), |BusinessAnalystTemplate.opening|)
    ensures EndsWith(r, systemDescription)
  {
    var r := UserPrompt(BusinessAnalystRevisionTemplate, systemDescription, feedback);
    EndsWithInput(BusinessAnalystRevisionTemplate, systemDescription, feedback);
    r
  }

  /** With the correction, different descriptions give different prompts on both branches. */
  lemma BusinessAnalystCorrectedKeepsDescription(d1: string, d2: string, feedback: Option<string>)
    requires d1 != d2
    ensures BusinessAnalystPromptCorrected(d1, feedback) != BusinessAnalystPromptCorrected(d2, feedback)
  {
    var t := BusinessAnalystRevisionTemplate;
    var head := if Truthy(feedback) then t.opening + Quote(feedback.value) + ", " + t.request + ContextBlock(t, "") else t.lead;
    SameHeadThenInput(t, d1, feedback, head);
    SameHeadThenInput(t, d2, feedback, head);
    if |d1| == |d2| {
      assert BusinessAnalystPromptCorrected(d1, feedback)[|head|..] == d1;
      assert BusinessAnalystPromptCorrected(d2, feedback)[|head|..] == d2;
    }
  }

  /** A labelled template's prompt is a head that depends only on the feedback, then the input. */
  lemma SameHeadThenInput(t: Template, input: string, feedback: Option<string>, head: string)
    requires t.contextLabel.Some?
    requires head == if Truthy(feedback) then t.opening + Quote(feedback.value) + ", " + t.request + ContextBlock(t, "") else t.lead
    ensures UserPrompt(t, input, feedback) == head + input
  {
    if Truthy(feedback) {
      var request := t.opening + Quote(feedback.value) + ", " + t.request;
      assert head == request + ContextBlock(t, "");
      assert UserPrompt(t, input, feedback) == request + ContextBlock(t, input);
      ContextBlockThenInput(t, input);
      assert request + (ContextBlock(t, "") + input) == head + input;
    }
  }

  /** A labelled context block is the empty block followed by the input. */
  lemma ContextBlockThenInput(t: Template, input: string)
    requires t.contextLabel.Some?
    ensures ContextBlock(t, input) == ContextBlock(t, "") + input
  {
    var h := t.contextLabel.value;
    assert "\n\n" + h + ":\n" + "" == "\n\n" + h + ":\n";
  }
}

=== FILE: session_manager.dfy ===
/**
 * The backend's in-memory session store: a JavaScript `Map` from session id
 * to session. A `Map` iterates in insertion order, so the store keeps that
 * order next to the entries. Timestamps are left out; the fresh uuid of a new
 * session is a parameter.
 */
module SessionManager {
  import opened Wrappers

  type SessionId = string

  /**
   * A session. `outputs` maps a step's save key to its output; `None` is the
   * `null` the revise handler stores to clear an output.
   */
  datatype Session = Session(
    id: SessionId,
    systemDescription: string,
    outputs: map<string, Option<string>>,
    currentStep: int)

  /** The fields an `updateSession` call may overwrite; absent fields are kept. */
  datatype SessionUpdate = SessionUpdate(
    systemDescription: Option<string>,
    outputs: Option<map<string, Option<string>>>,
    currentStep: Option<int>)

  datatype Store = Store(order: seq<SessionId>, sessions: map<SessionId, Session>)

  const NotFound := "Session not found"

  predicate Distinct(order: seq<SessionId>) {
    forall i, j :: 0 <= i < j < |order| ==> order[i] != order[j]
  }

  /** The insertion order lists every stored id exactly once, and each session knows its key. */
  predicate Valid(s: Store) {
    && Distinct(s.order)
    && (forall id :: id in s.order ==> id in s.sessions)
    && (forall id :: id in s.sessions ==> id in s.order)
    && (forall id :: id in s.sessions ==> s.sessions[id].id == id)
  }

  function Empty(): (s: Store)
    ensures Valid(s) && s.sessions == map[]
  {
    Store([], map[])
  }

  /** `Map.set`: a new key goes last, an existing key keeps its place. */
  function Put(s: Store, id: SessionId, session: Session): (r: Store)
    requires Valid(s) && session.id == id
    ensures Valid(r)
    ensures r.sessions == s.sessions[id := session]
    ensures id in s.sessions ==> r.order == s.order
    ensures id !in s.sessions ==> r.order == s.order + [id]
  {
    if id in s.sessions then s.(sessions := s.sessions[id := session])
    else Store(s.order + [id], s.sessions[id := session])
  }

  /** `createSession(description)` with `freshId` standing for the generated uuid. */
  function CreateSession(s: Store, freshId: SessionId, systemDescription: string): (r: (Store, Session))
    requires Valid(s)
    ensures Valid(r.0)
    ensures r.1 == Session(freshId, systemDescription, map[], 0)
    ensures GetSession(r.0, freshId) == Some(r.1)
    ensures forall id :: id != freshId ==> GetSession(r.0, id) == GetSession(s, id)
    ensures freshId !in s.sessions ==> r.0.order == s.order + [freshId]
  {
    var session := Session(freshId, systemDescription, map[], 0);
    (Put(s, freshId, session), session)
  }

  /** `getSession(id)`: `undefined` (None) for an id never created or already deleted. */
  function GetSession(s: Store, id: SessionId): (r: Option<Session>)
    ensures r.Some? <==> id in s.sessions
    ensures r.Some? ==> r.value == s.sessions[id]
  {
    Lookup(s.sessions, id)
  }

  /** `Object.assign(session, updates)` restricted to the updatable fields. */
  function Apply(session: Session, u: SessionUpdate): (r: Session)
    ensures r.id == session.id
    ensures r.systemDescription == (if u.systemDescription.Some? then u.systemDescription.value else session.systemDescription)
    ensures r.outputs == (if u.outputs.Some? then u.outputs.value else session.outputs)
    ensures r.currentStep == (if u.currentStep.Some? then u.currentStep.value else session.currentStep)
  {
    session.(
      systemDescription := if u.systemDescription.Some? then u.systemDescription.value else session.systemDescription,
      outputs := if u.outputs.Some? then u.outputs.value else session.outputs,
      currentStep := if u.currentStep.Some? then u.currentStep.value else session.currentStep)
  }

  /** `updateSession(id, updates)`: throws 'Session not found' for an unknown id. */
  function UpdateSession(s: Store, id: SessionId, u: SessionUpdate): (r: Result<(Store, Session)>)
    requires Valid(s)
    ensures id !in s.sessions <==> r == Err(NotFound)
    ensures r.Ok? ==> Valid(r.value.0) && r.value.0.order == s.order
    ensures r.Ok? ==> GetSession(r.value.0, id) == Some(r.value.1) && r.value.1 == Apply(s.sessions[id], u)
    ensures r.Ok? ==> forall other :: other != id ==> GetSession(r.value.0, other) == GetSession(s, other)
  {
    if id !in s.sessions then Err(NotFound)
    else
      var session := Apply(s.sessions[id], u);
      Ok((Put(s, id, session), session))
  }

  /** `saveStepOutput(id, key, output)`: sets one output key of one session. */
  function SaveStepOutput(s: Store, id: SessionId, key: string, output: Option<string>): (r: Result<(Store, Session)>)
    requires Valid(s)
    ensures id !in s.sessions <==> r == Err(NotFound)
    ensures r.Ok? ==> Valid(r.value.0) && r.value.0.order == s.order
    ensures r.Ok? ==> GetSession(r.value.0, id) == Some(r.value.1)
    ensures r.Ok? ==> r.value.1.outputs == s.sessions[id].outputs[key := output]
    ensures r.Ok? ==> r.value.1 == s.sessions[id].(outputs := r.value.1.outputs)
    ensures r.Ok? ==> forall other :: other != id ==> GetSession(r.value.0, other) == GetSession(s, other)
  {
    if id !in s.sessions then Err(NotFound)
    else
      var old_ := s.sessions[id];
      var session := old_.(outputs := old_.outputs[key := output]);
      Ok((Put(s, id, session), session))
  }

  /** `getAllSessions()`: the sessions in insertion order. */
  function GetAllSessions(s: Store): (r: seq<Session>)
    requires Valid(s)
    ensures |r| == |s.order|
    ensures forall i :: 0 <= i < |r| ==> r[i] == s.sessions[s.order[i]]
    ensures forall id :: id in s.sessions ==> exists i :: 0 <= i < |r| && r[i] == s.sessions[id]
  {
    var r := seq(|s.order|, i requires 0 <= i < |s.order| => s.sessions[s.order[i]]);
    assert forall id :: id in s.sessions ==> exists i :: 0 <= i < |r| && r[i] == s.sessions[id] by {
      forall id | id in s.sessions
        ensures exists i :: 0 <= i < |r| && r[i] == s.sessions[id]
      {
        var i :| 0 <= i < |s.order| && s.order[i] == id;
        assert r[i] == s.sessions[id];
      }
    }
    r
  }

  /** The order with one id removed, all others kept in place. */
  function Without(order: seq<SessionId>, id: SessionId): (r: seq<SessionId>)
    ensures forall x :: x in r <==> x in order && x != id
    ensures |r| <= |order|
  {
    if |order| == 0 then []
    else if order[0] == id then Without(order[1..], id)
    else [order[0]] + Without(order[1..], id)
  }

  /** An id that is not listed leaves the order as it is. */
  lemma {:induction false} WithoutAbsent(order: seq<SessionId>, id: SessionId)
    requires id !in order
    ensures Without(order, id) == order
  {
    if |order| > 0 {
      assert order[0] != id;
      WithoutAbsent(order[1..], id);
      assert [order[0]] + order[1..] == order;
    }
  }

  /** A listed id is cut out at its position; the ids before and after it keep their order. */
  lemma {:induction false} WithoutAt(order: seq<SessionId>, id: SessionId, i: nat)
    requires Distinct(order)
    requires i < |order| && order[i] == id
    ensures Without(order, id) == order[..i] + order[i + 1..]
  {
    if i == 0 {
      assert id !in order[1..] by {
        forall j | 0 <= j < |order| - 1 ensures order[1..][j] != id {
          assert order[1..][j] == order[j + 1];
        }
      }
      WithoutAbsent(order[1..], id);
    } else {
      assert Distinct(order[1..]) by {
        forall a, b | 0 <= a < b < |order| - 1 ensures order[1..][a] != order[1..][b] {
          assert order[1..][a] == order[a + 1] && order[1..][b] == order[b + 1];
        }
      }
      WithoutAt(order[1..], id, i - 1);
      assert order[1..][..i - 1] + order[1..][i..] == order[1..i] + order[i + 1..];
      assert [order[0]] + order[1..i] == order[..i];
    }
  }

  /**
   * `after` is `before` with `id` cut out: unchanged when `id` is absent,
   * otherwise missing exactly the position that held `id`.
   */
  predicate CutOut(before: seq<SessionId>, id: SessionId, after: seq<SessionId>) {
    && (id !in before ==> after == before)
    && (id in before ==> exists i :: 0 <= i < |before| && before[i] == id && after == before[..i] + before[i + 1..])
  }

  /** Removing an id from a distinct order either changes nothing or cuts out its one position. */
  lemma WithoutSplices(order: seq<SessionId>, id: SessionId)
    requires Distinct(order)
    ensures CutOut(order, id, Without(order, id))
  {
    if id in order {
      var i :| 0 <= i < |order| && order[i] == id;
      WithoutAt(order, id, i);
    } else {
      WithoutAbsent(order, id);
    }
  }

  lemma {:induction false} WithoutKeepsDistinct(order: seq<SessionId>, id: SessionId)
    requires Distinct(order)
    ensures Distinct(Without(order, id))
  {
    if |order| > 0 {
      WithoutKeepsDistinct(order[1..], id);
      var rest := Without(order[1..], id);
      assert order[0] !in order[1..] by {
        forall j | 0 <= j < |order| - 1 ensures order[1..][j] != order[0] {
          assert order[1..][j] == order[j + 1];
        }
      }
      if order[0] != id {
        var r := [order[0]] + rest;
        forall i, j | 0 <= i < j < |r| ensures r[i] != r[j] {
          assert r[j] == rest[j - 1];
          if i > 0 {
            assert r[i] == rest[i - 1];
          }
        }
      }
    }
  }

  /** `deleteSession(id)`: true iff the id was present; the session is gone afterwards. */
  function DeleteSession(s: Store, id: SessionId): (r: (Store, bool))
    requires Valid(s)
    ensures Valid(r.0)
    ensures r.1 <==> id in s.sessions
    ensures GetSession(r.0, id) == None
    ensures forall other :: other != id ==> GetSession(r.0, other) == GetSession(s, other)
    ensures r.0.order == Without(s.order, id)
    ensures CutOut(s.order, id, r.0.order)
  {
    WithoutKeepsDistinct(s.order, id);
    WithoutSplices(s.order, id);
    (Store(Without(s.order, id), map k | k in s.sessions && k != id :: s.sessions[k]), id in s.sessions)
  }

  /** After a delete, `getAllSessions()` is the old listing with the deleted entry cut out. */
  lemma DeleteKeepsListingOrder(s: Store, id: SessionId, i: nat)
    requires Valid(s)
    requires i < |s.order| && s.order[i] == id
    ensures GetAllSessions(DeleteSession(s, id).0) == GetAllSessions(s)[..i] + GetAllSessions(s)[i + 1..]
  {
    var before := GetAllSessions(s);
    var after := GetAllSessions(DeleteSession(s, id).0);
    WithoutAt(s.order, id, i);
    forall j | 0 <= j < |after| ensures after[j] == (before[..i] + before[i + 1..])[j] {
      if j >= i {
        assert after[j] == before[j + 1];
      }
    }
  }

  /** `clearAll()`: no session is left. */
  function ClearAll(s: Store): (r: Store)
    ensures Valid(r)
    ensures forall id :: GetSession(r, id) == None
    ensures GetAllSessions(r) == []
  {
    Empty()
  }
}

=== FILE: socket_controller.dfy ===
/**
 * The WebSocket handlers of the backend as transitions over the session
 * store, the session bound to the socket (`socket.data.sessionId`) and the
 * list of events emitted to that socket. Each handler runs to completion
 * before the next; a handler that throws outside any `try` is an unhandled
 * rejection (`Thrown`) and emits nothing further, and `Settle` says what
 * that does to the process.
 */
module SocketController {
  import opened Wrappers
  import opened SessionManager
  import WS = WizardService

  /** step:error names its step by id, except in the accept handler, which uses the index. */
  datatype StepRef = StepId(id: string) | StepNumber(index: int)

  datatype Event =
    | SessionCreated(sessionId: SessionId)
    | StepStarted(step: string)
    | StepCompleted(step: string, output: string)
    | StepError(stepRef: StepRef, error: string)
    | StepNavigate(targetStep: int)
    | StepCleared(clearedKey: string)
    | WizardCompleted(completedSession: SessionId)
    | ErrorEvent(message: string)

  datatype Server = Server(store: Store, bound: Option<SessionId>, events: seq<Event>)

  /** A handler either finishes or throws with a message, leaving `server` as it was at the throw. */
  datatype Handled = Done(server: Server) | Thrown(server: Server, message: string) {
    function Final(): Server {
      match this
      case Done(s) => s
      case Thrown(s, _) => s
    }
  }

  /** Reading `.id` of the undefined step that an out-of-range index selects. */
  const UndefinedStep := "Cannot read properties of undefined (reading 'id')"
  /**
   * Calling `.substring` on a null feedback. A payload without the field
   * throws the same TypeError with "undefined" in place of "null".
   */
  const NullFeedback := "Cannot read properties of null (reading 'substring')"

  /** The save key of step 1, which a revision of step 1 clears. */
  const ReviewKey := "requirementsReview"

  function BoundSession(srv: Server): (r: Option<Session>)
    ensures r.Some? ==> srv.bound.Some? && srv.bound.value in srv.store.sessions
    ensures r.Some? ==> r.value == srv.store.sessions[srv.bound.value]
  {
    match srv.bound
    case None => None
    case Some(id) => GetSession(srv.store, id)
  }

  function Emit(srv: Server, e: Event): Server {
    srv.(events := srv.events + [e])
  }

  /** The socket's log only grows: `after` starts with every event of `before`. */
  predicate Extends(after: seq<Event>, before: seq<Event>) {
    |before| <= |after| && after[..|before|] == before
  }

  /**
   * The injected `wizardService.executeStep(stepIndex, session, feedback)`:
   * the handlers see only its reply. `Service` is the real one.
   */
  type Runner = (int, Session, Option<string>) -> Result<string>

  function Service(oracle: WS.Oracle): (run: Runner)
  {
    (k, session, feedback) => if WS.IsStepIndex(k) then WS.ExecuteStep(k, session, feedback, oracle) else Err(UndefinedStep)
  }

  /** The service runs each registry step with the agent, as the wizard service does. */
  lemma ServiceRunsStep(oracle: WS.Oracle, k: int, session: Session, feedback: Option<string>)
    requires WS.IsStepIndex(k)
    ensures Service(oracle)(k, session, feedback) == WS.ExecuteStep(k, session, feedback, oracle)
  {
  }

  /** Same sessions, each at the same current step. */
  ghost predicate SameProgress(a: Store, b: Store) {
    && (forall id :: id in a.sessions ==> id in b.sessions && a.sessions[id].currentStep == b.sessions[id].currentStep)
    && (forall id :: id in b.sessions ==> id in a.sessions)
  }

  /**
   * The effect of running step `k` for the bound session, given the service's
   * result: step:started, then on success the output stored under the step's
   * save key (nothing else of any session changes) and step:completed; on
   * failure step:error and an unchanged store.
   */
  ghost predicate Ran(before: Server, after: Server, k: int, result: Result<string>)
    requires WS.IsStepIndex(k)
  {
    var step := WS.Steps[k];
    && after.bound == before.bound
    && before.bound.Some?
    && var id := before.bound.value;
    && id in before.store.sessions
    && match result
       case Ok(output) =>
         && after.events == before.events + [StepStarted(step.id), StepCompleted(step.id, output)]
         && after.store.order == before.store.order
         && id in after.store.sessions
         && after.store.sessions[id]
            == before.store.sessions[id].(outputs := before.store.sessions[id].outputs[step.saveKey := Some(output)])
         && (forall other :: other != id ==> GetSession(after.store, other) == GetSession(before.store, other))
       case Err(m) =>
         && after.events == before.events + [StepStarted(step.id), StepError(StepId(step.id), m)]
         && after.store == before.store
  }

  /** `executeStep(socket, stepIndex, feedback)`. */
  function ExecuteStep(srv: Server, k: int, feedback: Option<string>, run: Runner): (h: Handled)
    requires Valid(srv.store)
    ensures Extends(h.server.events, srv.events)
    ensures Valid(h.server.store) && h.server.bound == srv.bound
    ensures SameProgress(srv.store, h.server.store)
    ensures BoundSession(srv).None? ==> h == Done(Emit(srv, ErrorEvent(NotFound)))
    ensures BoundSession(srv).Some? && !WS.IsStepIndex(k) ==> h == Thrown(srv, UndefinedStep)
    ensures BoundSession(srv).Some? && WS.IsStepIndex(k) ==>
              h.Done? && Ran(srv, h.server, k, run(k, BoundSession(srv).value, feedback))
  {
    match BoundSession(srv)
    case None => Done(Emit(srv, ErrorEvent(NotFound)))
    case Some(session) =>
      if !WS.IsStepIndex(k) then Thrown(srv, UndefinedStep)
      else
        var step := WS.Steps[k];
        var started := Emit(srv, StepStarted(step.id));
        match run(k, session, feedback)
        case Err(m) => Done(Emit(started, StepError(StepId(step.id), m)))
        case Ok(output) =>
          match SaveStepOutput(srv.store, srv.bound.value, step.saveKey, Some(output))
          case Err(m) => Done(Emit(started, StepError(StepId(step.id), m)))
          case Ok((store, _)) => Done(Emit(started.(store := store), StepCompleted(step.id, output)))
  }

  /** The server right after `wizard:start` created and bound its session. */
  function Created(srv: Server, systemDescription: string, freshId: SessionId): (r: Server)
    requires Valid(srv.store)
    ensures Valid(r.store) && r.bound == Some(freshId)
    ensures BoundSession(r) == Some(Session(freshId, systemDescription, map[], 0))
    ensures r.events == srv.events + [SessionCreated(freshId)]
  {
    var (store, _) := CreateSession(srv.store, freshId, systemDescription);
    Server(store, Some(freshId), srv.events + [SessionCreated(freshId)])
  }

  /**
   * `wizard:start`: create a session under `freshId`, bind it to the socket,
   * emit session:created, then run step 0 without feedback.
   */
  function Start(srv: Server, systemDescription: string, freshId: SessionId, run: Runner): (r: Server)
    requires Valid(srv.store)
    ensures Valid(r.store) && r.bound == Some(freshId)
    ensures freshId !in srv.store.sessions ==> r.store.order == srv.store.order + [freshId]
    ensures forall other :: other != freshId ==> GetSession(r.store, other) == GetSession(srv.store, other)
    ensures freshId in r.store.sessions
    ensures r.store.sessions[freshId].systemDescription == systemDescription
    ensures r.store.sessions[freshId].currentStep == 0
    ensures var created := Created(srv, systemDescription, freshId);
            Ran(created, r, 0, run(0, BoundSession(created).value, None))
  {
    var created := Created(srv, systemDescription, freshId);
    match ExecuteStep(created, 0, None, run)
    case Done(s) => s
    case Thrown(s, m) => Emit(s, ErrorEvent(m))
  }

  /** The server after `step:accept` recorded `currentStep := stepIndex + 1` for the bound session. */
  function Advanced(srv: Server, k: int): (r: Server)
    requires Valid(srv.store) && BoundSession(srv).Some?
    ensures Valid(r.store) && r.bound == srv.bound && r.events == srv.events
    ensures BoundSession(r) == Some(BoundSession(srv).value.(currentStep := k + 1))
    ensures r.store.order == srv.store.order
    ensures forall other :: other != srv.bound.value ==> GetSession(r.store, other) == GetSession(srv.store, other)
  {
    var update := SessionUpdate(None, None, Some(k + 1));
    match UpdateSession(srv.store, srv.bound.value, update)
    case Ok((store, _)) => srv.(store := store)
  }

  /**
   * `step:accept`: set the bound session's current step to `stepIndex + 1`,
   * then run that step if it exists, or emit wizard:completed.
   */
  function Accept(srv: Server, k: int, run: Runner): (r: Server)
    requires Valid(srv.store)
    ensures Valid(r.store) && r.bound == srv.bound
    ensures BoundSession(srv).None? ==> r == Emit(srv, ErrorEvent(NotFound))
    ensures BoundSession(srv).Some? ==>
              BoundSession(r).Some? && BoundSession(r).value.currentStep == k + 1
    ensures BoundSession(srv).Some? && WS.IsStepIndex(k + 1) ==>
              var advanced := Advanced(srv, k);
              Ran(advanced, r, k + 1, run(k + 1, BoundSession(advanced).value, None))
    ensures BoundSession(srv).Some? && k + 1 >= |WS.Steps| ==>
              r == Emit(Advanced(srv, k), WizardCompleted(srv.bound.value))
    ensures BoundSession(srv).Some? && k + 1 < 0 ==>
              r == Emit(Advanced(srv, k), StepError(StepNumber(k), UndefinedStep))
  {
    match BoundSession(srv)
    case None => Emit(srv, ErrorEvent(NotFound))
    case Some(_) =>
      var advanced := Advanced(srv, k);
      if k + 1 < |WS.Steps| then
        match ExecuteStep(advanced, k + 1, None, run)
        case Done(s) => s
        case Thrown(s, m) => Emit(s, StepError(StepNumber(k), m))
      else
        Emit(advanced, WizardCompleted(srv.bound.value))
  }

  /** The server after a revision of step 1 cleared the review output and told the client. */
  function Cleared(srv: Server, clearedKey: string): (r: Server)
    requires Valid(srv.store) && BoundSession(srv).Some?
    ensures Valid(r.store) && r.bound == srv.bound
    ensures SameProgress(srv.store, r.store)
    ensures r.events == srv.events + [StepNavigate(0), StepCleared(clearedKey)]
    ensures BoundSession(r) == Some(BoundSession(srv).value.(outputs := BoundSession(srv).value.outputs[ReviewKey := None]))
  {
    match SaveStepOutput(srv.store, srv.bound.value, ReviewKey, None)
    case Ok((store, _)) => Server(store, srv.bound, srv.events + [StepNavigate(0), StepCleared(clearedKey)])
  }

  /**
   * `step:revise`, with the key the step:cleared event names as a parameter.
   * Step 1 is special: its output is cleared and step 0 re-runs with the
   * feedback. Any other step re-runs as is.
   */
  function ReviseWith(srv: Server, k: int, feedback: Option<string>, run: Runner, clearedKey: string): (h: Handled)
    requires Valid(srv.store)
    ensures Extends(h.server.events, srv.events)
    ensures Valid(h.server.store) && h.server.bound == srv.bound
    ensures SameProgress(srv.store, h.server.store)
    ensures feedback.None? ==> h == Thrown(srv, NullFeedback)
    ensures feedback.Some? && k == 1 && BoundSession(srv).None? ==> h == Thrown(srv, NotFound)
    ensures feedback.Some? && k == 1 && BoundSession(srv).Some? ==>
              var cleared := Cleared(srv, clearedKey);
              h.Done? && Ran(cleared, h.server, 0, run(0, BoundSession(cleared).value, feedback))
    ensures feedback.Some? && k != 1 ==> h == ExecuteStep(srv, k, feedback, run)
  {
    if feedback.None? then Thrown(srv, NullFeedback)
    else if k == 1 then
      match BoundSession(srv)
      case None => Thrown(srv, NotFound)
      case Some(_) => ExecuteStep(Cleared(srv, clearedKey), 0, feedback, run)
    else
      ExecuteStep(srv, k, feedback, run)
  }

  /** `step:revise` as the handler is written: step:cleared names 'requirementsReview'. */
  function Revise(srv: Server, k: int, feedback: Option<string>, run: Runner): (h: Handled)
    requires Valid(srv.store)
    ensures Extends(h.server.events, srv.events)
    ensures Valid(h.server.store) && SameProgress(srv.store, h.server.store)
    ensures feedback.None? ==> h == Thrown(srv, NullFeedback)
    ensures feedback.Some? && k != 1 ==> h == ExecuteStep(srv, k, feedback, run)
  {
    ReviseWith(srv, k, feedback, run, ReviewKey)
  }

  /**
   * `step:revise` with step:cleared naming step 1's id, the key under which
   * the client holds step outputs.
   */
  function ReviseCorrected(srv: Server, k: int, feedback: Option<string>, run: Runner): (h: Handled)
    requires Valid(srv.store)
    ensures Extends(h.server.events, srv.events)
    ensures Valid(h.server.store) && SameProgress(srv.store, h.server.store)
    ensures feedback.Some? && k == 1 && BoundSession(srv).Some? ==>
              |h.server.events| == |srv.events| + 4 && h.server.events[|srv.events| + 1] == StepCleared(WS.Steps[1].id)
  {
    var h := ReviseWith(srv, k, feedback, run, WS.Steps[1].id);
    if feedback.Some? && k == 1 && BoundSession(srv).Some? then
      ReviseStepOneEvents(srv, feedback.value, run, WS.Steps[1].id);
      h
    else h
  }

  /**
   * Revising step 1 tells the client to go back to step 0 and clear the
   * review, re-runs step 0 with the feedback, and leaves the stored review
   * output null.
   */
  lemma ReviseStepOneClearsReview(srv: Server, feedback: string, run: Runner)
    requires Valid(srv.store) && BoundSession(srv).Some?
    ensures var h := Revise(srv, 1, Some(feedback), run);
            && h.Done? && BoundSession(h.server).Some?
            && ReviewKey in BoundSession(h.server).value.outputs
            && BoundSession(h.server).value.outputs[ReviewKey] == None
            && h.server.events[..|srv.events| + 3]
               == srv.events + [StepNavigate(0), StepCleared(ReviewKey), StepStarted(WS.Steps[0].id)]
  {
    var cleared := Cleared(srv, ReviewKey);
    var h := Revise(srv, 1, Some(feedback), run);
    assert h == ReviseWith(srv, 1, Some(feedback), run, ReviewKey);
    var result := run(0, BoundSession(cleared).value, Some(feedback));
    assert Ran(cleared, h.server, 0, result);
    assert WS.Steps[0].saveKey != ReviewKey;
    var prefix := srv.events + [StepNavigate(0), StepCleared(ReviewKey), StepStarted(WS.Steps[0].id)];
    assert cleared.events + [StepStarted(WS.Steps[0].id)] == prefix;
    match result
    case Ok(out) =>
      assert h.server.events == prefix + [StepCompleted(WS.Steps[0].id, out)];
    case Err(m) =>
      assert h.server.events == prefix + [StepError(StepId(WS.Steps[0].id), m)];
  }

  /**
   * The events a revision of step 1 appends, whichever key step:cleared
   * names: navigate to 0, cleared, started for step 0, then one event that
   * finishes step 0 (completed or error, both naming step 0's id).
   */
  lemma ReviseStepOneEvents(srv: Server, feedback: string, run: Runner, clearedKey: string)
    requires Valid(srv.store) && BoundSession(srv).Some?
    ensures var events := ReviseWith(srv, 1, Some(feedback), run, clearedKey).server.events;
            && |events| == |srv.events| + 4
            && events[..|srv.events|] == srv.events
            && events[|srv.events|] == StepNavigate(0)
            && events[|srv.events| + 1] == StepCleared(clearedKey)
            && events[|srv.events| + 2] == StepStarted(WS.Steps[0].id)
            && FinishesStep(events[|srv.events| + 3], WS.Steps[0].id)
  {
    var cleared := Cleared(srv, clearedKey);
    var h := ReviseWith(srv, 1, Some(feedback), run, clearedKey);
    var result := run(0, BoundSession(cleared).value, Some(feedback));
    assert Ran(cleared, h.server, 0, result);
    var prefix := srv.events + [StepNavigate(0), StepCleared(clearedKey), StepStarted(WS.Steps[0].id)];
    assert cleared.events + [StepStarted(WS.Steps[0].id)] == prefix;
    match result
    case Ok(out) =>
      assert h.server.events == prefix + [StepCompleted(WS.Steps[0].id, out)];
    case Err(m) =>
      assert h.server.events == prefix + [StepError(StepId(WS.Steps[0].id), m)];
  }

  /** An event that ends the run of the step with the given id. */
  predicate FinishesStep(e: Event, id: string) {
    (e.StepCompleted? && e.step == id) || (e.StepError? && e.stepRef == StepId(id))
  }

  /** `step:execute`: run the given step with the given feedback. */
  function ExecuteHandler(srv: Server, k: int, feedback: Option<string>, run: Runner): (h: Handled)
    requires Valid(srv.store)
    ensures BoundSession(srv).None? ==> h.server.store == srv.store && h.server.events == srv.events + [ErrorEvent(NotFound)]
    ensures WS.IsStepIndex(k) && BoundSession(srv).Some? ==>
              Ran(srv, h.server, k, run(k, BoundSession(srv).value, feedback))
  {
    ExecuteStep(srv, k, feedback, run)
  }

  // ---------------------------------------------------------------------
  // Properties across handlers.

  /** The step ids announced by step:started events. */
  function StartedSteps(events: seq<Event>): (ids: seq<string>)
    ensures |ids| <= |events|
  {
    if |events| == 0 then []
    else (if events[0].StepStarted? then [events[0].step] else []) + StartedSteps(events[1..])
  }

  /** After accepting step k, step k+1 starts iff it exists; otherwise no step starts. */
  lemma AcceptRunsNextIffInRange(srv: Server, k: int, run: Runner)
    requires Valid(srv.store) && BoundSession(srv).Some?
    ensures var r := Accept(srv, k, run);
            && StartedSteps(r.events[|srv.events|..]) == (if WS.IsStepIndex(k + 1) then [WS.Steps[k + 1].id] else [])
            && (r.events[|srv.events|..] == [WizardCompleted(srv.bound.value)] <==> k + 1 >= |WS.Steps|)
  {
    var r := Accept(srv, k, run);
    var tail := r.events[|srv.events|..];
    if WS.IsStepIndex(k + 1) {
      var advanced := Advanced(srv, k);
      match run(k + 1, BoundSession(advanced).value, None)
      case Ok(out) =>
        assert tail == [StepStarted(WS.Steps[k + 1].id), StepCompleted(WS.Steps[k + 1].id, out)];
        assert StartedSteps(tail[1..]) == [];
      case Err(m) =>
        assert tail == [StepStarted(WS.Steps[k + 1].id), StepError(StepId(WS.Steps[k + 1].id), m)];
        assert StartedSteps(tail[1..]) == [];
    } else if k + 1 >= |WS.Steps| {
      assert tail == [WizardCompleted(srv.bound.value)];
    } else {
      assert tail == [StepError(StepNumber(k), UndefinedStep)];
    }
  }

  /** No revision changes the current step of any session. */
  lemma ReviseKeepsProgress(srv: Server, k: int, feedback: Option<string>, run: Runner)
    requires Valid(srv.store)
    ensures var r := Revise(srv, k, feedback, run).Final();
            forall id :: id in srv.store.sessions ==>
              id in r.store.sessions && r.store.sessions[id].currentStep == srv.store.sessions[id].currentStep
  {
    var h := Revise(srv, k, feedback, run);
    assert h.Final() == h.server;
  }

  /**
   * What Node does with a listener's outcome. The listeners are `async`, so a
   * throw rejects a promise that nobody awaits; the server registers no
   * `unhandledRejection` handler, and from Node 15 on such a rejection ends
   * the process and every in-memory session with it (`None`).
   */
  function Settle(h: Handled): (r: Option<Server>)
    ensures r.Some? <==> h.Done?
    ensures r.Some? ==> r.value == h.server
  {
    match h
    case Done(s) => Some(s)
    case Thrown(_, _) => None
  }

  /**
   * A step:revise without feedback ends the server process, whatever the step
   * and whoever is connected; so does a revision of step 1 on a socket with
   * no session.
   */
  lemma RevisionWithoutFeedbackEndsServer(srv: Server, k: int, run: Runner)
    requires Valid(srv.store)
    ensures Settle(Revise(srv, k, None, run)) == None
    ensures BoundSession(srv).None? ==> Settle(Revise(srv, 1, Some(""), run)) == None
  {
  }

  /**
   * `step:revise` with its body inside a `try` whose `catch` emits step:error
   * naming the index, as `step:accept` does.
   */
  function ReviseCaught(srv: Server, k: int, feedback: Option<string>, run: Runner): (h: Handled)
    requires Valid(srv.store)
    ensures h.Done?
    ensures Extends(h.server.events, srv.events)
    ensures Valid(h.server.store) && h.server.bound == srv.bound
    ensures SameProgress(srv.store, h.server.store)
    ensures Revise(srv, k, feedback, run).Done? ==> h == Revise(srv, k, feedback, run)
    ensures feedback.None? ==> h == Done(Emit(srv, StepError(StepNumber(k), NullFeedback)))
  {
    match Revise(srv, k, feedback, run)
    case Done(s) => Done(s)
    case Thrown(s, m) => Done(Emit(s, StepError(StepNumber(k), m)))
  }

  /**
   * With the revision caught, no step:revise payload ends the process: every
   * session survives with its progress, and the socket's log only grows.
   */
  lemma CaughtRevisionKeepsServer(srv: Server, k: int, feedback: Option<string>, run: Runner)
    requires Valid(srv.store)
    ensures var r := Settle(ReviseCaught(srv, k, feedback, run));
            && r.Some?
            && SameProgress(srv.store, r.value.store)
            && Extends(r.value.events, srv.events)
  {
  }

  /** Without a bound session, accept and execute emit an error and change no state. */
  lemma NoSessionChangesNothing(srv: Server, k: int, feedback: Option<string>, run: Runner)
    requires Valid(srv.store) && BoundSession(srv).None?
    ensures Accept(srv, k, run) == Emit(srv, ErrorEvent(NotFound))
    ensures ExecuteHandler(srv, k, feedback, run) == Done(Emit(srv, ErrorEvent(NotFound)))
    ensures k == 1 && feedback.Some? ==> Revise(srv, k, feedback, run) == Thrown(srv, NotFound)
  {
  }

  /** A successful run of step k stores its output under step k's save key, visible to step k+1. */
  lemma RunFeedsNextStep(srv: Server, k: int, run: Runner, output: string)
    requires Valid(srv.store) && BoundSession(srv).Some? && WS.IsStepIndex(k)
    requires run(k, BoundSession(srv).value, None) == Ok(output)
    ensures var r := ExecuteStep(srv, k, None, run).server;
            && BoundSession(r).Some?
            && WS.Stored(BoundSession(r).value, WS.Steps[k].saveKey) == output
  {
  }

  /**
   * With the real service, a step run records the agent's reply to the
   * step's prompt under the step's save key, or reports the service's
   * failure as step:error.
   */
  lemma ServedStepStoresReply(srv: Server, k: int, feedback: Option<string>, oracle: WS.Oracle)
    requires Valid(srv.store) && BoundSession(srv).Some? && WS.IsStepIndex(k)
    ensures var h := ExecuteStep(srv, k, feedback, Service(oracle));
            var result := WS.ExecuteStep(k, BoundSession(srv).value, feedback, oracle);
            && Ran(srv, h.server, k, result)
            && (result.Ok? ==> BoundSession(h.server).Some?
                               && WS.Stored(BoundSession(h.server).value, WS.Steps[k].saveKey) == result.value)
  {
    ServiceRunsStep(oracle, k, BoundSession(srv).value, feedback);
  }
}

=== FILE: wizard_context.dfy ===
/**
 * The frontend wizard state: the step list, the reducer, the socket
 * listeners (each server event becomes a fixed list of reducer actions) and
 * the guarded client actions. Timestamps in history entries are left out.
 */
module WizardContext {
  import opened Wrappers
  import SC = SocketController
  import WS = WizardService
  import SessionManager

  datatype StepInfo = StepInfo(id: string, name: string, description: string)

  const Steps: seq<StepInfo> := [
    StepInfo("businessAnalyst", "Requirements & User Stories", "Business Analyst creates comprehensive user stories"),
    StepInfo("requirementsReviewer", "Requirements Review", "Review and validate requirements completeness"),
    StepInfo("technicalArchitect", "Technical Architecture", "Design system architecture and tech stack"),
    StepInfo("technicalDesigner", "Technical Design", "Detailed component and API specifications"),
    StepInfo("testingStrategist", "Testing Strategy", "Comprehensive testing approach"),
    StepInfo("taskPlanner", "Task Planner & Implementation Plan", "Prepare tasks for GenAI code generation"),
    StepInfo("sdlcTaskAllocator", "SDLC Task Allocation", "Create role-specific tasks for SDLC experts")
  ]

  datatype HistoryEntry =
    | StartedEntry(step: string)
    | CompletedEntry(step: string)
    | ErrorEntry(stepRef: SC.StepRef, error: string)
    | FinishedEntry

  /** `outputs` maps a step id to its output; null (a cleared output) is `None`. */
  datatype State = State(
    sessionId: Option<string>,
    systemDescription: string,
    currentStep: int,
    steps: seq<StepInfo>,
    outputs: map<string, Option<string>>,
    isProcessing: bool,
    isConnected: bool,
    error: Option<string>,
    history: seq<HistoryEntry>)

  const Initial := State(None, "", 0, Steps, map[], false, false, None, [])

  datatype Action =
    | SetSessionId(sessionId: string)
    | SetSystemDescription(description: string)
    | SetCurrentStep(target: int)
    | SetOutput(step: string, output: Option<string>)
    | SetProcessing(processing: bool)
    | SetConnected(connected: bool)
    | SetError(error: Option<string>)
    | AddToHistory(entry: HistoryEntry)
    | NextStep
    | PreviousStep
    | Reset
    | Unknown(actionType: string)

  function Min(a: int, b: int): int { if a < b then a else b }
  function Max(a: int, b: int): int { if a < b then b else a }

  /** `wizardReducer`. */
  function Reduce(s: State, a: Action): (r: State)
    ensures a.NextStep? ==> r == s.(currentStep := r.currentStep)
    ensures a.NextStep? && s.currentStep <= |s.steps| - 1 ==> r.currentStep <= |s.steps| - 1
    ensures a.NextStep? && s.currentStep + 1 < |s.steps| ==> r.currentStep == s.currentStep + 1
    ensures a.NextStep? && s.currentStep == |s.steps| - 1 ==> r == s
    ensures a.PreviousStep? ==> r == s.(currentStep := r.currentStep) && r.currentStep >= 0
    ensures a.NextStep? && s.currentStep >= |s.steps| - 1 ==> r.currentStep == |s.steps| - 1
    ensures a.PreviousStep? && s.currentStep >= 1 ==> r.currentStep == s.currentStep - 1
    ensures a.PreviousStep? && s.currentStep <= 0 ==> r.currentStep == 0
    ensures match a
              case SetSessionId(id) => r == s.(sessionId := Some(id))
              case SetSystemDescription(d) => r == s.(systemDescription := d)
              case SetCurrentStep(t) => r == s.(currentStep := t)
              case SetProcessing(p) => r == s.(isProcessing := p)
              case SetConnected(c) => r == s.(isConnected := c)
              case _ => true
    ensures a.SetOutput? ==> r == s.(outputs := r.outputs)
    ensures a.SetOutput? ==> a.step in r.outputs && r.outputs[a.step] == a.output
    ensures a.SetOutput? ==> forall k :: k != a.step ==> (k in r.outputs <==> k in s.outputs)
    ensures a.SetOutput? ==> forall k :: k != a.step && k in s.outputs ==> r.outputs[k] == s.outputs[k]
    ensures a.SetError? ==> r == s.(error := a.error, isProcessing := false)
    ensures a.AddToHistory? ==> r == s.(history := r.history)
    ensures a.AddToHistory? ==> |r.history| == |s.history| + 1 && r.history[..|s.history|] == s.history
    ensures a.AddToHistory? ==> r.history[|s.history|] == a.entry
    ensures a.Reset? ==> r == Initial.(isConnected := s.isConnected)
    ensures a.Unknown? ==> r == s
  {
    match a
    case SetSessionId(id) => s.(sessionId := Some(id))
    case SetSystemDescription(d) => s.(systemDescription := d)
    case SetCurrentStep(t) => s.(currentStep := t)
    case SetOutput(step, output) => s.(outputs := s.outputs[step := output])
    case SetProcessing(p) => s.(isProcessing := p)
    case SetConnected(c) => s.(isConnected := c)
    case SetError(e) => s.(error := e, isProcessing := false)
    case AddToHistory(entry) => s.(history := s.history + [entry])
    case NextStep => s.(currentStep := Min(s.currentStep + 1, |s.steps| - 1))
    case PreviousStep => s.(currentStep := Max(s.currentStep - 1, 0))
    case Reset => Initial.(isConnected := s.isConnected)
    case Unknown(_) => s
  }

  function ReduceAll(s: State, actions: seq<Action>): State
    decreases |actions|
  {
    if |actions| == 0 then s else ReduceAll(Reduce(s, actions[0]), actions[1..])
  }

  /** Whether the page shows the completion banner: only once no step is current. */
  predicate IsComplete(s: State)
    ensures IsComplete(s) ==> !(0 <= s.currentStep < |s.steps|)
  {
    s.currentStep == |s.steps|
  }

  // ---------------------------------------------------------------------
  // Socket listeners.

  datatype ClientEvent = Connect | Disconnect | FromServer(event: SC.Event)

  /** The actions each listener dispatches, in order; an event without a listener dispatches none. */
  function OnEvent(e: ClientEvent): (actions: seq<Action>)
    ensures e.FromServer? && e.event.StepStarted? ==> |actions| == 2 && actions[0] == SetProcessing(true)
    ensures e.FromServer? && e.event.StepCompleted? ==> SetProcessing(false) in actions
    ensures e.FromServer? && e.event.ErrorEvent? ==> actions == []
    ensures forall i :: 0 <= i < |actions| ==> !actions[i].NextStep? && !actions[i].PreviousStep? && !actions[i].Reset?
    ensures forall i :: 0 <= i < |actions| && actions[i].SetCurrentStep? ==> e.FromServer? && e.event.StepNavigate?
  {
    match e
    case Connect => [SetConnected(true)]
    case Disconnect => [SetConnected(false)]
    case FromServer(ev) =>
      match ev
      case SessionCreated(id) => [SetSessionId(id)]
      case StepStarted(step) => [SetProcessing(true), AddToHistory(StartedEntry(step))]
      case StepNavigate(target) => [SetCurrentStep(target)]
      case StepCleared(step) => [SetOutput(step, None)]
      case StepCompleted(step, output) =>
        [SetOutput(step, Some(output)), SetProcessing(false), AddToHistory(CompletedEntry(step))]
      case StepError(ref, error) => [SetError(Some(error)), AddToHistory(ErrorEntry(ref, error))]
      case WizardCompleted(_) => [AddToHistory(FinishedEntry)]
      case ErrorEvent(_) => []
  }

  /** ReduceAll on the short action lists the listeners dispatch. */
  lemma ReduceAllOne(s: State, a0: Action)
    ensures ReduceAll(s, []) == s
    ensures ReduceAll(s, [a0]) == Reduce(s, a0)
  {
    assert [a0][1..] == [];
  }

  lemma ReduceAllTwo(s: State, a0: Action, a1: Action)
    ensures ReduceAll(s, [a0, a1]) == Reduce(Reduce(s, a0), a1)
  {
    assert [a0, a1][1..] == [a1];
    ReduceAllOne(Reduce(s, a0), a1);
  }

  lemma ReduceAllThree(s: State, a0: Action, a1: Action, a2: Action)
    ensures ReduceAll(s, [a0, a1, a2]) == Reduce(Reduce(Reduce(s, a0), a1), a2)
  {
    assert [a0, a1, a2][1..] == [a1, a2];
    ReduceAllTwo(Reduce(s, a0), a1, a2);
  }

  /**
   * A listener's effect: its actions, in order. Only step:navigate moves the
   * client's step, and no event changes the step list.
   */
  function Receive(s: State, e: ClientEvent): (r: State)
    ensures r.steps == s.steps
    ensures e.FromServer? && e.event.StepNavigate? ==> r.currentStep == e.event.targetStep
    ensures !(e.FromServer? && e.event.StepNavigate?) ==> r.currentStep == s.currentStep
  {
    if e.FromServer? && e.event.StepNavigate? then
      ReduceAllOne(s, SetCurrentStep(e.event.targetStep));
      ReduceAll(s, OnEvent(e))
    else
      ReduceAllKeepsStep(s, OnEvent(e));
      ReduceAll(s, OnEvent(e))
  }

  /** Actions that neither move nor reset the step keep the step and the step list. */
  lemma {:induction false} ReduceAllKeepsStep(s: State, actions: seq<Action>)
    requires forall i :: 0 <= i < |actions| ==>
               !actions[i].NextStep? && !actions[i].PreviousStep? && !actions[i].Reset? && !actions[i].SetCurrentStep?
    ensures ReduceAll(s, actions).currentStep == s.currentStep && ReduceAll(s, actions).steps == s.steps
    decreases |actions|
  {
    if |actions| > 0 {
      ReduceAllKeepsStep(Reduce(s, actions[0]), actions[1..]);
    }
  }

  function ReceiveAll(s: State, events: seq<SC.Event>): State
    decreases |events|
  {
    if |events| == 0 then s else ReceiveAll(Receive(s, FromServer(events[0])), events[1..])
  }

  /** After step:started the client is processing; after step:completed or step:error it is not. */
  lemma ProcessingFollowsServer(s: State, e: SC.Event)
    ensures e.StepStarted? ==> Receive(s, FromServer(e)).isProcessing
    ensures e.StepCompleted? || e.StepError? ==> !Receive(s, FromServer(e)).isProcessing
  {
    match e
    case StepStarted(step) =>
      ReduceAllTwo(s, SetProcessing(true), AddToHistory(StartedEntry(step)));
    case StepCompleted(step, output) =>
      ReduceAllThree(s, SetOutput(step, Some(output)), SetProcessing(false), AddToHistory(CompletedEntry(step)));
    case StepError(ref, error) =>
      ReduceAllTwo(s, SetError(Some(error)), AddToHistory(ErrorEntry(ref, error)));
    case _ =>
  }

  // ---------------------------------------------------------------------
  // Guarded client actions. `hasSocket` is whether the socket object exists.

  datatype Message =
    | WizardStart(systemDescription: string)
    | StepExecute(stepIndex: int, feedback: Option<string>)
    | StepAccept(acceptIndex: int)
    | StepRevise(reviseIndex: int, revision: string)

  datatype Effect = Effect(emitted: seq<Message>, dispatched: seq<Action>)

  const Nothing := Effect([], [])

  /** `startWizard`: only with a socket and while not processing. */
  function StartWizard(s: State, hasSocket: bool, systemDescription: string): (r: Effect)
    ensures s.isProcessing || !hasSocket ==> r == Nothing
    ensures !s.isProcessing && hasSocket ==>
              r.emitted == [WizardStart(systemDescription)] && ReduceAll(s, r.dispatched).isProcessing
  {
    if hasSocket && !s.isProcessing then
      Effect([WizardStart(systemDescription)], [SetProcessing(true)])
    else Nothing
  }

  /** `executeStep`: only with a socket and while not processing. */
  function ExecuteStep(s: State, hasSocket: bool, k: int, feedback: Option<string>): (r: Effect)
    ensures s.isProcessing || !hasSocket ==> r == Nothing
    ensures !s.isProcessing && hasSocket ==>
              r.emitted == [StepExecute(k, feedback)] && ReduceAll(s, r.dispatched).isProcessing
  {
    if hasSocket && !s.isProcessing then
      Effect([StepExecute(k, feedback)], [SetProcessing(true)])
    else Nothing
  }

  /** `acceptStep`: emit step:accept and advance the local step, as written. */
  function AcceptStep(hasSocket: bool, k: int): (r: Effect)
    ensures !hasSocket ==> r == Nothing
    ensures hasSocket ==> r.emitted == [StepAccept(k)] && r.dispatched == [NextStep]
  {
    if hasSocket then Effect([StepAccept(k)], [NextStep]) else Nothing
  }

  /** `requestRevision`: emit step:revise; the local state is untouched. */
  function RequestRevision(hasSocket: bool, k: int, feedback: string): (r: Effect)
    ensures r.dispatched == []
    ensures hasSocket <==> r.emitted == [StepRevise(k, feedback)]
    ensures !hasSocket ==> r.emitted == []
  {
    if hasSocket then Effect([StepRevise(k, feedback)], []) else Nothing
  }

  /** Starting twice in a row sends wizard:start once: the first start blocks the second. */
  lemma StartWizardOnce(s: State, hasSocket: bool, d1: string, d2: string)
    ensures var first := StartWizard(s, hasSocket, d1);
            StartWizard(ReduceAll(s, first.dispatched), hasSocket, d2) == Nothing
  {
  }

  /** Two outputs saved under different step ids do not interfere. */
  lemma SetOutputsCommute(s: State, k1: string, v1: Option<string>, k2: string, v2: Option<string>)
    requires k1 != k2
    ensures Reduce(Reduce(s, SetOutput(k1, v1)), SetOutput(k2, v2))
         == Reduce(Reduce(s, SetOutput(k2, v2)), SetOutput(k1, v1))
  {
    var a := Reduce(Reduce(s, SetOutput(k1, v1)), SetOutput(k2, v2));
    var b := Reduce(Reduce(s, SetOutput(k2, v2)), SetOutput(k1, v1));
    assert a.outputs == b.outputs;
  }

  /** PREVIOUS_STEP undoes NEXT_STEP except at the last step, where NEXT_STEP is clamped. */
  lemma PreviousUndoesNext(s: State)
    requires 0 <= s.currentStep < |s.steps| - 1
    ensures Reduce(Reduce(s, NextStep), PreviousStep) == s
  {
  }

  /** RESET is idempotent and forgets everything but the connection flag. */
  lemma ResetIdempotent(s: State)
    ensures Reduce(Reduce(s, Reset), Reset) == Reduce(s, Reset)
    ensures Reduce(s, Reset).isConnected == s.isConnected
    ensures Reduce(s, Reset).history == [] && Reduce(s, Reset).outputs == map[]
  {
  }

  /** The frontend and backend registries list the same step ids in the same order. */
  lemma StepIdsAgree()
    ensures |Steps| == |WS.Steps|
    ensures forall i :: 0 <= i < |Steps| ==> Steps[i].id == WS.Steps[i].id
  {
  }

  // ---------------------------------------------------------------------
  // Finding: the step counter cannot reach the completion value.

  /** What the client sees and does: a server event, or the user accepting step k. */
  datatype Input = Hear(event: ClientEvent) | UserAccepts(k: int)

  function Advance(s: State, input: Input, hasSocket: bool): State {
    match input
    case Hear(e) => Receive(s, e)
    case UserAccepts(k) => ReduceAll(s, AcceptStep(hasSocket, k).dispatched)
  }

  function Drive(s: State, inputs: seq<Input>, hasSocket: bool): State
    decreases |inputs|
  {
    if |inputs| == 0 then s else Drive(Advance(s, inputs[0], hasSocket), inputs[1..], hasSocket)
  }

  /** The server only ever navigates to step 0; any in-range target is allowed here. */
  predicate NavigatesInRange(inputs: seq<Input>, n: int) {
    forall i :: 0 <= i < |inputs| && IsNavigate(inputs[i]) ==> 0 <= inputs[i].event.event.targetStep < n
  }

  predicate IsNavigate(input: Input) {
    input.Hear? && input.event.FromServer? && input.event.event.StepNavigate?
  }

  predicate InRange(s: State) {
    0 <= s.currentStep < |s.steps|
  }

  lemma ReduceAllKeepsRange(s: State, actions: seq<Action>)
    requires InRange(s)
    requires forall i :: 0 <= i < |actions| ==> !actions[i].Reset? && !(actions[i].SetCurrentStep?)
    ensures InRange(ReduceAll(s, actions))
    decreases |actions|
  {
    if |actions| > 0 {
      ReduceAllKeepsRange(Reduce(s, actions[0]), actions[1..]);
    }
  }

  lemma AdvanceKeepsRange(s: State, input: Input, hasSocket: bool)
    requires InRange(s)
    requires IsNavigate(input) ==> 0 <= input.event.event.targetStep < |s.steps|
    ensures InRange(Advance(s, input, hasSocket))
    ensures Advance(s, input, hasSocket).steps == s.steps
  {
    match input
    case UserAccepts(k) =>
      ReduceAllOne(s, NextStep);
    case Hear(e) =>
      if IsNavigate(input) {
        ReduceAllOne(s, SetCurrentStep(e.event.targetStep));
      } else {
        ReduceAllKeepsRange(s, OnEvent(e));
      }
      StepsKept(s, OnEvent(e));
  }

  lemma {:induction false} DriveKeepsRange(s: State, inputs: seq<Input>, hasSocket: bool)
    requires InRange(s)
    requires NavigatesInRange(inputs, |s.steps|)
    ensures InRange(Drive(s, inputs, hasSocket))
    ensures Drive(s, inputs, hasSocket).steps == s.steps
    decreases |inputs|
  {
    if |inputs| > 0 {
      var next := Advance(s, inputs[0], hasSocket);
      AdvanceKeepsRange(s, inputs[0], hasSocket);
      assert NavigatesInRange(inputs[1..], |next.steps|) by {
        forall i | 0 <= i < |inputs| - 1 && IsNavigate(inputs[1..][i])
          ensures 0 <= inputs[1..][i].event.event.targetStep < |next.steps|
        {
          assert inputs[1..][i] == inputs[i + 1];
        }
      }
      DriveKeepsRange(next, inputs[1..], hasSocket);
    }
  }

  lemma StepsKept(s: State, actions: seq<Action>)
    requires forall i :: 0 <= i < |actions| ==> !actions[i].Reset?
    ensures ReduceAll(s, actions).steps == s.steps
    decreases |actions|
  {
    if |actions| > 0 {
      StepsKept(Reduce(s, actions[0]), actions[1..]);
    }
  }

  /**
   * As written: starting from the initial state, no sequence of server
   * events and user accepts ever makes the completion banner appear,
   * because NEXT_STEP clamps at the last index.
   */
  lemma NeverComplete(inputs: seq<Input>, hasSocket: bool)
    requires NavigatesInRange(inputs, |Steps|)
    ensures !IsComplete(Drive(Initial, inputs, hasSocket))
  {
    DriveKeepsRange(Initial, inputs, hasSocket);
  }

  /** Accepting all seven steps in order leaves the counter on the last step. */
  lemma AcceptAllStopsAtLast()
    ensures var accepts := [UserAccepts(0), UserAccepts(1), UserAccepts(2), UserAccepts(3),
                            UserAccepts(4), UserAccepts(5), UserAccepts(6)];
            var r := Drive(Initial, accepts, true);
            r.currentStep == |Steps| - 1 && !IsComplete(r)
  {
  }

  /** Corrected NEXT_STEP: clamp at `steps.length`, the value the completion check expects. */
  function ReduceCorrected(s: State, a: Action): (r: State)
    ensures a.NextStep? && 0 <= s.currentStep < |s.steps| ==> r.currentStep == s.currentStep + 1
    ensures a.NextStep? ==> r.currentStep <= |s.steps| || r.currentStep == s.currentStep
    ensures !a.NextStep? ==> r == Reduce(s, a)
  {
    if a.NextStep? then
      s.(currentStep := if s.currentStep < |s.steps| then s.currentStep + 1 else s.currentStep)
    else Reduce(s, a)
  }

  function AcceptAllCorrected(s: State, n: nat): State
    decreases n
  {
    if n == 0 then s else AcceptAllCorrected(ReduceCorrected(s, NextStep), n - 1)
  }

  /** With the corrected reducer, accepting every step from the first reaches completion. */
  lemma {:induction false} CorrectedAcceptsComplete(s: State, n: nat)
    requires 0 <= s.currentStep && s.currentStep + n == |s.steps|
    ensures IsComplete(AcceptAllCorrected(s, n))
    decreases n
  {
    if n > 0 {
      CorrectedAcceptsComplete(ReduceCorrected(s, NextStep), n - 1);
    }
  }

  // ---------------------------------------------------------------------
  // Finding: step:cleared names a save key, but outputs are keyed by step id.

  /** What each event does to the outputs and the step counter. */
  lemma ReceiveEffect(s: State, e: SC.Event)
    ensures var r := Receive(s, FromServer(e));
            && (e.StepNavigate? ==> r.outputs == s.outputs && r.currentStep == e.targetStep)
            && (e.StepCleared? ==> r.outputs == s.outputs[e.clearedKey := None] && r.currentStep == s.currentStep)
            && (e.StepStarted? || e.StepError? ==> r.outputs == s.outputs && r.currentStep == s.currentStep)
            && (e.StepCompleted? ==> r.outputs == s.outputs[e.step := Some(e.output)] && r.currentStep == s.currentStep)
  {
    match e
    case StepNavigate(t) => ReduceAllOne(s, SetCurrentStep(t));
    case StepCleared(k) => ReduceAllOne(s, SetOutput(k, None));
    case StepStarted(step) => ReduceAllTwo(s, SetProcessing(true), AddToHistory(StartedEntry(step)));
    case StepError(ref, error) => ReduceAllTwo(s, SetError(Some(error)), AddToHistory(ErrorEntry(ref, error)));
    case StepCompleted(step, output) =>
      ReduceAllThree(s, SetOutput(step, Some(output)), SetProcessing(false), AddToHistory(CompletedEntry(step)));
    case _ =>
  }

  lemma ReceiveAllCons(s: State, e: SC.Event, rest: seq<SC.Event>)
    ensures ReceiveAll(s, [e] + rest) == ReceiveAll(Receive(s, FromServer(e)), rest)
  {
    assert ([e] + rest)[0] == e;
    assert ([e] + rest)[1..] == rest;
  }

  lemma ReceiveAllFour(s: State, e0: SC.Event, e1: SC.Event, e2: SC.Event, e3: SC.Event)
    ensures ReceiveAll(s, [e0, e1, e2, e3])
         == Receive(Receive(Receive(Receive(s, FromServer(e0)), FromServer(e1)), FromServer(e2)), FromServer(e3))
  {
    var s1 := Receive(s, FromServer(e0));
    var s2 := Receive(s1, FromServer(e1));
    var s3 := Receive(s2, FromServer(e2));
    var s4 := Receive(s3, FromServer(e3));
    assert [e0, e1, e2, e3] == [e0] + [e1, e2, e3];
    assert [e1, e2, e3] == [e1] + [e2, e3];
    assert [e2, e3] == [e2] + [e3];
    assert [e3] == [e3] + [];
    ReceiveAllCons(s, e0, [e1, e2, e3]);
    ReceiveAllCons(s1, e1, [e2, e3]);
    ReceiveAllCons(s2, e2, [e3]);
    ReceiveAllCons(s3, e3, []);
    assert ReceiveAll(s4, []) == s4;
  }

  /** Receiving a step-1 revision's events, with step:cleared naming `clearedKey`. */
  lemma ReceiveRevision(s: State, e0: SC.Event, e1: SC.Event, e2: SC.Event, e3: SC.Event, clearedKey: string, k: string)
    requires e0 == SC.StepNavigate(0) && e1 == SC.StepCleared(clearedKey) && e2 == SC.StepStarted(Steps[0].id)
    requires SC.FinishesStep(e3, Steps[0].id)
    requires k != Steps[0].id
    ensures var r := ReceiveAll(s, [e0, e1, e2, e3]);
            (k == clearedKey ==> k in r.outputs && r.outputs[k] == None)
            && (k != clearedKey ==> (k in r.outputs <==> k in s.outputs) && (k in s.outputs ==> r.outputs[k] == s.outputs[k]))
            && r.currentStep == 0
  {
    var s1 := Receive(s, FromServer(e0));
    var s2 := Receive(s1, FromServer(e1));
    var s3 := Receive(s2, FromServer(e2));
    ReceiveAllFour(s, e0, e1, e2, e3);
    ReceiveEffect(s, e0);
    ReceiveEffect(s1, e1);
    ReceiveEffect(s2, e2);
    ReceiveEffect(s3, e3);
  }

  /** The review step's id on both sides, and the save key the server clears instead. */
  lemma ReviewStepIds()
    ensures Steps[1].id == WS.Steps[1].id == "requirementsReviewer"
    ensures Steps[0].id == "businessAnalyst"
    ensures Steps[1].id != SC.ReviewKey
  {
  }

  /** The same four events, read as the tail of the socket's event log from position `n`. */
  lemma ReceiveRevisionTail(s: State, events: seq<SC.Event>, n: nat, clearedKey: string, k: string)
    requires |events| == n + 4
    requires events[n] == SC.StepNavigate(0) && events[n + 1] == SC.StepCleared(clearedKey)
    requires events[n + 2] == SC.StepStarted(Steps[0].id) && SC.FinishesStep(events[n + 3], Steps[0].id)
    requires k != Steps[0].id
    ensures var r := ReceiveAll(s, events[n..]);
            (k == clearedKey ==> k in r.outputs && r.outputs[k] == None)
            && (k != clearedKey ==> (k in r.outputs <==> k in s.outputs) && (k in s.outputs ==> r.outputs[k] == s.outputs[k]))
            && r.currentStep == 0
  {
    assert events[n..] == [events[n], events[n + 1], events[n + 2], events[n + 3]];
    ReceiveRevision(s, events[n], events[n + 1], events[n + 2], events[n + 3], clearedKey, k);
  }

  /**
   * As written: after a revision of step 1 the client still holds the old
   * review under its step id, since step:cleared names 'requirementsReview'.
   */
  lemma StaleReviewAfterRevision(srv: SC.Server, feedback: string, run: SC.Runner, s: State)
    requires SessionManager.Valid(srv.store) && SC.BoundSession(srv).Some?
    ensures var events := SC.Revise(srv, 1, Some(feedback), run).server.events;
            var r := ReceiveAll(s, events[|srv.events|..]);
            (Steps[1].id in r.outputs <==> Steps[1].id in s.outputs)
            && (Steps[1].id in s.outputs ==> r.outputs[Steps[1].id] == s.outputs[Steps[1].id])
  {
    assert SC.Revise(srv, 1, Some(feedback), run) == SC.ReviseWith(srv, 1, Some(feedback), run, SC.ReviewKey);
    ReviseWithReceived(srv, feedback, run, SC.ReviewKey, s);
    ReviewStepIds();
  }

  /** What the client shows after the events of a reviewer revision that clears `clearedKey`. */
  predicate ShowsRevision(s: State, tail: seq<SC.Event>, clearedKey: string) {
    var r := ReceiveAll(s, tail);
    && r.currentStep == 0
    && (Steps[1].id != clearedKey ==>
          (Steps[1].id in r.outputs <==> Steps[1].id in s.outputs)
          && (Steps[1].id in s.outputs ==> r.outputs[Steps[1].id] == s.outputs[Steps[1].id]))
    && (Steps[1].id == clearedKey ==> Steps[1].id in r.outputs && r.outputs[Steps[1].id] == None)
  }

  /** What the client makes of a reviewer revision that clears the given key. */
  lemma ReviseWithReceived(srv: SC.Server, feedback: string, run: SC.Runner, clearedKey: string, s: State)
    requires SessionManager.Valid(srv.store) && SC.BoundSession(srv).Some?
    ensures var events := SC.ReviseWith(srv, 1, Some(feedback), run, clearedKey).server.events;
            ShowsRevision(s, events[|srv.events|..], clearedKey)
  {
    var events := SC.ReviseWith(srv, 1, Some(feedback), run, clearedKey).server.events;
    ReviewRevisionEvents(srv, feedback, run, clearedKey);
    ReceiveReviewRevision(s, events, |srv.events|, clearedKey);
  }

  /**
   * Corrected: naming step 1's id in step:cleared clears the review the
   * client shows.
   */
  lemma ClearedReviewAfterCorrectedRevision(srv: SC.Server, feedback: string, run: SC.Runner, s: State)
    requires SessionManager.Valid(srv.store) && SC.BoundSession(srv).Some?
    ensures var events := SC.ReviseCorrected(srv, 1, Some(feedback), run).server.events;
            var r := ReceiveAll(s, events[|srv.events|..]);
            Steps[1].id in r.outputs && r.outputs[Steps[1].id] == None && r.currentStep == 0
  {
    assert SC.ReviseCorrected(srv, 1, Some(feedback), run) == SC.ReviseWith(srv, 1, Some(feedback), run, WS.Steps[1].id);
    ReviseWithReceived(srv, feedback, run, WS.Steps[1].id, s);
    ReviewStepIds();
  }

  /** The four events of a reviewer revision, with the analyst's id on the client's side. */
  lemma ReviewRevisionEvents(srv: SC.Server, feedback: string, run: SC.Runner, clearedKey: string)
    requires SessionManager.Valid(srv.store) && SC.BoundSession(srv).Some?
    ensures var events := SC.ReviseWith(srv, 1, Some(feedback), run, clearedKey).server.events;
            && |events| == |srv.events| + 4
            && events[|srv.events|] == SC.StepNavigate(0) && events[|srv.events| + 1] == SC.StepCleared(clearedKey)
            && events[|srv.events| + 2] == SC.StepStarted(Steps[0].id) && SC.FinishesStep(events[|srv.events| + 3], Steps[0].id)
  {
    SC.ReviseStepOneEvents(srv, feedback, run, clearedKey);
    ReviewStepIds();
  }

  /** The client's view of the review output after the four events of a reviewer revision. */
  lemma ReceiveReviewRevision(s: State, events: seq<SC.Event>, n: nat, clearedKey: string)
    requires |events| == n + 4
    requires events[n] == SC.StepNavigate(0) && events[n + 1] == SC.StepCleared(clearedKey)
    requires events[n + 2] == SC.StepStarted(Steps[0].id) && SC.FinishesStep(events[n + 3], Steps[0].id)
    ensures ShowsRevision(s, events[n..], clearedKey)
  {
    ReviewStepIds();
    ReceiveRevisionTail(s, events, n, clearedKey, Steps[1].id);
  }
}

=== FILE: wizard_service.dfy ===
/**
 * The backend step registry: seven steps in fixed order, the assembly of
 * each step's input from the session, and one agent call per execution.
 * The model call is an oracle from (system prompt, user prompt) to a reply.
 */
module WizardService {
  import opened Wrappers
  import opened JsText
  import Prompts
  import opened SessionManager

  datatype Step = Step(id: string, name: string, agent: Prompts.Agent, saveKey: string)

  const Steps: seq<Step> := [
    Step("businessAnalyst", "Requirements & User Stories", Prompts.BusinessAnalyst, "requirements"),
    Step("requirementsReviewer", "Requirements Review", Prompts.RequirementsReviewer, "requirementsReview"),
    Step("technicalArchitect", "Technical Architecture & Stack", Prompts.TechnicalArchitect, "architecture"),
    Step("technicalDesigner", "Technical Design & API Specification", Prompts.TechnicalDesigner, "technicalDesign"),
    Step("testingStrategist", "Testing Strategy", Prompts.TestingStrategist, "testingStrategy"),
    Step("taskPlanner", "Task Planner & Implementation Plan", Prompts.TaskPlanner, "taskPlanner"),
    Step("sdlcTaskAllocator", "SDLC Task Allocation", Prompts.SdlcTaskAllocator, "sdlcTaskAllocation")
  ]

  predicate IsStepIndex(k: int) {
    0 <= k < |Steps|
  }

  /** The registry has seven steps with pairwise distinct ids and save keys. */
  lemma RegistryShape()
    ensures |Steps| == 7
    ensures forall i, j :: 0 <= i < j < |Steps| ==> Steps[i].saveKey != Steps[j].saveKey
    ensures forall i, j :: 0 <= i < j < |Steps| ==> Steps[i].id != Steps[j].id
  {
  }

  /** The model call: (system prompt, user prompt) to the reply text or a thrown error. */
  type Oracle = (string, string) -> Result<string>

  /** What a step receives: text for six steps, a record for the allocator. */
  datatype StepInput = Text(text: string) | Record(inputs: Prompts.AllocatorInputs)

  /** `session.outputs[key] || ''`: a missing or null output reads as ''. */
  function Stored(session: Session, key: string): (r: string)
    ensures (key in session.outputs && session.outputs[key].Some?) ==> r == session.outputs[key].value
    ensures !(key in session.outputs && session.outputs[key].Some?) ==> r == ""
  {
    if key in session.outputs then OrEmpty(session.outputs[key]) else ""
  }

  /** The banners of the accumulated-context inputs, one per earlier step. */
  const ContextBanners: seq<string> := [
    "REQUIREMENTS & USER STORIES",
    "REQUIREMENTS REVIEW",
    "TECHNICAL ARCHITECTURE & STACK",
    "TECHNICAL DESIGN & API SPECIFICATION",
    "TESTING STRATEGY"
  ]

  /** The banner and output of step `i`, separated from the previous piece by a blank line. */
  function ContextPiece(session: Session, i: nat): string
    requires i < |ContextBanners|
  {
    (if i == 0 then "" else "\n\n") + "=== " + ContextBanners[i] + " ===\n\n" + Stored(session, Steps[i].saveKey)
  }

  function ContextPieces(session: Session, n: nat): (ps: seq<string>)
    requires n <= |ContextBanners|
    ensures |ps| == n
    ensures forall i :: 0 <= i < n ==> ps[i] == ContextPiece(session, i)
  {
    seq(n, i requires 0 <= i < n => ContextPiece(session, i))
  }

  /** The outputs of steps 0..n-1 under their banners. */
  function Context(session: Session, n: nat): string
    requires n <= |ContextBanners|
  {
    Concat(ContextPieces(session, n))
  }

  /**
   * `getStepInput(stepIndex, session)`. Only the allocator receives a record;
   * the first two steps read the description and the first step's output.
   */
  function GetStepInput(k: int, session: Session): (r: StepInput)
    requires IsStepIndex(k)
    ensures r.Record? <==> Steps[k].agent == Prompts.SdlcTaskAllocator
    ensures k == 0 ==> r == Text(session.systemDescription)
    ensures k == 1 ==> r == Text(Stored(session, Steps[0].saveKey))
  {
    match Steps[k].agent
    case BusinessAnalyst => Text(session.systemDescription)
    case RequirementsReviewer => Text(Stored(session, "requirements"))
    case TechnicalArchitect => Text(Stored(session, "requirements") + "\n\n" + Stored(session, "requirementsReview"))
    case TechnicalDesigner => Text(Context(session, 3))
    case TestingStrategist => Text(Context(session, 4))
    case TaskPlanner => Text(Context(session, 5))
    case SdlcTaskAllocator => Record(Prompts.AllocatorInputs(
      session.systemDescription,
      Stored(session, "requirements"),
      Stored(session, "requirementsReview"),
      Stored(session, "architecture"),
      Stored(session, "technicalDesign"),
      Stored(session, "testingStrategy"),
      Stored(session, "taskPlanner")))
  }

  /**
   * `step.prompt.getUserPrompt(input, feedback)` for step `k`. A text input
   * closes the prompt, except in the analyst's revision prompt; the
   * allocator's prompt is its unrevised prompt whatever the feedback.
   */
  function UserPrompt(k: int, session: Session, feedback: Option<string>): (r: string)
    requires IsStepIndex(k)
    ensures var input := GetStepInput(k, session);
            input.Text? && (k > 0 || !Truthy(feedback)) ==> EndsWith(r, input.text)
    ensures Steps[k].agent == Prompts.SdlcTaskAllocator ==> r == Prompts.AllocatorPrompt(GetStepInput(k, session).inputs)
  {
    var input := GetStepInput(k, session);
    match Steps[k].agent
    case BusinessAnalyst => Prompts.BusinessAnalystPrompt(input.text, feedback)
    case RequirementsReviewer => Prompts.RequirementsReviewerPrompt(input.text, feedback)
    case TechnicalArchitect => Prompts.TechnicalArchitectPrompt(input.text, feedback)
    case TechnicalDesigner => Prompts.TechnicalDesignerPrompt(input.text, feedback)
    case TestingStrategist => Prompts.TestingStrategistPrompt(input.text, feedback)
    case TaskPlanner => Prompts.TaskPlannerPrompt(input.text, feedback)
    case SdlcTaskAllocator => Prompts.AllocatorPromptCalledWith(input.inputs, feedback)
  }

  const FailurePrefix := "Failed to execute "

  /**
   * `executeStep(stepIndex, session, feedback)`: one model call with the
   * step's system prompt and user prompt; a failure is re-raised with the
   * step's name in front of the model's message.
   */
  function ExecuteStep(k: int, session: Session, feedback: Option<string>, oracle: Oracle): (r: Result<string>)
    requires IsStepIndex(k)
    ensures var reply := oracle(Prompts.SystemPrompt(Steps[k].agent), UserPrompt(k, session, feedback));
            && (r.Ok? <==> reply.Ok?)
            && (reply.Ok? ==> r.value == reply.value)
            && (reply.Err? ==> r.message == FailurePrefix + Steps[k].name + ": " + reply.message)
  {
    match oracle(Prompts.SystemPrompt(Steps[k].agent), UserPrompt(k, session, feedback))
    case Ok(output) => Ok(output)
    case Err(m) => Err(FailurePrefix + Steps[k].name + ": " + m)
  }

  // ---------------------------------------------------------------------
  // Properties of input assembly.

  /** The businessAnalyst input is exactly the description; the reviewer's is the requirements. */
  lemma FirstInputs(session: Session)
    ensures GetStepInput(0, session) == Text(session.systemDescription)
    ensures GetStepInput(1, session) == Text(Stored(session, Steps[0].saveKey))
    ensures GetStepInput(2, session) == Text(Stored(session, Steps[0].saveKey) + "\n\n" + Stored(session, Steps[1].saveKey))
  {
  }

  /**
   * A missing output, a null one and an empty one are read alike: every
   * step's input is the same in the three cases.
   */
  lemma FalsyOutputsReadAlike(k: int, session: Session, key: string)
    requires IsStepIndex(k)
    ensures var absent := session.(outputs := session.outputs - {key});
            && GetStepInput(k, session.(outputs := session.outputs[key := None])) == GetStepInput(k, absent)
            && GetStepInput(k, session.(outputs := session.outputs[key := Some("")])) == GetStepInput(k, absent)
  {
    var absent := session.(outputs := session.outputs - {key});
    var cleared := session.(outputs := session.outputs[key := None]);
    var empty := session.(outputs := session.outputs[key := Some("")]);
    forall j | 0 <= j < k
      ensures Stored(cleared, Steps[j].saveKey) == Stored(absent, Steps[j].saveKey)
      ensures Stored(empty, Steps[j].saveKey) == Stored(absent, Steps[j].saveKey)
    {
      if Steps[j].saveKey != key {
        StoredAgrees(cleared, absent, Steps[j].saveKey);
        StoredAgrees(empty, absent, Steps[j].saveKey);
      }
    }
    InputReadsStoredBefore(k, cleared, absent);
    InputReadsStoredBefore(k, empty, absent);
  }

  /** The allocator receives a record of the description and the six prior outputs. */
  lemma AllocatorInputIsRecord(session: Session)
    ensures GetStepInput(6, session).Record?
    ensures GetStepInput(6, session).inputs.systemDescription == session.systemDescription
    ensures forall j :: 0 <= j < 6 ==>
              Prompts.AllocatorFields(GetStepInput(6, session).inputs)[j + 1] == Stored(session, Steps[j].saveKey)
  {
  }

  /** Joining distributes over concatenation of the part lists. */
  lemma {:induction false} ConcatAppend(a: seq<string>, b: seq<string>)
    ensures Concat(a + b) == Concat(a) + Concat(b)
  {
    if |a| > 0 {
      ConcatAppend(a[1..], b);
      assert (a + b)[1..] == a[1..] + b;
    } else {
      assert a + b == b;
    }
  }

  /** The context of fewer steps is a prefix of the context of more steps. */
  lemma ContextPrefix(session: Session, n: nat, m: nat)
    requires n <= m <= |ContextBanners|
    ensures StartsWith(Context(session, m), Context(session, n))
  {
    var pm := ContextPieces(session, m);
    assert pm == ContextPieces(session, n) + pm[n..];
    ConcatAppend(ContextPieces(session, n), pm[n..]);
    ConcatStartsWith(Context(session, n), Concat(pm[n..]));
  }

  /** technicalDesigner's input is a prefix of testingStrategist's, which is a prefix of taskPlanner's. */
  lemma ContextInputsChain(session: Session)
    ensures StartsWith(GetStepInput(4, session).text, GetStepInput(3, session).text)
    ensures StartsWith(GetStepInput(5, session).text, GetStepInput(4, session).text)
  {
    ContextPrefix(session, 3, 4);
    ContextPrefix(session, 4, 5);
  }

  /** Two sessions agree on the outputs of steps 0..k-1. */
  predicate AgreeBefore(s1: Session, s2: Session, k: int)
    requires k <= |Steps|
  {
    forall j :: 0 <= j < k ==> Lookup(s1.outputs, Steps[j].saveKey) == Lookup(s2.outputs, Steps[j].saveKey)
  }

  lemma StoredAgrees(s1: Session, s2: Session, key: string)
    requires Lookup(s1.outputs, key) == Lookup(s2.outputs, key)
    ensures Stored(s1, key) == Stored(s2, key)
  {
  }

  /**
   * Step k's input depends only on the description and on the outputs of the
   * steps before k: no step reads its own output or a later one.
   */
  lemma InputReadsOnlyEarlierOutputs(k: int, s1: Session, s2: Session)
    requires IsStepIndex(k)
    requires s1.systemDescription == s2.systemDescription
    requires AgreeBefore(s1, s2, k)
    ensures GetStepInput(k, s1) == GetStepInput(k, s2)
  {
    forall j | 0 <= j < k ensures Stored(s1, Steps[j].saveKey) == Stored(s2, Steps[j].saveKey) {
      StoredAgrees(s1, s2, Steps[j].saveKey);
    }
    InputReadsStoredBefore(k, s1, s2);
  }

  /** Step k's input is determined by the description and the `|| ''` reads of earlier outputs. */
  lemma InputReadsStoredBefore(k: int, s1: Session, s2: Session)
    requires IsStepIndex(k)
    requires s1.systemDescription == s2.systemDescription
    requires forall j :: 0 <= j < k ==> Stored(s1, Steps[j].saveKey) == Stored(s2, Steps[j].saveKey)
    ensures GetStepInput(k, s1) == GetStepInput(k, s2)
  {
    if 3 <= k <= 5 {
      assert ContextPieces(s1, k) == ContextPieces(s2, k) by {
        forall i | 0 <= i < k ensures ContextPiece(s1, i) == ContextPiece(s2, i) {
          assert Stored(s1, Steps[i].saveKey) == Stored(s2, Steps[i].saveKey);
        }
      }
    } else if k == 6 {
      assert Stored(s1, "requirements") == Stored(s2, "requirements") by { assert Steps[0].saveKey == "requirements"; }
      assert Stored(s1, "requirementsReview") == Stored(s2, "requirementsReview") by { assert Steps[1].saveKey == "requirementsReview"; }
      assert Stored(s1, "architecture") == Stored(s2, "architecture") by { assert Steps[2].saveKey == "architecture"; }
      assert Stored(s1, "technicalDesign") == Stored(s2, "technicalDesign") by { assert Steps[3].saveKey == "technicalDesign"; }
      assert Stored(s1, "testingStrategy") == Stored(s2, "testingStrategy") by { assert Steps[4].saveKey == "testingStrategy"; }
      assert Stored(s1, "taskPlanner") == Stored(s2, "taskPlanner") by { assert Steps[5].saveKey == "taskPlanner"; }
    } else if k == 2 {
      assert Stored(s1, "requirementsReview") == Stored(s2, "requirementsReview") by { assert Steps[1].saveKey == "requirementsReview"; }
      assert Stored(s1, "requirements") == Stored(s2, "requirements") by { assert Steps[0].saveKey == "requirements"; }
    } else if k == 1 {
      assert Stored(s1, "requirements") == Stored(s2, "requirements") by { assert Steps[0].saveKey == "requirements"; }
    }
  }

  /**
   * Hence an execution, too, sees only the description and earlier outputs:
   * the agent is sent the same prompts, and the modelled agent, a function of
   * its prompts, gives the same result.
   */
  lemma ExecutionReadsOnlyEarlierOutputs(k: int, s1: Session, s2: Session, feedback: Option<string>, oracle: Oracle)
    requires IsStepIndex(k)
    requires s1.systemDescription == s2.systemDescription
    requires AgreeBefore(s1, s2, k)
    ensures UserPrompt(k, s1, feedback) == UserPrompt(k, s2, feedback)
    ensures ExecuteStep(k, s1, feedback, oracle) == ExecuteStep(k, s2, feedback, oracle)
  {
    InputReadsOnlyEarlierOutputs(k, s1, s2);
    SameInputSameCall(k, s1, s2, feedback, oracle);
  }

  /** A step's prompt and execution depend on the session only through its input. */
  lemma SameInputSameCall(k: int, s1: Session, s2: Session, feedback: Option<string>, oracle: Oracle)
    requires IsStepIndex(k)
    requires GetStepInput(k, s1) == GetStepInput(k, s2)
    ensures UserPrompt(k, s1, feedback) == UserPrompt(k, s2, feedback)
    ensures ExecuteStep(k, s1, feedback, oracle) == ExecuteStep(k, s2, feedback, oracle)
  {
  }

  /**
   * The allocator is handed the revision feedback but never uses it: a
   * revision of the last step repeats the same model call.
   */
  lemma AllocatorExecutionIgnoresFeedback(session: Session, f1: Option<string>, f2: Option<string>, oracle: Oracle)
    ensures UserPrompt(6, session, f1) == UserPrompt(6, session, f2)
    ensures ExecuteStep(6, session, f1, oracle) == ExecuteStep(6, session, f2, oracle)
  {
    assert Steps[6].agent == Prompts.SdlcTaskAllocator;
    Prompts.AllocatorIgnoresFeedback(GetStepInput(6, session).inputs, f1, f2);
    SamePromptSameExecution(6, session, f1, f2, oracle);
  }

  /** A step's execution depends on the feedback only through the user prompt it builds. */
  lemma SamePromptSameExecution(k: int, session: Session, f1: Option<string>, f2: Option<string>, oracle: Oracle)
    requires IsStepIndex(k)
    requires UserPrompt(k, session, f1) == UserPrompt(k, session, f2)
    ensures ExecuteStep(k, session, f1, oracle) == ExecuteStep(k, session, f2, oracle)
  {
  }
}

=== FILE: wizard_state.dfy ===
/** The command-line wizard's state: the description, the outputs by save key and the step counter. */
module WizardState {
  import opened Wrappers

  datatype State = State(systemDescription: string, outputs: map<string, string>, currentStep: int)

  /** The state of a newly constructed wizard. */
  const Fresh := State("", map[], 0)

  function GetSystemDescription(s: State): string { s.systemDescription }
  function GetCurrentStep(s: State): int { s.currentStep }

  /** `getOutput(key)`: `None` stands for `undefined`, the value of a key never saved. */
  function GetOutput(s: State, key: string): (r: Option<string>)
    ensures r.Some? <==> key in s.outputs
    ensures r.Some? ==> r.value == s.outputs[key]
  {
    Lookup(s.outputs, key)
  }

  function GetAllOutputs(s: State): map<string, string> { s.outputs }

  function SetSystemDescription(s: State, description: string): (r: State)
    ensures GetSystemDescription(r) == description
    ensures GetCurrentStep(r) == GetCurrentStep(s) && GetAllOutputs(r) == GetAllOutputs(s)
  {
    s.(systemDescription := description)
  }

  /** `saveOutput(key, content)`: a later `getOutput(key)` returns `content`; other keys keep their values. */
  function SaveOutput(s: State, key: string, content: string): (r: State)
    ensures GetOutput(r, key) == Some(content)
    ensures forall other :: other != key ==> GetOutput(r, other) == GetOutput(s, other)
    ensures GetSystemDescription(r) == GetSystemDescription(s) && GetCurrentStep(r) == GetCurrentStep(s)
  {
    s.(outputs := s.outputs[key := content])
  }

  function SetCurrentStep(s: State, step: int): (r: State)
    ensures GetCurrentStep(r) == step
    ensures GetSystemDescription(r) == GetSystemDescription(s) && GetAllOutputs(r) == GetAllOutputs(s)
  {
    s.(currentStep := step)
  }

  /** A fresh state has an empty description, no outputs and step 0. */
  lemma FreshIsEmpty(key: string)
    ensures GetSystemDescription(Fresh) == "" && GetCurrentStep(Fresh) == 0
    ensures GetOutput(Fresh, key) == None
  {
  }

  /** Only the last value written is read back. */
  lemma LastWriteWins(s: State, key: string, v1: string, v2: string, step1: int, step2: int, d1: string, d2: string)
    ensures GetOutput(SaveOutput(SaveOutput(s, key, v1), key, v2), key) == Some(v2)
    ensures GetCurrentStep(SetCurrentStep(SetCurrentStep(s, step1), step2)) == step2
    ensures GetSystemDescription(SetSystemDescription(SetSystemDescription(s, d1), d2)) == d2
  {
  }
}

=== FILE: wizard_steps.dfy ===
/**
 * The command-line registry of five steps. Each step reads its input from
 * the state when it runs; an output that was never saved is `undefined`,
 * which a template literal or `+` turns into the text "undefined".
 */
module WizardSteps {
  import opened Wrappers
  import Prompts
  import JsText
  import WS = WizardState

  datatype CliStep = CliStep(id: string, name: string, agent: Prompts.Agent, saveKey: string)

  const Steps: seq<CliStep> := [
    CliStep("businessAnalyst", "Requirements & User Stories", Prompts.BusinessAnalyst, "requirements"),
    CliStep("requirementsReviewer", "Requirements Review", Prompts.RequirementsReviewer, "requirementsReview"),
    CliStep("technicalArchitect", "Technical Architecture & Stack", Prompts.TechnicalArchitect, "architecture"),
    CliStep("technicalDesigner", "Technical Design & API Specification", Prompts.TechnicalDesigner, "technicalDesign"),
    CliStep("testingStrategist", "Testing Strategy", Prompts.TestingStrategist, "testingStrategy")
  ]

  predicate IsStepIndex(k: int) {
    0 <= k < |Steps|
  }

  /** How JavaScript renders a possibly undefined string inside text. */
  function Interpolate(v: Option<string>): (r: string)
    ensures v.Some? ==> r == v.value
    ensures v.None? ==> r == "undefined"
  {
    match v
    case Some(s) => s
    case None => "undefined"
  }

  /** The value `getInput()` returns for step `k`, or `None` for `undefined`. */
  function GetInput(k: int, s: WS.State): (r: Option<string>)
    requires IsStepIndex(k)
    ensures r.None? ==> k != 0 && k != 2 && WS.GetOutput(s, Steps[k - 1].saveKey).None?
  {
    match k
    case 0 => Some(WS.GetSystemDescription(s))
    case 1 => WS.GetOutput(s, "requirements")
    case 2 => Some(Interpolate(WS.GetOutput(s, "requirements")) + "\n\n" + Interpolate(WS.GetOutput(s, "requirementsReview")))
    case 3 => WS.GetOutput(s, "architecture")
    case 4 => WS.GetOutput(s, "technicalDesign")
  }

  /** The user prompt of step `k`: the step's template around its interpolated input. */
  function UserPrompt(k: int, s: WS.State, feedback: Option<string>): (r: string)
    requires IsStepIndex(k)
    ensures k > 0 || !JsText.Truthy(feedback) ==> JsText.EndsWith(r, Interpolate(GetInput(k, s)))
  {
    var input := Interpolate(GetInput(k, s));
    match Steps[k].agent
    case BusinessAnalyst => Prompts.BusinessAnalystPrompt(input, feedback)
    case RequirementsReviewer => Prompts.RequirementsReviewerPrompt(input, feedback)
    case TechnicalArchitect => Prompts.TechnicalArchitectPrompt(input, feedback)
    case TechnicalDesigner => Prompts.TechnicalDesignerPrompt(input, feedback)
    case TestingStrategist => Prompts.TestingStrategistPrompt(input, feedback)
    // The command-line registry holds neither of these agents.
    case TaskPlanner | SdlcTaskAllocator => assert false; ""
  }

  /** Five steps in a fixed order, with pairwise distinct save keys. */
  lemma RegistryShape()
    ensures |Steps| == 5
    ensures Steps[0].id == "businessAnalyst" && Steps[1].id == "requirementsReviewer"
    ensures Steps[2].id == "technicalArchitect" && Steps[3].id == "technicalDesigner"
    ensures Steps[4].id == "testingStrategist"
    ensures forall i, j :: 0 <= i < j < |Steps| ==> Steps[i].saveKey != Steps[j].saveKey
  {
  }

  /** Which inputs each step reads, as the save keys of earlier steps. */
  lemma InputsOfEachStep(s: WS.State)
    ensures GetInput(0, s) == Some(s.systemDescription)
    ensures GetInput(1, s) == WS.GetOutput(s, Steps[0].saveKey)
    ensures GetInput(2, s) == Some(Interpolate(WS.GetOutput(s, Steps[0].saveKey)) + "\n\n" + Interpolate(WS.GetOutput(s, Steps[1].saveKey)))
    ensures GetInput(3, s) == WS.GetOutput(s, Steps[2].saveKey)
    ensures GetInput(4, s) == WS.GetOutput(s, Steps[3].saveKey)
  {
  }

  /** Two states that agree on the description and on the outputs of steps before `k`. */
  predicate AgreeBefore(s1: WS.State, s2: WS.State, k: int)
    requires 0 <= k <= |Steps|
  {
    && s1.systemDescription == s2.systemDescription
    && forall i :: 0 <= i < k ==> WS.GetOutput(s1, Steps[i].saveKey) == WS.GetOutput(s2, Steps[i].saveKey)
  }

  /** Step `k` reads only the description and the outputs of earlier steps. */
  lemma InputReadsOnlyEarlierOutputs(k: int, s1: WS.State, s2: WS.State, feedback: Option<string>)
    requires IsStepIndex(k) && AgreeBefore(s1, s2, k)
    ensures GetInput(k, s1) == GetInput(k, s2)
    ensures UserPrompt(k, s1, feedback) == UserPrompt(k, s2, feedback)
  {
    if k >= 1 {
      assert WS.GetOutput(s1, Steps[0].saveKey) == WS.GetOutput(s2, Steps[0].saveKey);
    }
    if k >= 2 {
      assert WS.GetOutput(s1, Steps[1].saveKey) == WS.GetOutput(s2, Steps[1].saveKey);
    }
    if k >= 3 {
      assert WS.GetOutput(s1, Steps[2].saveKey) == WS.GetOutput(s2, Steps[2].saveKey);
    }
    if k >= 4 {
      assert WS.GetOutput(s1, Steps[3].saveKey) == WS.GetOutput(s2, Steps[3].saveKey);
    }
  }

  /** Saving a step's own output, or any later one, leaves that step's prompt unchanged. */
  lemma SavingLaterOutputKeepsPrompt(k: int, j: int, s: WS.State, content: string, feedback: Option<string>)
    requires IsStepIndex(k) && IsStepIndex(j) && k <= j
    ensures UserPrompt(k, WS.SaveOutput(s, Steps[j].saveKey, content), feedback) == UserPrompt(k, s, feedback)
  {
    var s2 := WS.SaveOutput(s, Steps[j].saveKey, content);
    forall i | 0 <= i < k
      ensures WS.GetOutput(s, Steps[i].saveKey) == WS.GetOutput(s2, Steps[i].saveKey)
    {
      RegistryShape();
    }
    InputReadsOnlyEarlierOutputs(k, s, s2, feedback);
  }

  /** Setting the step counter leaves every prompt unchanged. */
  lemma CounterDoesNotAffectPrompt(k: int, s: WS.State, step: int, feedback: Option<string>)
    requires IsStepIndex(k)
    ensures UserPrompt(k, WS.SetCurrentStep(s, step), feedback) == UserPrompt(k, s, feedback)
  {
    InputReadsOnlyEarlierOutputs(k, s, WS.SetCurrentStep(s, step), feedback);
  }
}

=== FILE: wrappers.dfy ===
/** Failure-compatible wrappers shared by every module of the model. */
module Wrappers {

  /** A JavaScript value that may be `null`/`undefined` (None) or present (Some). */
  datatype Option<+T> = None | Some(value: T)

  /** The outcome of an operation that may throw an `Error` carrying a message. */
  datatype Result<+T> = Ok(value: T) | Err(message: string)

  /** Map lookup where a missing key reads as `undefined`. */
  function Lookup<K, V>(m: map<K, V>, k: K): (r: Option<V>)
    ensures r.Some? <==> k in m
    ensures r.Some? ==> r.value == m[k]
  {
    if k in m then Some(m[k]) else None
  }
}
